=== FILE: README.md ===
# Veloxloop core, modelled in Dafny

Veloxloop is an asyncio event loop for Python written in Rust. This project
models its core as pure state machines and proves properties of them:

- the hierarchical timer wheel (`Timers`): four wheels of 256 one-millisecond
  slots, slab storage, the id index and the cached minimum deadline;
- the stream reader and writer (`Streams`): the buffer, separators, EOF,
  stored exceptions, parked waiters, and the writer's watermarks;
- the per-descriptor handle registry (`Handles`) and the loop's reader and
  writer registration on top of it (`LoopIo`), including oneshot readers;
- the callback queue and the `sock_sendall` / `sock_recv` callbacks
  (`Callbacks`);
- the io_uring poller (`Poller`) and the epoll wrapper (`Epoll`);
- one loop iteration, both the native one (`LoopPoll`) and the older
  `polling`-crate one with `run_forever`, `stop` and `close` (`LoopLegacy`);
- the TCP, stream-server and UDP transports' buffering, flow control and
  close logic (`Tcp`, `StreamServer`, `Udp`);
- the `io_backend` layer: backend kinds and interests (`IoBackend`),
  operations and results (`Ops`), the configuration builder
  (`BackendTraits`), the epoll-based `PollBackend` and the io_uring
  backend (`Uring`).

Each module is a set of immutable datatypes and pure functions. Anything the
kernel, the Python interpreter or the clock decides becomes a parameter:

- a system call's answer is an `Option<int>` failure or a list of answers;
- the current time is a number of nanoseconds;
- a Python callable, future or protocol is an opaque number.

Where the code has a defect, the module has a `Variant` parameter
(`AsWritten` or `Corrected`). A lemma exhibits the defect on the as-written
variant and proves the intended property of the corrected one, which the
rest of the model uses.

Integer widths matter in only a few places, and there they are explicit:

- the epoll timeout's cast to `i32`;
- the io_uring timeout's cast to `u32`;
- the `U32` configuration fields.

Everywhere else, counters and sizes are unbounded naturals.

The timer wheel's completeness rests on an invariant (`Timers.Reachable`):
every live timer has a slot entry where the clock will find it in time.
Either the entry is in wheel 0, in a slot the clock processes no later than
the timer's millisecond, or it is in an upper wheel, in the slot of the
block that holds its deadline, and that block starts after the current
tick. `insert`, `cancel` and each tick of `pop_expired` keep this invariant.
Because of it, `pop_expired` fires every due timer, not just due ones.

## Model

| member | source | states |
|---|---|---|
| Timers.Span | src/timers.rs:159-167 | the span of a slot of wheel `w`, `1 << (w * 8)`, is positive |
| Timers.EmptySlab | src/timers.rs:91 | a new slab is well formed and holds no entry |
| Timers.VacantKey | src/timers.rs:118 | the key the slab hands out next is never one in use |
| Timers.SlabInsert | src/timers.rs:130 | inserting stores the entry under the vacant key, changes no other key, and keeps the slab well formed |
| Timers.SlabRemove | src/timers.rs:176 | removing an occupied key deletes only it, and that key is the next one handed out |
| Timers.New | src/timers.rs:81-98 | a new wheel starts at tick 0, hands out id 1 first, and holds no timer |
| Timers.NewValid | src/timers.rs:81-98 | a new wheel satisfies the full wheel invariant |
| Timers.WheelFor | src/timers.rs:156-167 | a timer goes to the lowest of the four wheels whose range covers how far ahead it is |
| Timers.SlotIndex | src/timers.rs:169 | the slot index is below the wheel size |
| Timers.CascadeTimer | src/timers.rs:147-171 | placing a timer changes only the wheels |
| Timers.CascadeClampsToCurrent | src/timers.rs:150-154 | a deadline at or behind the clock lands in wheel 0 at the current tick's slot |
| Timers.CascadeKeepsWheel0Sound | src/timers.rs:147-171 | placing a timer keeps every live wheel-0 timer due by the tick that processes its slot |
| Timers.CascadeKeepsIdsFresh | src/timers.rs:147-171 | placing a timer with an issued id keeps every id below the counter |
| Timers.CascadePlaced | src/timers.rs:147-171 | a placed timer lands in wheel 0 at a slot the clock reaches by its deadline, or in an upper wheel at the slot of its deadline's block, which starts after the current tick; no entry is lost |
| Timers.Store | src/timers.rs:114-138 | the bookkeeping half of `insert` leaves the wheels and the clock alone |
| Timers.InsertWith | src/timers.rs:106-145 | `insert` returns the counter's id and advances the counter by one |
| Timers.Insert | src/timers.rs:106-145 | the corrected `insert` returns the counter's id and advances the counter by one |
| Timers.InsertNextExpiry | src/timers.rs:106-145 | after `insert` the timer is live under its id with its deadline, and a cached minimum is at most that deadline |
| Timers.StoreKeepsIndex | src/timers.rs:114-131 | storing keeps the slab well formed and the id index and slab in agreement both ways |
| Timers.StoreKeepsIdsFresh | src/timers.rs:114-131 | storing keeps every id below the counter |
| Timers.StoreKeepsWheel0Sound | src/timers.rs:114-131 | stale entries on a reused slab key cannot claim the new timer |
| Timers.StoreKeepsCacheSound | src/timers.rs:133-138 | the corrected cache update keeps the cache equal to the minimum live deadline |
| Timers.InsertValid | src/timers.rs:106-145 | corrected, `insert` preserves the full wheel invariant: the index, fresh ids, the current-tick slots, every live timer findable in time, and a cached minimum that is the earliest live deadline |
| Timers.FrameFindable | src/timers.rs:106-183 | a timer whose key and entry are unchanged stays findable while the wheels only gain entries and the clock stands still |
| Timers.InsertReach | src/timers.rs:106-171 | `insert` places the new timer where the clock finds it and leaves every other timer findable |
| Timers.Cancel | src/timers.rs:173-183 | after `cancel` the id is no longer indexed, and a successful cancel clears the cache |
| Timers.CancelKeepsWheelValid | src/timers.rs:173-183 | `cancel` keeps the index, fresh ids and the current-tick slots sound |
| Timers.CancelReach | src/timers.rs:173-183 | `cancel` leaves every other timer findable |
| Timers.CancelSpec | src/timers.rs:173-183 | `cancel` answers true exactly for a live id and then removes only its entry; otherwise it changes nothing; it keeps the invariant; a second cancel answers false |
| Timers.NextExpiry | src/timers.rs:185-193 | `next_expiry` returns the cache if set; otherwise the minimum live deadline, which is absent exactly when no timer is live |
| Timers.FireOne | src/timers.rs:204-209 | handling one wheel-0 entry changes only the slab and the index |
| Timers.FireOneSpec | src/timers.rs:204-209 | a corrected claim fires exactly the timer the entry refers to, removes only it from slab and index, and fires nothing for a stale entry |
| Timers.FireAll | src/timers.rs:203-210 | draining a wheel-0 slot changes only the slab and the index |
| Timers.FireAllSpec | src/timers.rs:203-210 | draining a slot fires only live timers, each as stored, and un-indexes exactly those |
| Timers.FireAllShrinks | src/timers.rs:203-210 | draining a slot only takes ids out of the index |
| Timers.FireAllComplete | src/timers.rs:203-210 | draining a slot un-indexes every live timer among its entries |
| Timers.FireAllBound | src/timers.rs:203-210 | nothing fired from a slot is due later than a bound that every live entry of it meets |
| Timers.Wheel0SoundShrink | src/timers.rs:206-207 | removing timers from the slab keeps wheel 0 sound |
| Timers.Recascade | src/timers.rs:240-245 | re-cascading changes only the wheels |
| Timers.RecascadeKeeps | src/timers.rs:214-245 | re-cascading an upper slot's entries keeps wheel 0 sound and ids below the counter |
| Timers.RemoveSlotKeeps | src/timers.rs:203-220 | taking a slot's entries out keeps both invariants |
| Timers.CascadeUpper | src/timers.rs:214-229 | the boundary cascade changes only the wheels |
| Timers.CascadeUpperKeeps | src/timers.rs:214-229 | the boundary cascade keeps wheel 0 sound and ids below the counter |
| Timers.RecascadeReach | src/timers.rs:240-245 | re-cascading keeps every entry already in the wheels and places each live one where the clock finds it by its deadline |
| Timers.CascadeStopReach | src/timers.rs:214-229 | the cascade stops at the first wheel whose boundary was not crossed, and then every live timer is findable in time |
| Timers.CascadeStepReach | src/timers.rs:214-229 | cascading one crossed wheel leaves the entries of higher wheels pending and every live timer findable |
| Timers.CascadeCrossReach | src/timers.rs:214-229 | cascading from a crossed boundary ends with every live timer findable in time |
| Timers.CascadeUpperReach | src/timers.rs:214-229 | the boundary cascade ends with every live timer findable in time |
| Timers.ClockStepKeeps | src/timers.rs:212 | advancing the clock past an emptied slot keeps every live wheel-0 timer due by its slot's next tick |
| Timers.Tick | src/timers.rs:199-230 | one loop iteration advances the clock by one tick and leaves the id counter and cache alone |
| Timers.TickFireSpec | src/timers.rs:200-210 | the processed slot ends empty and fires only timers due by the current tick, each as stored |
| Timers.TickSpec | src/timers.rs:199-230 | one iteration keeps the wheel valid and fires only timers due by the tick it processed |
| Timers.DuePlacedNow | src/timers.rs:200-201 | a findable timer already due sits in wheel 0 at the slot of the current tick |
| Timers.TickFiresDue | src/timers.rs:200-210 | one iteration fires every live timer due by the tick it processes |
| Timers.FiredState | src/timers.rs:200-210 | draining the current wheel-0 slot empties it, keeps the index sound, and un-indexes every live timer among its entries |
| Timers.ClockStepPlaced | src/timers.rs:212 | a findable timer not in the drained slot stays findable one tick later, pending the cascade |
| Timers.AllStillFindable | src/timers.rs:200-212 | after the slot is drained and the clock advanced, every timer still live is findable, pending the cascade |
| Timers.FiredReach | src/timers.rs:200-212 | after draining the slot and advancing the clock every live timer is findable, pending the cascade |
| Timers.TickReach | src/timers.rs:199-230 | one iteration keeps every live timer findable in time |
| Timers.Advance | src/timers.rs:199-230 | the loop leaves the clock one past the target, or where it was if already past it |
| Timers.AdvanceSpec | src/timers.rs:199-230 | the loop keeps the wheel valid, fires only timers due by the target, and un-indexes exactly the fired ones |
| Timers.AdvanceShrinks | src/timers.rs:199-230 | the loop only takes ids out of the index |
| Timers.AdvanceReach | src/timers.rs:199-230 | the loop keeps every live timer findable in time |
| Timers.AdvanceComplete | src/timers.rs:199-230 | from a clock at or before the target, the loop un-indexes every live timer due by the target |
| Timers.AdvanceFiresDue | src/timers.rs:199-230 | from a clock at or before the target, the loop returns every live timer due by the target |
| Timers.AdvanceLeavesNoneDue | src/timers.rs:199-230 | from a clock at or before the target, no live timer due by the target is left |
| Timers.PopExpiredWith | src/timers.rs:195-238 | a target behind the clock changes nothing; otherwise the clock ends one past the target; firing anything clears the cache |
| Timers.PopExpired | src/timers.rs:195-238 | on the corrected wheel, a target behind the clock changes nothing |
| Timers.PopExpiredSpec | src/timers.rs:195-238 | `pop_expired` keeps the invariant (including that every live timer is findable in time) and never fires a timer before its deadline; each fired timer was live as stored and is no longer indexed; once `now` has caught up with the clock, every live timer due by `now` is fired and none due is left |
| Timers.PopExpiredComplete | src/timers.rs:195-238 | once `now` has caught up with the clock, `pop_expired` returns every live timer due by `now`, leaves no live timer due by `now`, and keeps every live timer findable |
| Timers.ReachIgnoresCache | src/timers.rs:232-235 | whether every live timer is findable does not depend on the cache |
| Timers.NothingDueNothingFires | src/timers.rs:195-238 | when every live timer is due after `now`, nothing fires |
| Timers.WheelValidIgnoresCache | src/timers.rs:232-235 | the wheel invariant does not depend on the cache |
| Timers.StaleCacheAsWritten | src/timers.rs:134-179 | insert 10, insert 20, cancel the second, insert 30: the cache reads 30 while a 10 ns timer is live |
| Timers.StaleCacheFirstTwo | src/timers.rs:106-145 | the state after the first two inserts of that sequence |
| Timers.StaleCacheLastTwo | src/timers.rs:134-179 | the cancel and third insert of that sequence leave a wrong cache |
| Timers.EarlyFireAsWritten | src/timers.rs:203-244 | insert at 0 ms, cancel, insert at 5 ms: `pop_expired` at 0 ms fires the 5 ms timer through the stale slot entry |
| Timers.EarlyFirstInsert | src/timers.rs:106-145 | the state after the first insert of that sequence |
| Timers.EarlyCancelAndReuse | src/timers.rs:118-183 | the cancel frees slab key 0, and the next insert reuses it |
| Timers.EarlyPopAsWritten | src/timers.rs:203-209 | the stale wheel-0 entry claims the reused key at tick 0 |
| Timers.EarlyCorrectedValid | src/timers.rs:106-183 | the corrected wheel is valid after the same insert, cancel and insert |
| Timers.EarlyFireCorrected | src/timers.rs:195-238 | the corrected wheel fires nothing at 0 ms after the same sequence |
| Streams.FindSep | src/streams.rs:120-128 | the search returns the first position at or after `from` where the separator occurs, or none when it occurs nowhere there |
| Streams.NewReader | src/streams.rs:34-44 | a new reader is empty, not at EOF, has no exception and no waiters, and defaults its limit to 64 KiB |
| Streams.TryReadUntil | src/streams.rs:113-152 | a stored exception fails the attempt and keeps the buffer; otherwise the data returned is the buffer's prefix through the first separator, or the whole buffer at EOF when no separator occurs; it blocks only when neither holds, and then changes nothing |
| Streams.TryReadUntilAtEof | src/streams.rs:113-152 | with no separator in the buffer, EOF returns the whole buffer and empties it; before EOF the attempt blocks |
| Streams.TryReadExactly | src/streams.rs:155-180 | an exception fails the attempt; `n` buffered bytes return the first `n`; fewer fail at EOF with the ValueError "Not enough data: expected n, got m" naming both counts, and block otherwise |
| Wrappers.DecimalString | src/streams.rs:172-174 | a count prints as digits only, with a leading zero exactly for zero |
| Wrappers.DecimalRoundTrip | src/streams.rs:172-174 | parsing a printed count gives the count back |
| Wrappers.DecimalInjective | src/streams.rs:172-174 | different counts print differently, so the message determines them |
| Streams.TryReadExactlySplits | src/streams.rs:155-180 | a successful attempt returns `n` bytes, which followed by the rest of the buffer are the buffer |
| Streams.TryWaiter | src/streams.rs:76-80 | a waiter's attempt changes at most the buffer |
| Streams.Settle | src/streams.rs:82-98 | a waiter's future is resolved exactly when its attempt returned data, and raised otherwise |
| Streams.WakeFrom | src/streams.rs:69-104 | waking waiters leaves EOF, the exception and the limit alone |
| Streams.StuckAfterConsume | src/streams.rs:69-104 | a waiter that could not proceed still cannot after bytes are consumed from the front |
| Streams.RemovedSpec | src/streams.rs:82-98 | settling one waiter removes it and consumes exactly the bytes it received |
| Streams.RemovedKeepsStuck | src/streams.rs:82-98 | removing a settled waiter keeps the earlier blocked waiters blocked |
| Streams.WakeFromConserves | src/streams.rs:69-104 | the bytes delivered to woken waiters, followed by the buffer left, are the buffer before; no waiter is lost or invented |
| Streams.WakeFromDelivers | src/streams.rs:69-104 | the bytes handed to settled waiters, in waiter order, followed by the buffer left, are exactly the buffer before |
| Streams.WakeFromKeepsWaiters | src/streams.rs:69-104 | every waiter is either settled once or still waiting, and no waiter is invented |
| Streams.WakeFromStuck | src/streams.rs:69-104 | every waiter left after the pass is still blocked on what is left of the buffer |
| Streams.WakeUpSpec | src/streams.rs:69-104 | `_wakeup_waiters` conserves the bytes, keeps the remaining waiters a subset, and leaves only blocked waiters |
| Streams.WakeFromWithException | src/streams.rs:69-104 | with an exception stored, every waiter from the start position is raised and no byte is delivered |
| Streams.WakeUpWithException | src/streams.rs:69-104 | with an exception stored, every waiter is raised and the buffer is untouched |
| Streams.FeedDataSpec | src/streams.rs:47-59 | empty data changes nothing; otherwise the bytes delivered plus the buffer left are the old buffer plus the data |
| Streams.FeedEof | src/streams.rs:62-66 | `feed_eof` sets EOF |
| Streams.FeedEofSettlesReads | src/streams.rs:62-66 | after `feed_eof` no byte is lost and only `readexactly` waiters can still be waiting |
| Streams.SetException | src/streams.rs:183-186 | `set_exception` stores the message and keeps the buffer |
| Streams.AtEof | src/streams.rs:194-196 | `at_eof` holds exactly when EOF was fed and the buffer is empty |
| Streams.Read | src/streams.rs:200-221 | `read` raises and clears a stored exception; otherwise it returns a buffer prefix of at most `n` bytes, or everything for a negative `n` |
| Streams.ExceptionObservedThenConsumed | src/streams.rs:113-221 | the try-reads leave a stored exception in place, `read` consumes it, and the next `read` succeeds |
| Streams.Park | src/streams.rs:227-232 | a blocked read appends its waiter and returns its future |
| Streams.ReadExactlyCall | src/streams.rs:224-235 | `readexactly` returns a future exactly when no exception is stored, fewer than `n` bytes are buffered, and EOF has not been fed |
| Streams.ReadUntilCall | src/streams.rs:239-256 | an empty separator raises a ValueError; a blocked call appends its waiter and keeps the buffer |
| Streams.ReadLineCall | src/streams.rs:259-270 | a line returned at once is a prefix of the buffer and is consumed from it |
| Streams.NewWriter | src/streams.rs:312-328 | a new writer is empty and open, with watermarks defaulting to 64 KiB and 16 KiB |
| Streams.Write | src/streams.rs:336-360 | `write` on a closed or closing writer raises the source's message and changes nothing; otherwise the data is appended, and the call succeeds exactly when the transport's `_trigger_write` does, raising its error with the data kept otherwise |
| Streams.FirstFailure | src/streams.rs:388-393 | the index of the first `_trigger_write` that raises: all earlier ones returned |
| Streams.WriteLinesSpec | src/streams.rs:388-393 | `writelines` on a closing writer with lines fails without appending; otherwise it appends the lines up to and including the first whose `_trigger_write` raises and raises that error, or appends them all and succeeds |
| Streams.Close | src/streams.rs:396-399 | `close` makes the writer closing and keeps its buffer |
| Streams.WriteEof | src/streams.rs:433-443 | `write_eof` is refused exactly when already closed, and otherwise marks the writer closed and closing |
| Streams.ClearBuffer | src/streams.rs:417-420 | `_clear_buffer` returns the buffer and leaves it empty |
| Streams.WriterFlags | src/streams.rs:336-430 | a closing or closed writer refuses writes; a second `write_eof` fails; needing a drain and being drained exclude each other; a cleared writer is drained |
| Streams.Drain | src/streams.rs:363-374 | `drain` completes at once exactly when the buffer is at or below the low watermark, and otherwise parks a future |
| Streams.WakeupDrainWaiters | src/streams.rs:377-385 | once drained, every parked drain future is released in order; otherwise none is |
| Handles.New | src/handles.rs:42-46 | a new registry is empty |
| Handles.AddReader | src/handles.rs:48-62 | `add_reader` installs a fresh reader for `fd`, keeps its writer, and changes no other descriptor |
| Handles.AddWriter | src/handles.rs:88-102 | `add_writer` installs a fresh writer for `fd`, keeps its reader, and changes no other descriptor |
| Handles.RemoveReader | src/handles.rs:64-86 | `remove_reader` answers whether a reader was there; removing it keeps the writer and drops the entry when no writer remains; an absent reader changes nothing |
| Handles.RemoveWriter | src/handles.rs:104-126 | `remove_writer` answers whether a writer was there; removing it keeps the reader and drops the entry when no reader remains; an absent writer changes nothing |
| Handles.AddThenGet | src/handles.rs:48-138 | the getters read back what `add_reader` and `add_writer` stored, and the other side is unchanged |
| Handles.AddRemoveReaderRoundTrip | src/handles.rs:48-86 | adding then removing a reader on a descriptor without one restores the registry and answers true |
| Handles.AddRemoveWriterRoundTrip | src/handles.rs:88-126 | adding then removing a writer on a descriptor without one restores the registry and answers true |
| Handles.RemoveBothDropsEntry | src/handles.rs:64-126 | removing both sides, in either order, drops the descriptor's entry |
| Callbacks.NewQueue | src/callbacks.rs:28-33 | a new queue is empty |
| Callbacks.Push | src/callbacks.rs:35-42 | `push` appends the callback at the back and keeps the rest |
| Callbacks.PopAll | src/callbacks.rs:44-47 | `pop_all` returns everything queued, in order, and leaves the queue empty |
| Callbacks.PushAllThenPopAll | src/callbacks.rs:35-51 | pushing callbacks then popping all returns the old items followed by the new ones in push order |
| Callbacks.NewSendall | src/callbacks.rs:399-413 | a new `sock_sendall` callback has sent nothing of its data |
| Callbacks.SockSendall | src/callbacks.rs:361-395 | the callback sends the unsent tail until done, blocked or failed; it never counts past the data, finishes exactly when all is sent, and matches the reference outcome |
| Callbacks.SendallRefBounds | src/callbacks.rs:361-395 | the reference outcome keeps the count between its old value and the length, and reports completion exactly when all is sent |
| Callbacks.RecvInto | src/callbacks.rs:308-318 | `recv` fills a buffer of `nbytes` and returns a count of at most `nbytes` |
| Callbacks.SockRecv | src/callbacks.rs:307-335 | an `EAGAIN` failure keeps the reader waiting; any other failure raises with its errno |
| Callbacks.SockRecvTruncates | src/callbacks.rs:307-335 | a completed `sock_recv` returns exactly the first bytes the peer sent, as many as fit, and no padding |
| LoopIo.ApplyArms | src/poller.rs:285-349 | a register, oneshot register, re-arm or modify arms exactly the requested sides of its own descriptor on success, a delete disarms it, and no other descriptor changes |
| LoopIo.AddReader | src/event_loop/io.rs:17-35 | `add_reader` installs the reader and asks for read interest, plus write interest when a writer exists; it registers a descriptor with no handle and modifies one that has a handle |
| LoopIo.AddWriter | src/event_loop/io.rs:98-116 | `add_writer` installs the writer and asks for write interest, plus read interest when a reader exists; it registers a descriptor with no handle and modifies one that has a handle |
| LoopIo.RemoveReader | src/event_loop/io.rs:140-160 | an absent reader answers false and does nothing; otherwise the descriptor is downgraded to write interest when a writer remains and deleted when none does, then it leaves the disabled set; a failed downgrade returns before that |
| LoopIo.RemoveWriter | src/event_loop/io.rs:166-186 | an absent writer answers false and does nothing; otherwise the descriptor is downgraded to read interest when a reader remains and deleted when none does, then it leaves the disabled set |
| LoopIo.AddReaderOneshot | src/event_loop/io.rs:39-69 | a oneshot reader is installed; a disabled descriptor is re-armed and leaves the disabled set; any other descriptor is registered oneshot |
| LoopIo.MarkOneshotDisabled | src/event_loop/io.rs:73-78 | a fired oneshot reader is dropped and its descriptor remembered as disabled, with the poller untouched |
| LoopIo.CleanupOneshot | src/event_loop/io.rs:82-88 | a disabled descriptor is deleted from the poller and leaves the set; any other descriptor is left alone |
| LoopIo.ConsistentAfter | src/event_loop/io.rs:17-186 | a registry change confined to one descriptor, followed by a successful request arming exactly its new sides, keeps the poller in step with the registry |
| LoopIo.AddKeepsConsistent | src/event_loop/io.rs:17-116 | a successful `add_reader` or `add_writer` keeps every registered descriptor armed with exactly the sides it has handles for |
| LoopIo.RemoveKeepsConsistent | src/event_loop/io.rs:140-186 | a successful `remove_reader` or `remove_writer` keeps the poller in step with the registry |
| LoopIo.OneshotKeepsConsistent | src/event_loop/io.rs:39-69 | a oneshot reader keeps the poller in step when no writer exists; with a writer, the read-only request loses the write interest |
| Poller.EventNone | src/poller.rs:67-73 | `PollerEvent::none` keeps its key and has no interest |
| Poller.EventReadable | src/poller.rs:77-83 | `PollerEvent::readable` asks for reading only |
| Poller.EventWritable | src/poller.rs:87-93 | `PollerEvent::writable` asks for writing only |
| Poller.EventAll | src/poller.rs:97-103 | `PollerEvent::all` asks for both |
| Poller.EventConstructors | src/poller.rs:61-109 | an event has no interest exactly when it is `none`, and otherwise it is one of the three other constructors |
| Poller.SubmitPollAdd | src/poller.rs:220-258 | with room in the submission queue the poll is queued and recorded as pending under its token; a full queue fails and records nothing |
| Poller.SubmitPollRemove | src/poller.rs:270-281 | the poll is forgotten whether or not the removal fits in the queue, and nothing else changes |
| Poller.NewPoller | src/poller.rs:179-212 | the eventfd's read poll takes token 1, the counter moves to 2, and no descriptor is mapped |
| Poller.RearmOneshot | src/poller.rs:316-325 | `rearm_oneshot` maps the descriptor to a fresh token without cancelling anything and records the poll when it is queued |
| Poller.RegisterSpec | src/poller.rs:285-300 | `register` and `modify` drop the descriptor's old poll, map it to a never-used token, keep every other pending poll, and succeed exactly when the new poll fits in the queue |
| Poller.Delete | src/poller.rs:344-349 | `delete` forgets the descriptor and its poll, and leaves an unknown descriptor alone |
| Poller.RegisterArms | src/poller.rs:285-340 | after `register` or `modify` the descriptor is armed with the requested interest, or with nothing if the queue was full, and no other descriptor's armed interest changes |
| Poller.RearmArms | src/poller.rs:316-325 | the same holds for `rearm_oneshot` |
| Poller.DeleteDisarms | src/poller.rs:344-349 | after `delete` nothing is armed for the descriptor and every other descriptor keeps its armed interest |
| Poller.DecodePoll | src/poller.rs:427-449 | a non-negative result reports POLLIN or POLLHUP as readable, POLLOUT as writable and POLLERR as error; a cancellation reports nothing; any other failure reports an error-only event |
| Poller.Complete | src/poller.rs:409-451 | token 0 is skipped; the eventfd's token asks for a re-arm and yields no event; an event comes only from a pending poll |
| Poller.CompleteDescriptor | src/poller.rs:426-450 | a finished descriptor poll leaves the pending map and reports its decoded event; it unmaps the descriptor unless it was cancelled |
| Poller.CompleteAll | src/poller.rs:409-451 | the completion loop leaves the counter, the eventfd token and the queue alone |
| Poller.CompleteAllEvents | src/poller.rs:409-451 | a batch yields at most one event per completion, asks for a re-arm exactly when the eventfd's token is in it, and never adds a pending poll |
| Poller.CorrectedForgetsCompleted | src/poller.rs:409-457 | with the correction, no poll whose completion was consumed is still pending |
| Poller.EventfdPollLeaksAsWritten | src/poller.rs:417-457 | as written, after one wake-up the eventfd's finished poll under token 1 stays pending beside its re-arm under token 2 |
| Poller.EventfdPollForgottenCorrected | src/poller.rs:417-457 | corrected, the same wake-up leaves only token 2 pending |
| Poller.StubRegister | src/poller.rs:811-845 | the non-Linux stub's `register`, `register_oneshot`, `rearm_oneshot` and `modify` store the interest |
| Poller.StubDelete | src/poller.rs:847-850 | the stub's `delete` forgets the descriptor |
| Poller.StubPollNative | src/poller.rs:858-864 | the stub never reports an event |
| Poller.StubRoundTrip | src/poller.rs:811-869 | `is_registered` sees registration and deletion, other descriptors are unaffected, and deleting undoes registering a new descriptor |
| Epoll.NewInterest | src/epoll.rs:21-23 | `Interest::new` keeps both flags and is level-triggered |
| Epoll.OneshotInterest | src/epoll.rs:26-28 | `Interest::oneshot` keeps both flags and is oneshot |
| Epoll.ToEpollEventsBits | src/epoll.rs:31-43 | the mask has EPOLLIN, EPOLLOUT and EPOLLONESHOT set exactly when the matching flag is, so it decodes back to the interest |
| Epoll.New | src/epoll.rs:71-112 | a new instance has no registration, and its wake pipe is not among them |
| Epoll.Add | src/epoll.rs:116-129 | `add` records the interest exactly when `epoll_ctl` succeeds, and otherwise returns its errno and changes nothing |
| Epoll.Delete | src/epoll.rs:157-169 | `delete` succeeds on success or ENOENT and then unregisters the descriptor; any other failure changes nothing |
| Epoll.CtlSpec | src/epoll.rs:116-169 | after a successful call `add` and `modify` record the interest and `delete` unregisters; `modify` skips the system call exactly when the recorded interest is equal, so a repeated `modify` makes none; no other descriptor changes |
| Epoll.WrapI32 | src/epoll.rs:195-198 | the `as i32` cast lands in the `i32` range and keeps values that fit |
| Epoll.TimeoutMsWith | src/epoll.rs:195-198 | no timeout waits forever (-1) |
| Epoll.TimeoutMsSpec | src/epoll.rs:195-198 | corrected, a timeout is never forever and never negative, passes through exactly when it fits, saturates at the largest `i32`, and grows with the timeout |
| Epoll.TimeoutWrapsAsWritten | src/epoll.rs:195-198 | as written, 2^31 ms becomes a negative (forever) timeout and 2^32 ms becomes 0 |
| Epoll.DecodeOne | src/epoll.rs:220-237 | a kernel entry decodes to its descriptor, readable exactly on EPOLLIN and writable exactly on EPOLLOUT |
| Epoll.DecodeSpec | src/epoll.rs:218-240 | the wake pipe is never reported, every reported event decodes some kernel entry, every entry of another descriptor is reported, and with no wake entry nothing is dropped |
| Epoll.DecodeAppend | src/epoll.rs:218-240 | decoding a batch is decoding its parts in turn, so reported events keep the kernel's order |
| Epoll.FirstNonEintr | src/epoll.rs:200-216 | locates the first kernel answer that is not an interruption: every earlier answer is EINTR |
| Epoll.Wait | src/epoll.rs:194-242 | `wait` acts on the first answer that is not EINTR: events it delivered are returned decoded, any other failure is returned with its errno, and with only EINTR answers it keeps waiting |
| LoopPoll.TimeoutSpec | src/event_loop/poll.rs:26-44 | the poll does not sleep exactly when callbacks wait or the next timer is due; otherwise it sleeps until the next timer, or 10 ms with no timer |
| LoopPoll.ProcessSingleSpec | src/event_loop/poll.rs:105-155 | an error event drops both handles, runs nothing and leaves the descriptor unarmed; otherwise the reader then the writer present before the event run, and the descriptor is re-armed with exactly the sides still having a handle; no other descriptor changes |
| LoopPoll.CollectSpec | src/event_loop/poll.rs:166-197 | each kept handle is the registered, uncancelled one for its descriptor and came with an event ready on its side; events for unknown descriptors contribute nothing |
| LoopPoll.RunSide | src/event_loop/poll.rs:203-218 | a native handle runs now and any other is deferred, and nothing is lost |
| LoopPoll.RunEntries | src/event_loop/poll.rs:202-232 | the dispatch loop runs only native callbacks, defers only the others, and only asks for re-arms with some interest |
| LoopPoll.RunEntriesStep | src/event_loop/poll.rs:202-232 | after an entry's callbacks, its descriptor is re-armed as a oneshot with exactly the sides that still have a handle, and only when some side does; a successful re-arm leaves it armed with exactly those sides and no other descriptor's arming changes |
| LoopPoll.RunEntriesSound | src/event_loop/poll.rs:202-232 | the batch's re-arms keep the poller well formed |
| LoopPoll.RunEntriesRequestFds | src/event_loop/poll.rs:221-231 | every re-arm of the batch is for a descriptor the batch has an entry for |
| LoopPoll.RunEntriesKeepsOthers | src/event_loop/poll.rs:221-231 | a descriptor without an entry in the batch keeps its arming |
| LoopPoll.RunEntriesRunsAll | src/event_loop/poll.rs:202-232 | every kept handle runs or is deferred, at most two per entry, with at most one re-arm per entry |
| LoopPoll.ProcessBatchOrder | src/event_loop/poll.rs:199-238 | in the batch path no native callback runs after a deferred Python one |
| LoopPoll.ProcessNativeEvents | src/event_loop/poll.rs:96-241 | no event does nothing; the batch path never fails |
| LoopPoll.RunOnce | src/event_loop/poll.rs:21-92 | a failed I/O phase (a callback or re-arm error) stops the iteration before timers and callbacks; otherwise the I/O, timer and callback phases run in that order, the timers fired are exactly those `pop_expired` returns, and every queued callback runs and leaves the queue |
| LoopLegacy.NewFlags | src/event_loop.rs:40-59 | a new loop is neither running, stopped nor closed, and is in debug mode exactly when asked |
| LoopLegacy.Stop | src/event_loop.rs:206-209 | `stop` requests a stop and leaves the running state; nothing else changes |
| LoopLegacy.Close | src/event_loop.rs:228-231 | `close` marks the loop closed and not running; nothing else changes |
| LoopLegacy.SetDebug | src/event_loop.rs:224-226 | `set_debug` touches only the debug flag |
| LoopLegacy.DebugRoundTrip | src/event_loop.rs:219-226 | `get_debug` reads back what `set_debug` stored, and storing the value read changes nothing |
| LoopLegacy.IterateSpec | src/event_loop.rs:72-87 | the loop runs iterations only while running and not stopped; only the last iteration can be anything but plain or a close; a raise comes from a failed iteration or a signal; a normal return leaves the loop not running |
| LoopLegacy.IterateLeaves | src/event_loop.rs:72-87 | corrected, the loop is not running after it ends in any way |
| LoopLegacy.RunForeverStopsRunning | src/event_loop.rs:65-88 | corrected, `run_forever` leaves the loop not running whether it returns or raises |
| LoopLegacy.RunningAfterFailureAsWritten | src/event_loop.rs:65-88 | as written, a failing `_run_once` raises out of `run_forever` with the loop still marked running |
| LoopLegacy.Commit | src/event_loop.rs:107-111 | a poller call is reported as made, succeeds exactly when the kernel accepts it, and the registry change stands either way |
| LoopLegacy.AddSpec | src/event_loop.rs:90-156 | `add_reader` and `add_writer` register exactly the descriptors the poller does not know, ask for the side added plus the other side if it has a handle, and keep registry and poller in agreement when the call succeeds |
| LoopLegacy.RemoveSpec | src/event_loop.rs:115-174 | removing an absent side answers false and does nothing; otherwise the descriptor is downgraded to the remaining side or deleted, and a successful call keeps registry and poller in agreement |
| LoopLegacy.Live | src/event_loop.rs:809-820 | a handle runs only if present and not cancelled, and every such handle runs |
| LoopLegacy.DispatchSpec | src/event_loop.rs:804-868 | an event runs at most two handles, never a cancelled one; afterwards a descriptor the poller knows is armed with exactly the sides having a handle |
| LoopLegacy.DispatchAllLive | src/event_loop.rs:804-869 | over a batch no cancelled handle runs, and at most two run per event |
| LoopLegacy.RunOnce | src/event_loop.rs:772-884 | queued callbacks make the poll not wait; otherwise it waits until the next timer or 10 ms; a poll error ends the iteration with nothing changed; otherwise I/O, timers and callbacks run in that order, every queued callback runs, and no cancelled handle runs |
| Tcp.New | src/transports/tcp.rs:1092-1110 | a new transport is active with nothing else set, uses the 64 KiB / 16 KiB marks, holds its socket, buffers nothing, and is not closing |
| Tcp.Taken | src/transports/tcp.rs:436-455 | the kernel never takes more than was offered, and a count that fits is taken as is |
| Tcp.ForceCloseInternal | src/transports/tcp.rs:737-755 | force-closing enters CLOSED once, leaving ACTIVE and CLOSING, and drops the socket, the reader and both registry entries; it keeps the buffer and the pause flag |
| Tcp.Abort | src/transports/tcp.rs:718-735 | `abort` and `_force_close` close the transport and tell the protocol |
| Tcp.CloseSpec | src/transports/tcp.rs:677-755 | force-closing and `close` are idempotent, also after a raising `close`; after `close` the transport is closing, and it is closed with the protocol told exactly when nothing was buffered; otherwise it keeps its bytes and arms the writer, or raises the error of `add_tcp_writer` with the writer flag unchanged |
| Tcp.SendWith | src/transports/tcp.rs:436-455 | a write keeps the state and the marks, and fails exactly when the socket is held, the data went to the kernel and the kernel refused it |
| Tcp.WriteWith | src/transports/tcp.rs:794-812 | a refused send raises and changes nothing; otherwise the sent and buffered bytes are the send's, and buffered bytes arm the writer, or raise the error of `add_tcp_writer` with the data kept and the writer flag unchanged |
| Tcp.WriteKeepsOrder | src/transports/tcp.rs:436-455 | corrected, a refused send changes nothing; otherwise the bytes on the wire followed by the buffer grow by exactly the data written, whatever `add_tcp_writer` answers; with an empty buffer a full write leaves it empty, a short write of `n` buffers `data[n..]` and a would-block buffers all of it |
| Tcp.WriteReordersAsWritten | src/transports/tcp.rs:436-455 | as written, a byte written while another waits in the buffer reaches the peer first |
| Tcp.WriteReady | src/transports/tcp.rs:547-590 | flushing never reorders or loses bytes and never grows the buffer; a zero-byte write raises "Connection closed during write"; an emptied buffer removes the loop's writer, raising exactly when `remove_writer` raises, and after a successful removal a closing transport closes and tells the protocol; an error never changes the state, and the writer stays as it was unless the buffer was emptied |
| Tcp.TriggerWrite | src/transports/tcp.rs:758-787 | a closing, closed or socketless transport, or one with nothing buffered, is untouched; otherwise bytes are flushed in order and, if any remain, the writer is armed, or the error `add_tcp_writer` raises is returned |
| Tcp.SetWriteBufferLimitsSpec | src/transports/tcp.rs:468-493 | the marks are rejected exactly when `high` is non-zero and `low` is not below it, and then nothing changes; accepted marks are stored with `high` defaulting to 64 KiB; the answer says whether the buffer is above the new high mark |
| Tcp.PauseReading | src/transports/tcp.rs:637-657 | the first `pause_reading` sets the pause flag and removes the reader, and raises exactly when `remove_reader` raises, with both changes made; a repeated call changes nothing |
| Tcp.ResumeReading | src/transports/tcp.rs:659-675 | on a paused transport `resume_reading` clears the flag and arms the reader, or raises the error of `add_tcp_reader` with the flag cleared and the reader as it was; an unpaused transport is untouched |
| Tcp.PauseResume | src/transports/tcp.rs:637-675 | pausing is idempotent and disarms the reader whatever the loop answers; resuming after a pause re-arms it and restores everything else; after a raising resume the transport is unpaused with no reader and a further resume does nothing |
| StreamServer.NewTransport | src/transports/stream_server.rs:246-292 | an accepted connection holds its socket, is not closing, has an empty writer, and has its reader armed and writer not armed |
| StreamServer.ForceClose | src/transports/stream_server.rs:74-82 | `force_close` drops the socket and both registry entries when it holds the socket; the transport is closing either way and the bytes are kept |
| StreamServer.CloseSpec | src/transports/stream_server.rs:53-82 | `close` and `force_close` are idempotent and leave the transport closing, also after a raising `close`; `close` keeps the buffer, marks the writer closing and removes the reader; it raises exactly when `remove_reader` raises, and then keeps the socket for good; otherwise it drops the socket exactly when nothing was buffered |
| StreamServer.WriteWith | src/transports/stream_server.rs:190-234 | a closing transport refuses the write with the source's message; a write keeps the closing flag and the socket |
| StreamServer.WriteSpec | src/transports/stream_server.rs:190-234 | corrected, bytes on the wire followed by the buffer grow by exactly the data; with bytes buffered nothing reaches the socket; it fails exactly on a direct write the kernel refuses; no buffered byte is left without an armed writer |
| StreamServer.WriteStallsAsWritten | src/transports/stream_server.rs:200-225 | as written, a short write into an idle connection buffers the rest with no writer armed |
| StreamServer.WriteReady | src/transports/stream_server.rs:117-157 | flushing keeps byte order; a zero-byte write raises "Connection closed during write"; an emptied buffer disarms the writer, wakes every drain waiter, and force-closes a closing transport |
| StreamServer.FinishFlush | src/transports/stream_server.rs:132-143 | once the buffer is empty, no byte is lost or invented, the writer is disarmed, every drain waiter is woken exactly once, and a closing transport drops its socket |
| StreamServer.Flush | src/transports/stream_server.rs:130-131 | moving `k` bytes to the wire keeps the bytes sent and drops exactly those `k` from the buffer |
| StreamServer.TriggerWrite | src/transports/stream_server.rs:160-188 | `_trigger_write` keeps the bytes sent, the closing flag and the socket, and leaves no buffered byte without an armed writer |
| StreamServer.NewServer | src/transports/stream_server.rs:399-412 | a new server is serving and holds its listener |
| StreamServer.CloseServer | src/transports/stream_server.rs:322-330 | `close` removes the listener's reader; unless `remove_reader` raises, it stops serving and drops the listener; if it raises, the server keeps serving with its listener |
| StreamServer.ServerLifecycle | src/transports/stream_server.rs:322-412 | a server serves until closed, closing twice is closing once, and a successful `close` after a raising one closes it as if the first had succeeded |
| Udp.New | src/transports/udp.rs:376-396 | a new transport holds its socket, is not closing, has broadcast off, has sent nothing, and keeps the addresses given |
| Udp.SendToSpec | src/transports/udp.rs:251-301 | `sendto` refuses while closing or without a socket; the destination is the explicit address, else the peer, else a ValueError; a success sends exactly one datagram there and changes nothing else; a would-block raises BlockingIOError |
| Udp.ForceClose | src/transports/udp.rs:233-247 | `_force_close` removes the loop's reader; unless `remove_reader` raises, it drops the socket and tells the protocol once; if it raises, the error is returned with the socket held and the protocol not told |
| Udp.CloseSpec | src/transports/udp.rs:216-247 | `close` is idempotent, also after a raising first call; the first call drops the socket and tells the protocol once, or raises the `remove_reader` error leaving the socket held for good; nothing can be sent afterwards |
| Udp.ExtraInfoSpec | src/transports/udp.rs:67-95 | `sockname` gives the local address and `peername` the peer's; a missing address or unknown name gives the default |
| Udp.SetBroadcast | src/transports/udp.rs:354-366 | without a socket it raises; it succeeds exactly when the option can be set, and then records the flag and nothing else |
| IoBackend.Current | src/io_backend/mod.rs:55-79 | the preferred backend is completion-based exactly on Linux with io_uring available, and on Windows |
| IoBackend.BackendKinds | src/io_backend/mod.rs:83-91 | every backend is exactly one of completion-based (io_uring, IOCP) and readiness-based (epoll, kqueue, polling) |
| IoBackend.Interest.Readable | src/io_backend/mod.rs:151-153 | `Interest::readable` asks for reading only |
| IoBackend.Interest.Writable | src/io_backend/mod.rs:156-158 | `Interest::writable` asks for writing only |
| IoBackend.Interest.Both | src/io_backend/mod.rs:161-163 | `Interest::both` asks for both |
| IoBackend.Interest.Empty | src/io_backend/mod.rs:166-168 | `Interest::none` asks for nothing |
| IoBackend.InterestConstructors | src/io_backend/mod.rs:138-168 | the derived default interest is the empty one; the four named interests are distinct and cover every interest |
| IoBackend.NewEvent | src/io_backend/mod.rs:183-191 | `IoEvent::new` names the descriptor with nothing ready |
| Ops.NewToken | src/io_backend/ops.rs:15-17 | `OpToken::new` keeps its id |
| Ops.ToLibcSpec | src/io_backend/ops.rs:144-151 | each shutdown direction maps to its own `shutdown(2)` constant in 0..2, with both directions mapping to `SHUT_RDWR` |
| Ops.ResultQueries | src/io_backend/ops.rs:227-242 | exactly the byte and receive-from results carry a byte count, it is their count, and an error never carries one |
| BackendTraits.New | src/io_backend/traits.rs:159-184 | a new configuration has no option set and no flag on |
| BackendTraits.WithSqEntries | src/io_backend/traits.rs:186-189 | `with_sq_entries` sets the submission queue size and changes nothing else |
| BackendTraits.WithCqEntries | src/io_backend/traits.rs:191-194 | `with_cq_entries` sets the completion queue size and changes nothing else |
| BackendTraits.WithKernelPoll | src/io_backend/traits.rs:196-199 | `with_kernel_poll` sets that flag and changes nothing else |
| BackendTraits.WithSqPoll | src/io_backend/traits.rs:201-204 | `with_sq_poll` sets that flag and changes nothing else |
| BackendTraits.BuildersCommute | src/io_backend/traits.rs:186-204 | builders on different fields commute, a later call of the same builder wins, and one builder leaves the other flags off |
| BackendTraits.IsCompletionBased | src/io_backend/traits.rs:23-26 | the trait's default kind is completion-based exactly when the backend type is not readiness-based |
| PollBackend.New | src/io_backend/poll_backend.rs:31-48 | a new backend has nothing registered, agrees with its epoll instance, and hands out tokens from 1 |
| PollBackend.BackendType | src/io_backend/poll_backend.rs:56-65 | the backend reports a readiness-based type |
| PollBackend.RegisterSpec | src/io_backend/poll_backend.rs:67-82 | `register` succeeds exactly when the kernel accepts and then records the interest and counts a new descriptor; a failure changes nothing; the backend keeps agreeing with its epoll instance |
| PollBackend.ModifySpec | src/io_backend/poll_backend.rs:84-106 | `modify` records the new interest on success, makes no system call and succeeds when the interest is unchanged, and changes nothing on failure |
| PollBackend.UnregisterSpec | src/io_backend/poll_backend.rs:108-122 | `unregister` succeeds exactly when the kernel accepts or answers ENOENT, then forgets the descriptor and counts one fewer; a failure changes nothing |
| PollBackend.Issue | src/io_backend/poll_backend.rs:50-52 | each token is the counter's value, and the counter moves on by one |
| PollBackend.SubmitReadSpec | src/io_backend/poll_backend.rs:161-205 | `submit_read` (and `submit_recv`) adds readability and keeps writability; an already readable descriptor needs no system call; a success takes the next token, a failure changes nothing |
| PollBackend.SubmitWriteSpec | src/io_backend/poll_backend.rs:180-214 | `submit_write` (and `submit_send`) adds writability and keeps readability; an already writable descriptor needs no system call; a success takes the next token, a failure changes nothing |
| PollBackend.ReadThenWrite | src/io_backend/poll_backend.rs:161-196 | a read then a write on a new descriptor leave it armed for both, with consecutive tokens |
| PollBackend.SubmitAccept | src/io_backend/poll_backend.rs:216-220 | `submit_accept` registers readability and succeeds exactly when the kernel accepts |
| PollBackend.SubmitConnect | src/io_backend/poll_backend.rs:222-254 | an immediate connect needs no arming; EINPROGRESS or EWOULDBLOCK arms writability; any other error is returned and changes nothing |
| PollBackend.SubmitClose | src/io_backend/poll_backend.rs:256-265 | `submit_close` succeeds exactly when `close(2)` does, and forgets the descriptor when its deregistration succeeds |
| PollBackend.Cancel | src/io_backend/poll_backend.rs:267-271 | cancelling is a successful no-op |
| PollBackend.GetCompletions | src/io_backend/poll_backend.rs:273-276 | a readiness backend never has completions |
| PollBackend.TokensIncrease | src/io_backend/poll_backend.rs:161-196 | tokens start at 1 and successive successful submissions take strictly increasing tokens |
| PollBackend.PollEvents | src/io_backend/poll_backend.rs:124-143 | `poll` blocks exactly when the epoll wait does, and its events report neither error nor hang-up |
| PollBackend.PollSpec | src/io_backend/poll_backend.rs:124-143 | the loop's wake-up descriptor never appears among the returned events |
| PollBackend.ToIoEvents | src/io_backend/poll_backend.rs:128-134 | each epoll event becomes one I/O event for the same descriptor with the same readiness, in order |
| Uring.New | src/io_backend/uring.rs:79-112 | a new backend hands out tokens from 1, has nothing pending, queued or completed, and a pool of 32 buffers within the pool's capacity |
| Uring.BackendType | src/io_backend/uring.rs:253-255 | the backend reports a completion-based type |
| Uring.RegistrationSpec | src/io_backend/uring.rs:257-272 | the registrations only record interests: a registered descriptor reads back, an unregistered one is gone, and other descriptors and every operation are untouched |
| Uring.Zeros | src/io_backend/uring.rs:129-140 | the zero fill has the requested length and only zero bytes |
| Uring.BufferPoolSpec | src/io_backend/uring.rs:129-147 | an acquired buffer holds exactly `size` zero bytes within its capacity and comes from the pool when the pool has one; a returned buffer is kept exactly when the pool has fewer than 64 and it is at most 64 KiB; a pooled buffer of an allowed size comes back |
| Uring.SubmitQueued | src/io_backend/uring.rs:119-121 | submitting empties the submission queue exactly when the kernel accepts |
| Uring.SubmitOpSpec | src/io_backend/uring.rs:335-363 | every submission takes a token; a full queue gives "SQ full" and records nothing; otherwise the operation is pending under its fresh token, and the token is returned exactly when the kernel accepts; completions, interests and the pool are untouched; a cancel is pending with descriptor -1 |
| Uring.DecodeSpec | src/io_backend/uring.rs:156-223 | a result is an error exactly when it is negative, except for a cancel, a connect answered EISCONN and a timeout answered ETIME; an error carries the negated result; transfers carry their byte count; an accept gives the client descriptor; a poll reports POLLIN and POLLOUT; a successful connect (or EISCONN) is a connect, a successful close a close, a successful or ETIME timeout a timeout, and a cancel always a cancellation |
| Uring.CompleteOne | src/io_backend/uring.rs:155-240 | an entry for an unknown token changes nothing; a known token leaves the pending map and appends exactly one completion with its decoded result |
| Uring.ProcessPending | src/io_backend/uring.rs:150-243 | after processing, exactly the tokens the completion queue named are no longer pending |
| Uring.ProcessSpec | src/io_backend/uring.rs:150-243 | processing appends one completion per pending operation it finishes, keeps the earlier completions, and leaves tokens, interests and the queue alone |
| Uring.ProcessCounts | src/io_backend/uring.rs:150-243 | the pending map only shrinks, and the completion list grows by exactly as much as it shrinks |
| Uring.ProcessOrder | src/io_backend/uring.rs:155-241 | the new completions name the pending tokens in the order the queue first names them, each once |
| Uring.ProcessReports | src/io_backend/uring.rs:155-241 | every new completion reports, for a token that was pending, the decoded result of a queue entry for it |
| Uring.GetCompletions | src/io_backend/uring.rs:555-557 | taking the completions returns them and leaves the list empty and everything else untouched |
| Uring.SubmitThenComplete | src/io_backend/uring.rs:335-557 | a submitted operation completed by the kernel is reported once, with its own token and decoded result, and is then no longer pending |
| Uring.PushBatchSpec | src/io_backend/uring.rs:672-708 | a batch fits exactly when the queue has room for its accepts; then each accept, in order, is pending under consecutive tokens, every other operation is skipped, and earlier pending operations are kept |
| Uring.PollPlanSpec | src/io_backend/uring.rs:274-323 | corrected, a wait always has something to end it, a timeout always bounds it, and without a timeout the backend waits exactly when something is pending; elsewhere the plan is the one the source makes |
| Uring.PollWaitsForeverAsWritten | src/io_backend/uring.rs:276-300 | as written, a zero or sub-millisecond timeout, or one that wraps in the `u32` cast, pushes no timeout entry but still waits with nothing pending |

## Left out

- Python and PyO3 glue: callback objects are opaque numbers, futures are recorded outcomes, reference counting and the GIL are not modelled.
- Threads, locks and atomics: every operation is one sequential step, and the atomic token counters are plain counters.
- Kernel and socket calls (`epoll_ctl`, `epoll_wait`, the io_uring ring, eventfd, `send`, `recv`, `close`, `setsockopt`) are parameters carrying their answer; socket creation, bind, connect, accept and DNS resolution are left out.
- Clocks and floating-point time: timers take integer nanoseconds, and `time`, `call_later` and `call_at` with their `f64` conversions are left out.
- `call_soon`, `run_in_executor`, the exception handler, the task factory and the async-generator tracking of `src/event_loop.rs` are left out; they only hand Python objects around.
- Integer widths: timer ids and operation tokens are `u64` counters whose wrap-around after 2^64 steps is not modelled.
- `src/constants.rs` does not define the wheel constants `src/timers.rs` imports; the model takes 8 bits per wheel, 4 wheels and 1 ms precision from the doc comment at `src/timers.rs:25-36`.
- Timers.PopExpiredSpec: completeness is promised only when `now` is at or after the wheel's clock. A timer inserted with a deadline in a millisecond the wheel has already processed is placed at the current tick and fires on the next call that reaches it, not on a call whose `now` is behind the clock.
- The timer wheel's `stats` query, which only reports counts, is left out.
- `src/event_loop.rs` `_run_once` calls `pop_expired` with only the current time, an older signature than the two-argument one in `src/timers.rs`; the model passes a start time of 0.
- The `polling` crate behind `src/event_loop.rs` is modelled as a map from descriptor to armed interest.
- `src/event_loop/io.rs` and `src/event_loop/poll.rs` call `get_states` on the handle registry, which `src/handles.rs` does not define; the model reads the two slots with `get_reader` and `get_writer`.
- LoopIo.AddReaderOneshot: the source falls back to a fresh registration when re-arming fails with ENOENT; the io_uring poller's re-arm can only fail with a full submission queue, so that branch cannot be taken and is not modelled.
- LoopIo.AddReaderOneshot: an existing writer on the descriptor is not folded into the oneshot interest, as in the source.
- LoopPoll.RunEntries: no lemma carries `LoopIo.Consistent` across a batch. A callback's effect on the registry is an arbitrary runner answer that does not include the poller calls the callback itself would make, so only the batch's own re-arms are described.
- LoopPoll.ProcessSingleSpec: the one-event path runs the reader and the writer whatever the event's readiness bits and whether the handles are cancelled, as in the source; the contract states that order rather than a readiness filter.
- StreamServer.WriteReady: errors that `remove_writer`, `_wakeup_drain_waiters` and `force_close` could raise once the buffer is empty (`src/transports/stream_server.rs:133-143`) are not modelled; the flush succeeds once the socket takes the whole buffer.
- `src/transports/stream_server.rs:268` names a field `write_callback` that the struct does not declare; that code is not modelled.
- Tcp.Abort: `abort` and `_force_close` tell the protocol `connection_lost` on every call, even on an already closed transport, as in the source.
- TCP reading (`_read_ready`, buffered reads) and `write_eof` are left out; the model covers the write side and the state flags.
- Udp.CloseSpec: like the source, a `close` whose `remove_reader` raises leaves the transport closing with its socket held, and later calls return at once, so the socket is never dropped by `close`; the model states this rather than a release.
- Socket addresses are kept as opaque values; IPv6 and text address parsing are reduced to a parser answer.
- `src/io_backend/poll_backend.rs` on systems other than Linux, and `is_io_uring_available`, are reduced to a platform parameter.
- Uring.PollPlanSpec: the conversion of poll completions into I/O events at `src/io_backend/uring.rs:303-320` is left out; it reports descriptor 0 for every event.
- Uring.BufferPoolSpec: a pooled buffer grown by `reserve` is modelled with capacity `max(capacity, size)`; the allocator's real growth may be larger.
- Uring.DecodeSpec: negating the most negative `i32` kernel result is not modelled; the kernel never returns it.
- PollBackend.SubmitAccept: like the source, it always asks the kernel to add the descriptor, so accepting on a registered descriptor fails; the model takes the kernel's answer as a parameter.
- `link_ops`, `notify`, `is_op_supported`, the `Drop` implementation and `create_backend` are left out; they only touch the ring or the kernel.
- Uring.SubmitOpSpec: `submit_sendfile`, `submit_recvfrom` and `submit_sendto` follow the same submission path and are covered by it through their operation types; their buffers and addresses are not modelled.
- Uring.RegistrationSpec: the io_uring backend's registrations make no system call and are modelled as an interest map only.
- `src/io_backend/unified.rs` only delegates to a boxed backend and is left out.

## Findings

| source | as written | input that shows it | evidently intended | confidence | as-written member | corrected member |
|---|---|---|---|---|---|---|
| src/timers.rs:134-138 | an insert sets the cached minimum expiry to its own expiry whenever the cache is empty, although a cancel also empties it while earlier timers are still live | insert timers due at 10 ns and 20 ns, cancel the second, insert one due at 30 ns: `next_expiry` reports 30 while the 10 ns timer is live | the cache is set from empty only when no other timer is live, so `next_expiry` is always the earliest live expiry | not executed | Timers.StaleCacheAsWritten | Timers.InsertValid |
| src/timers.rs:203-244 | a slot entry left behind by a cancel is matched by slab key only; once a new timer reuses that key, the stale entry fires or re-cascades the new timer | insert a timer due at 0 ms, cancel it, insert one due at 5 ms, pop at 0 ms: the 5 ms timer fires and its id stays in the index | a slot entry fires only when the live entry under its key has the same timer id | not executed | Timers.EarlyFireAsWritten | Timers.PopExpiredSpec |
| src/transports/tcp.rs:436-455 | `write` sends straight to the socket even when earlier bytes are still buffered | one byte buffered, a second byte written and accepted by the kernel: the peer receives the second byte first | with bytes buffered, `write` only appends, so the wire sees the bytes in write order | not executed | Tcp.WriteReordersAsWritten | Tcp.WriteKeepsOrder |
| src/epoll.rs:195-198 | the timeout's millisecond count is cast to `i32`, which wraps | a timeout of 2^31 ms waits forever (-2^31), and one of 2^32 ms does not wait at all (0) | a long timeout saturates at the largest `i32` millisecond count | not executed | Epoll.TimeoutWrapsAsWritten | Epoll.TimeoutMsSpec |
| src/poller.rs:411-425 | the eventfd's poll is re-armed under a fresh token, but its finished token is never removed from the pending polls | one wake-up: tokens 1 and 2 are both pending, and each further wake-up leaks one more | the finished token leaves the pending map, so nothing completed stays pending | not executed | Poller.EventfdPollLeaksAsWritten | Poller.CorrectedForgetsCompleted |
| src/event_loop.rs:65-88 | a failing iteration or signal check returns through `?` before the running flag is cleared | a `run_forever` whose first iteration fails: it raises and `is_running` stays true | `run_forever` leaves the loop not running however it ends | not executed | LoopLegacy.RunningAfterFailureAsWritten | LoopLegacy.RunForeverStopsRunning |
| src/transports/stream_server.rs:200-225 | a partial or refused direct write buffers the rest without arming a writer, so nothing flushes it | two bytes to an idle connection, the kernel takes one: the second sits in the buffer with no writer armed | buffering after a direct write arms the writer, as the non-empty-buffer path does | not executed | StreamServer.WriteStallsAsWritten | StreamServer.WriteSpec |
| src/io_backend/uring.rs:276-300 | a timeout becomes a `u32` millisecond count; a count of 0 pushes no timeout entry, yet any call with a timeout waits for a completion | `poll` with a zero timeout, a sub-millisecond one or one of 2^32 ms and nothing pending: it waits with nothing that can complete | a non-zero timeout always pushes its timeout entry, and a zero timeout never waits | not executed | Uring.PollWaitsForeverAsWritten | Uring.PollPlanSpec |

=== FILE: backend_traits.dfy ===
/** `src/io_backend/traits.rs`: the backend configuration builder and the
    trait's default kind query. */
module BackendTraits {
  import opened Wrappers
  import B = IoBackend

  type U32 = x: nat | x < 0x1_0000_0000

  datatype BackendConfig = BackendConfig(
    sqEntries: Option<U32>,
    cqEntries: Option<U32>,
    kernelPoll: bool,
    sqPoll: bool,
    sqPollIdle: Option<U32>,
    registeredFiles: bool,
    maxRegisteredFiles: Option<U32>,
    registeredBuffers: bool,
    maxRegisteredBuffers: Option<U32>)

  /** The derived `Default`: every option absent, every flag off. */
  const DefaultConfig: BackendConfig :=
    BackendConfig(None, None, false, false, None, false, None, false, None)

  /** Nothing configured: no option set and no flag on. */
  predicate Unconfigured(c: BackendConfig) {
    && c.sqEntries.None? && c.cqEntries.None? && c.sqPollIdle.None?
    && c.maxRegisteredFiles.None? && c.maxRegisteredBuffers.None?
    && !c.kernelPoll && !c.sqPoll && !c.registeredFiles && !c.registeredBuffers
  }

  function New(): (c: BackendConfig)
    ensures Unconfigured(c)
  {
    DefaultConfig
  }

  function WithSqEntries(c: BackendConfig, entries: U32): (r: BackendConfig)
    ensures r.sqEntries == Some(entries)
    ensures r.(sqEntries := c.sqEntries) == c
  {
    c.(sqEntries := Some(entries))
  }

  function WithCqEntries(c: BackendConfig, entries: U32): (r: BackendConfig)
    ensures r.cqEntries == Some(entries)
    ensures r.(cqEntries := c.cqEntries) == c
  {
    c.(cqEntries := Some(entries))
  }

  function WithKernelPoll(c: BackendConfig, enabled: bool): (r: BackendConfig)
    ensures r.kernelPoll == enabled
    ensures r.(kernelPoll := c.kernelPoll) == c
  {
    c.(kernelPoll := enabled)
  }

  function WithSqPoll(c: BackendConfig, enabled: bool): (r: BackendConfig)
    ensures r.sqPoll == enabled
    ensures r.(sqPoll := c.sqPoll) == c
  {
    c.(sqPoll := enabled)
  }

  /** The builders set independent fields, so their order does not matter,
      and a later call of the same builder wins. */
  lemma BuildersCommute(c: BackendConfig, a: U32, b: U32, k: bool, s: bool)
    ensures WithCqEntries(WithSqEntries(c, a), b) == WithSqEntries(WithCqEntries(c, b), a)
    ensures WithSqPoll(WithKernelPoll(c, k), s) == WithKernelPoll(WithSqPoll(c, s), k)
    ensures WithSqEntries(WithSqEntries(c, a), b) == WithSqEntries(c, b)
    ensures WithKernelPoll(WithSqEntries(New(), a), k).sqPoll == false
  {
  }

  /** The trait's default `is_completion_based`: the kind of the backend's
      own type. */
  function IsCompletionBased(t: B.BackendType): (r: bool)
    ensures r <==> !B.IsReadinessBased(t)
  {
    B.IsCompletionBased(t)
  }
}

=== FILE: callbacks.dfy ===
/** `src/callbacks.rs`: the loop's FIFO of ready callbacks, and the two
    socket callbacks whose bookkeeping is more than a system call: the
    progress counter of `sock_sendall` and the truncation in `sock_recv`. */
module Callbacks {
  import opened Wrappers

  /** `EAGAIN`, which Linux also uses for `EWOULDBLOCK`. */
  const EAGAIN: int := 11

  // ---------------------------------------------------------------------------
  // CallbackQueue
  // ---------------------------------------------------------------------------

  /** A queued callback: the Python callable and its arguments, by identity. */
  datatype Callback = Callback(callable: nat, args: seq<nat>)

  datatype CallbackQueue = CallbackQueue(items: seq<Callback>)

  function NewQueue(): (q: CallbackQueue)
    ensures IsEmpty(q)
  {
    CallbackQueue([])
  }

  /** `push`: append at the back. Waking the poller is left out. */
  function Push(q: CallbackQueue, cb: Callback): (r: CallbackQueue)
    ensures |r.items| == |q.items| + 1 && r.items[|q.items|] == cb
    ensures r.items[..|q.items|] == q.items
    ensures !IsEmpty(r)
  {
    CallbackQueue(q.items + [cb])
  }

  /** `pop_all`: take everything, leaving the queue empty. */
  function PopAll(q: CallbackQueue): (r: (CallbackQueue, seq<Callback>))
    ensures IsEmpty(r.0) && r.1 == q.items
  {
    (CallbackQueue([]), q.items)
  }

  function IsEmpty(q: CallbackQueue): bool {
    |q.items| == 0
  }

  function PushAll(q: CallbackQueue, cbs: seq<Callback>): CallbackQueue
    decreases |cbs|
  {
    if |cbs| == 0 then q else PushAll(Push(q, cbs[0]), cbs[1..])
  }

  /** Pushing a list of callbacks and popping all of them yields the
      callbacks already queued, then the new ones, in push order. */
  lemma {:induction false} PushAllThenPopAll(q: CallbackQueue, cbs: seq<Callback>)
    ensures PopAll(PushAll(q, cbs)).1 == q.items + cbs
    ensures IsEmpty(PushAll(q, cbs)) <==> IsEmpty(q) && |cbs| == 0
    decreases |cbs|
  {
    if |cbs| == 0 {
      assert q.items + cbs == q.items;
    } else {
      PushAllThenPopAll(Push(q, cbs[0]), cbs[1..]);
      assert q.items + [cbs[0]] + cbs[1..] == q.items + cbs;
    }
  }

  // ---------------------------------------------------------------------------
  // SockSendallCallback
  // ---------------------------------------------------------------------------

  type Positive = n: nat | n > 0 witness 1

  /** What one `send` call answers: a positive byte count, or failure with
      the errno it left. */
  datatype SendAnswer = Sent(n: Positive) | SendFailed(errno: int)

  datatype Sendall = Sendall(fd: int, data: Bytes, sent: nat)

  /** How a call of the callback ended. `Done` resolves the future and
      removes the writer; `Raised` sets the exception and removes the writer;
      `Blocked` leaves both for the next writable event. */
  datatype SendallEnd = Done | Blocked | Raised(errno: int)

  function NewSendall(fd: int, data: Bytes): (s: Sendall)
    ensures s.sent == 0 && s.data == data
  {
    Sendall(fd, data, 0)
  }

  /** Bytes the kernel takes from a request of `want`: never more than asked. */
  function Accepted(n: Positive, want: nat): nat {
    if n <= want then n else want
  }

  /** Reference outcome of one call given the kernel's answers in order,
      read as `WouldBlock` once they run out. */
  function SendallRef(sent: nat, len: nat, answers: seq<SendAnswer>): (r: (nat, SendallEnd))
    requires sent <= len
    decreases len - sent, |answers|
  {
    if sent == len then (sent, Done)
    else if |answers| == 0 then (sent, Blocked)
    else match answers[0]
      case Sent(n) => SendallRef(sent + Accepted(n, len - sent), len, answers[1..])
      case SendFailed(e) => if e == EAGAIN then (sent, Blocked) else (sent, Raised(e))
  }

  /** `SockSendallCallback.__call__`: send the unsent tail until all of it
      has gone, the socket would block, or `send` fails. */
  method SockSendall(s: Sendall, answers: seq<SendAnswer>) returns (r: Sendall, end: SendallEnd)
    requires s.sent <= |s.data|
    ensures r.fd == s.fd && r.data == s.data
    ensures s.sent <= r.sent <= |r.data|
    ensures end.Done? <==> r.sent == |r.data|
    ensures end.Raised? ==> end.errno != EAGAIN
    ensures (r.sent, end) == SendallRef(s.sent, |s.data|, answers)
  {
    var sent := s.sent;
    var i := 0;
    while sent < |s.data|
      invariant s.sent <= sent <= |s.data| && 0 <= i <= |answers|
      invariant SendallRef(sent, |s.data|, answers[i..]) == SendallRef(s.sent, |s.data|, answers)
      decreases |s.data| - sent
    {
      if i == |answers| {
        return s.(sent := sent), Blocked;
      }
      match answers[i]
      case Sent(n) =>
        assert answers[i..][1..] == answers[i + 1..];
        sent := sent + Accepted(n, |s.data| - sent);
        i := i + 1;
      case SendFailed(e) =>
        if e == EAGAIN {
          return s.(sent := sent), Blocked;
        }
        return s.(sent := sent), Raised(e);
    }
    return s.(sent := sent), Done;
  }

  /** The reference outcome keeps the counter between its old value and the
      length, and reports completion exactly when everything has gone. */
  lemma {:induction false} SendallRefBounds(sent: nat, len: nat, answers: seq<SendAnswer>)
    requires sent <= len
    ensures sent <= SendallRef(sent, len, answers).0 <= len
    ensures SendallRef(sent, len, answers).1.Done? <==> SendallRef(sent, len, answers).0 == len
    decreases len - sent, |answers|
  {
    if sent < len && |answers| > 0 && answers[0].Sent? {
      SendallRefBounds(sent + Accepted(answers[0].n, len - sent), len, answers[1..]);
    }
  }

  // ---------------------------------------------------------------------------
  // SockRecvCallback
  // ---------------------------------------------------------------------------

  /** What one `recv` call into an `nbytes` buffer answers: the bytes the
      peer had ready, or failure with its errno. */
  datatype RecvAnswer = Received(incoming: Bytes) | RecvFailed(errno: int)

  /** How a call of the callback ended: resolved with bytes (reader removed),
      raised (reader removed), or left waiting. */
  datatype RecvEnd = Resolved(data: Bytes) | RecvRaised(errno: int) | RecvBlocked

  function Zeros(n: nat): (z: Bytes)
    ensures |z| == n && forall i :: 0 <= i < n ==> z[i] == 0
  {
    seq(n, _ => 0)
  }

  /** The buffer after `recv` copies at most `nbytes` of `incoming` into a
      zeroed buffer of `nbytes`, and the count it returns. */
  function RecvInto(nbytes: nat, incoming: Bytes): (r: (Bytes, nat))
    ensures |r.0| == nbytes && r.1 <= nbytes
  {
    var n := if |incoming| <= nbytes then |incoming| else nbytes;
    (incoming[..n] + Zeros(nbytes - n), n)
  }

  /** `SockRecvCallback.__call__`: the buffer is truncated to the count. */
  function SockRecv(nbytes: nat, answer: RecvAnswer): (r: RecvEnd)
    ensures answer.RecvFailed? ==>
      (if answer.errno == EAGAIN then r == RecvBlocked else r == RecvRaised(answer.errno))
  {
    match answer
    case Received(incoming) =>
      var (buf, n) := RecvInto(nbytes, incoming);
      Resolved(buf[..n])
    case RecvFailed(e) => if e == EAGAIN then RecvBlocked else RecvRaised(e)
  }

  /** A resolved `sock_recv` carries exactly the first bytes the peer sent,
      as many as fit in `nbytes`, and none of the zero padding. */
  lemma SockRecvTruncates(nbytes: nat, incoming: Bytes)
    ensures var r := SockRecv(nbytes, Received(incoming));
      && r.Resolved?
      && |r.data| == (if |incoming| <= nbytes then |incoming| else nbytes)
      && r.data == incoming[..|r.data|]
  {
    var n := if |incoming| <= nbytes then |incoming| else nbytes;
    assert (incoming[..n] + Zeros(nbytes - n))[..n] == incoming[..n];
  }
}

=== FILE: epoll.dfy ===
/** `src/epoll.rs`: the direct level-triggered epoll wrapper. The kernel is
    reduced to what each `epoll_ctl` answers (success or an errno) and what
    each `epoll_wait` delivers; the wrapper's own state is its interest map
    and the read end of its wake pipe. */
module Epoll {
  import opened Wrappers
  import P = Poller

  const EPOLLIN: nat := 0x1
  const EPOLLOUT: nat := 0x4
  const EPOLLONESHOT: nat := 0x4000_0000
  const ENOENT: int := 2
  const EINTR: int := 4
  /** The largest `i32`, the type of `epoll_wait`'s timeout. */
  const I32_MAX: int := 0x7fff_ffff
  const NS_PER_MS: nat := 1_000_000

  datatype Interest = Interest(readable: bool, writable: bool, oneshot: bool)

  /** `Interest::new`: level-triggered. */
  function NewInterest(readable: bool, writable: bool): (i: Interest)
    ensures i.readable == readable && i.writable == writable && !i.oneshot
  {
    Interest(readable, writable, false)
  }

  /** `Interest::oneshot`: disarmed by the kernel after one event. */
  function OneshotInterest(readable: bool, writable: bool): (i: Interest)
    ensures i.readable == readable && i.writable == writable && i.oneshot
  {
    Interest(readable, writable, true)
  }

  /** `to_epoll_events`: the OR of the flags' bits. */
  function ToEpollEvents(i: Interest): nat {
    (if i.readable then EPOLLIN else 0) + (if i.writable then EPOLLOUT else 0) + (if i.oneshot then EPOLLONESHOT else 0)
  }

  /** Each flag's bit is set exactly when the flag is, so the mask decodes
      back to the interest it came from. */
  lemma ToEpollEventsBits(i: Interest)
    ensures P.HasBit(ToEpollEvents(i), EPOLLIN) <==> i.readable
    ensures P.HasBit(ToEpollEvents(i), EPOLLOUT) <==> i.writable
    ensures P.HasBit(ToEpollEvents(i), EPOLLONESHOT) <==> i.oneshot
    ensures ToEpollEvents(i) < 2 * EPOLLONESHOT
  {
  }

  datatype Epoll = Epoll(interests: map<int, Interest>, wakeRead: int)

  /** A new instance watches only its wake pipe, which is not in the map. */
  function New(wakeRead: int): (e: Epoll)
    ensures e.interests == map[] && !IsRegistered(e, wakeRead)
  {
    Epoll(map[], wakeRead)
  }

  /** `add`: the interest is recorded only if `epoll_ctl` succeeds
      (`failure` is the errno it fails with, if it does). */
  function Add(e: Epoll, fd: int, i: Interest, failure: Option<int>): (r: (Epoll, Result<(), int>))
    ensures r.1.Ok? <==> failure.None?
    ensures r.1.Ok? ==> r.0.interests == e.interests[fd := i]
    ensures r.1.Err? ==> r.0 == e && r.1.error == failure.value
  {
    if failure.Some? then (e, Err(failure.value))
    else (e.(interests := e.interests[fd := i]), Ok(()))
  }

  /** `modify`: an interest equal to the recorded one makes no system call
      and changes nothing; otherwise it is recorded if `epoll_ctl` succeeds.
      The flag says whether `epoll_ctl` was called. */
  function Modify(e: Epoll, fd: int, i: Interest, failure: Option<int>): (r: (Epoll, Result<(), int>, bool))
  {
    if fd in e.interests && e.interests[fd] == i then (e, Ok(()), false)
    else if failure.Some? then (e, Err(failure.value), true)
    else (e.(interests := e.interests[fd := i]), Ok(()), true)
  }

  /** `delete`: a missing registration (`ENOENT`) is not an error; the
      descriptor leaves the map unless `epoll_ctl` failed otherwise. */
  function Delete(e: Epoll, fd: int, failure: Option<int>): (r: (Epoll, Result<(), int>))
    ensures r.1.Ok? <==> failure.None? || failure == Some(ENOENT)
    ensures r.1.Ok? ==> r.0.interests == e.interests - {fd}
    ensures r.1.Err? ==> r.0 == e
  {
    if failure.Some? && failure.value != ENOENT then (e, Err(failure.value))
    else (e.(interests := e.interests - {fd}), Ok(()))
  }

  function IsRegistered(e: Epoll, fd: int): bool {
    fd in e.interests
  }

  function GetInterest(e: Epoll, fd: int): Option<Interest> {
    if fd in e.interests then Some(e.interests[fd]) else None
  }

  /** After a successful call the map says what was asked: `add` and
      `modify` record the interest (so a repeated `modify` makes no system
      call) and `delete` unregisters; other descriptors are untouched. */
  lemma CtlSpec(e: Epoll, fd: int, i: Interest, failure: Option<int>, x: int)
    requires x != fd
    ensures Add(e, fd, i, failure).1.Ok? ==> GetInterest(Add(e, fd, i, failure).0, fd) == Some(i)
    ensures Modify(e, fd, i, failure).1.Ok? ==> GetInterest(Modify(e, fd, i, failure).0, fd) == Some(i)
    ensures (Modify(e, fd, i, failure).1.Ok? ==> !Modify(Modify(e, fd, i, failure).0, fd, i, failure).2)
    ensures !Modify(e, fd, i, failure).2 <==> GetInterest(e, fd) == Some(i)
    ensures Delete(e, fd, failure).1.Ok? ==> !IsRegistered(Delete(e, fd, failure).0, fd)
    ensures GetInterest(Add(e, fd, i, failure).0, x) == GetInterest(e, x)
    ensures GetInterest(Modify(e, fd, i, failure).0, x) == GetInterest(e, x)
    ensures GetInterest(Delete(e, fd, failure).0, x) == GetInterest(e, x)
  {
  }

  // ---------------------------------------------------------------------------
  // Waiting
  // ---------------------------------------------------------------------------

  /** `Duration::as_millis`: whole milliseconds, rounding down. */
  function AsMillis(ns: nat): nat {
    ns / NS_PER_MS
  }

  /** Rust's `as i32` on a non-negative value: keep the low 32 bits and read
      them as two's complement. */
  function WrapI32(x: nat): (r: int)
    ensures -0x8000_0000 <= r <= I32_MAX
    ensures x <= I32_MAX ==> r == x
  {
    var low := x % 0x1_0000_0000;
    if low <= I32_MAX then low else low - 0x1_0000_0000
  }

  /** The timeout handed to `epoll_wait`: -1 (forever) without a timeout.
      As written the millisecond count is cast with `as i32`, which wraps;
      corrected, it saturates at the largest `i32`. */
  function TimeoutMsWith(v: Variant, timeoutNs: Option<nat>): (r: int)
    ensures timeoutNs.None? ==> r == -1
  {
    if timeoutNs.None? then -1
    else
      var ms := AsMillis(timeoutNs.value);
      if v.AsWritten? then WrapI32(ms) else if ms <= I32_MAX then ms else I32_MAX
  }

  function TimeoutMs(timeoutNs: Option<nat>): (r: int) {
    TimeoutMsWith(Corrected, timeoutNs)
  }

  /** Corrected: a timeout never turns into "forever" or into a shorter
      wait than asked, up to the millisecond rounding and the `i32` ceiling;
      timeouts that fit are passed through exactly. */
  lemma TimeoutMsSpec(ns: nat, ns2: nat)
    ensures 0 <= TimeoutMs(Some(ns)) <= I32_MAX
    ensures AsMillis(ns) <= I32_MAX ==> TimeoutMs(Some(ns)) == AsMillis(ns)
    ensures AsMillis(ns) > I32_MAX ==> TimeoutMs(Some(ns)) == I32_MAX
    ensures ns <= ns2 ==> TimeoutMs(Some(ns)) <= TimeoutMs(Some(ns2))
  {
    if ns <= ns2 {
      assert AsMillis(ns) <= AsMillis(ns2) by { DivMonotone(ns, ns2, NS_PER_MS); }
    }
  }

  lemma DivMonotone(a: nat, b: nat, d: nat)
    requires a <= b && d > 0
    ensures a / d <= b / d
  {
    var qa, qb := a / d, b / d;
    assert a == d * qa + a % d && b == d * qb + b % d;
    if qa > qb {
      assert d * qa >= d * (qb + 1) by { MulLeft(d, qb + 1, qa); }
      assert false;
    }
  }

  lemma MulLeft(d: nat, x: nat, y: nat)
    requires x <= y
    ensures d * x <= d * y
  {
  }

  /** As written: a wait of 2^31 ms (under 25 days) becomes a negative
      timeout, which `epoll_wait` reads as "forever", and one of 2^32 ms
      becomes 0, a busy poll. */
  lemma TimeoutWrapsAsWritten()
    ensures TimeoutMsWith(AsWritten, Some(0x8000_0000 * NS_PER_MS)) == -0x8000_0000
    ensures TimeoutMsWith(AsWritten, Some(0x1_0000_0000 * NS_PER_MS)) == 0
  {
    assert AsMillis(0x8000_0000 * NS_PER_MS) == 0x8000_0000;
    assert AsMillis(0x1_0000_0000 * NS_PER_MS) == 0x1_0000_0000;
  }

  /** An entry of the kernel's event array: the descriptor stored with the
      registration and the ready mask. */
  datatype RawEvent = RawEvent(fd: int, events: nat)

  datatype Event = Event(fd: int, readable: bool, writable: bool)

  /** What one `epoll_wait` call answers. */
  datatype WaitAnswer = Ready(raw: seq<RawEvent>) | WaitFailed(errno: int)

  function DecodeOne(raw: RawEvent): (ev: Event)
    ensures ev.fd == raw.fd
    ensures ev.readable <==> P.HasBit(raw.events, EPOLLIN)
    ensures ev.writable <==> P.HasBit(raw.events, EPOLLOUT)
  {
    Event(raw.fd, P.HasBit(raw.events, EPOLLIN), P.HasBit(raw.events, EPOLLOUT))
  }

  /** The events `wait` reports: the wake pipe's entry is drained and
      skipped, the others decoded in order. */
  function Decode(raw: seq<RawEvent>, wakeRead: int): (r: seq<Event>)
    decreases |raw|
  {
    if |raw| == 0 then []
    else if raw[0].fd == wakeRead then Decode(raw[1..], wakeRead)
    else [DecodeOne(raw[0])] + Decode(raw[1..], wakeRead)
  }

  /** The wake pipe is never reported, every reported event decodes some
      kernel entry, every entry of another descriptor is reported, and with
      no wake entry nothing is dropped. */
  lemma {:induction false} DecodeSpec(raw: seq<RawEvent>, wakeRead: int)
    ensures var r := Decode(raw, wakeRead);
      && |r| <= |raw|
      && (forall k :: 0 <= k < |r| ==> r[k].fd != wakeRead)
      && (forall k :: 0 <= k < |r| ==> exists j :: 0 <= j < |raw| && r[k] == DecodeOne(raw[j]))
      && ((forall j :: 0 <= j < |raw| ==> raw[j].fd != wakeRead) ==> |r| == |raw|)
      && (forall j :: 0 <= j < |raw| && raw[j].fd != wakeRead ==> DecodeOne(raw[j]) in r)
    decreases |raw|
  {
    if |raw| > 0 {
      DecodeSpec(raw[1..], wakeRead);
      var r := Decode(raw, wakeRead);
      var rest := Decode(raw[1..], wakeRead);
      forall k | 0 <= k < |r|
        ensures exists j :: 0 <= j < |raw| && r[k] == DecodeOne(raw[j])
      {
        if raw[0].fd != wakeRead && k == 0 {
          assert r[0] == DecodeOne(raw[0]);
        } else {
          var k' := if raw[0].fd == wakeRead then k else k - 1;
          assert r[k] == rest[k'];
          var j :| 0 <= j < |raw[1..]| && rest[k'] == DecodeOne(raw[1..][j]);
          assert raw[1..][j] == raw[j + 1];
        }
      }
      if forall j :: 0 <= j < |raw| ==> raw[j].fd != wakeRead {
        assert forall j :: 0 <= j < |raw[1..]| ==> raw[1..][j].fd != wakeRead by {
          forall j | 0 <= j < |raw[1..]| ensures raw[1..][j].fd != wakeRead {
            assert raw[1..][j] == raw[j + 1];
          }
        }
      }
      forall j | 0 <= j < |raw| && raw[j].fd != wakeRead
        ensures DecodeOne(raw[j]) in r
      {
        if j > 0 {
          assert raw[1..][j - 1] == raw[j];
          assert DecodeOne(raw[j]) in rest;
        }
      }
    }
  }

  /** Decoding distributes over concatenation, so the reported events keep
      the kernel's order: the events of an earlier stretch of entries come
      before those of a later one. */
  lemma {:induction false} DecodeAppend(a: seq<RawEvent>, b: seq<RawEvent>, wakeRead: int)
    ensures Decode(a + b, wakeRead) == Decode(a, wakeRead) + Decode(b, wakeRead)
    decreases |a|
  {
    if |a| > 0 {
      assert (a + b)[1..] == a[1..] + b;
      DecodeAppend(a[1..], b, wakeRead);
    } else {
      assert a + b == b;
    }
  }

  /** How `wait` ends given the kernel's answers in order: interrupted
      calls (`EINTR`) are retried, any other failure is returned, and a
      call that delivers events returns them decoded. With the answers used
      up by interruptions it is still waiting. */
  datatype WaitEnd = Returned(events: seq<Event>) | WaitError(errno: int) | StillWaiting

  /** The index of the first answer that is not an interruption, or the
      number of answers when every one is. */
  function FirstNonEintr(answers: seq<WaitAnswer>): (k: nat)
    ensures k <= |answers|
    ensures forall j :: 0 <= j < k ==> answers[j] == WaitFailed(EINTR)
    ensures k < |answers| ==> answers[k] != WaitFailed(EINTR)
    decreases |answers|
  {
    if |answers| == 0 || answers[0] != WaitFailed(EINTR) then 0
    else
      var k := FirstNonEintr(answers[1..]);
      assert forall j :: 0 <= j < |answers| - 1 ==> answers[1..][j] == answers[j + 1];
      k + 1
  }

  function Wait(e: Epoll, answers: seq<WaitAnswer>): (r: WaitEnd)
    ensures r.Returned? ==> exists j :: 0 <= j < |answers| && answers[j].Ready? && r.events == Decode(answers[j].raw, e.wakeRead)
    ensures r.WaitError? ==> r.errno != EINTR
    ensures (forall j :: 0 <= j < |answers| ==> answers[j] == WaitFailed(EINTR)) <==> r.StillWaiting?
    ensures var k := FirstNonEintr(answers);
      && (k == |answers| <==> r.StillWaiting?)
      && (k < |answers| && answers[k].Ready? ==> r == Returned(Decode(answers[k].raw, e.wakeRead)))
      && (k < |answers| && answers[k].WaitFailed? ==> r == WaitError(answers[k].errno))
    decreases |answers|
  {
    if |answers| == 0 then StillWaiting
    else match answers[0]
      case Ready(raw) => Returned(Decode(raw, e.wakeRead))
      case WaitFailed(errno) =>
        if errno == EINTR then
          var r := Wait(e, answers[1..]);
          assert forall j :: 0 <= j < |answers| - 1 ==> answers[1..][j] == answers[j + 1];
          r
        else WaitError(errno)
  }
}

=== FILE: handles.dfy ===
/** `src/handles.rs`: the registry mapping a file descriptor to its reader
    and writer handles. An entry exists only while at least one of the two
    is present. */
module Handles {
  import opened Wrappers

  /** Which callback a handle runs. Python objects and native closures are
      named by an opaque number; the TCP handlers by their transport. */
  datatype IoCallback =
    | Python(obj: nat)
    | Native(closure: nat)
    | TcpRead(transport: nat)
    | TcpWrite(transport: nat)

  datatype Handle = Handle(callback: IoCallback, cancelled: bool)

  /** The (reader, writer) pair stored for one descriptor. */
  datatype Pair = Pair(reader: Option<Handle>, writer: Option<Handle>)

  datatype IoHandles = IoHandles(fds: map<int, Pair>)

  /** No descriptor maps to a pair with neither side. */
  ghost predicate NoEmptyEntry(h: IoHandles) {
    forall fd :: fd in h.fds ==> h.fds[fd].reader.Some? || h.fds[fd].writer.Some?
  }

  function New(): (h: IoHandles)
    ensures h.fds == map[] && NoEmptyEntry(h)
  {
    IoHandles(map[])
  }

  /** The pair stored for `fd`, or (None, None) when there is none. */
  function PairOf(h: IoHandles, fd: int): Pair {
    if fd in h.fds then h.fds[fd] else Pair(None, None)
  }

  /** `add_reader`: a fresh, uncancelled reader replaces any previous one. */
  function AddReader(h: IoHandles, fd: int, cb: IoCallback): (r: IoHandles)
    ensures fd in r.fds && r.fds[fd] == Pair(Some(Handle(cb, false)), PairOf(h, fd).writer)
    ensures forall x :: x != fd ==> (x in r.fds <==> x in h.fds)
    ensures forall x :: x != fd && x in h.fds ==> r.fds[x] == h.fds[x]
    ensures NoEmptyEntry(h) ==> NoEmptyEntry(r)
  {
    IoHandles(h.fds[fd := PairOf(h, fd).(reader := Some(Handle(cb, false)))])
  }

  /** `add_writer`: a fresh, uncancelled writer replaces any previous one. */
  function AddWriter(h: IoHandles, fd: int, cb: IoCallback): (r: IoHandles)
    ensures fd in r.fds && r.fds[fd] == Pair(PairOf(h, fd).reader, Some(Handle(cb, false)))
    ensures forall x :: x != fd ==> (x in r.fds <==> x in h.fds)
    ensures forall x :: x != fd && x in h.fds ==> r.fds[x] == h.fds[x]
    ensures NoEmptyEntry(h) ==> NoEmptyEntry(r)
  {
    IoHandles(h.fds[fd := PairOf(h, fd).(writer := Some(Handle(cb, false)))])
  }

  /** `remove_reader`: clears the reader if there is one, dropping the entry
      when no writer remains; answers whether a reader was there. An absent
      descriptor or reader leaves the map as it was. */
  function RemoveReader(h: IoHandles, fd: int): (r: (IoHandles, bool))
    ensures r.1 <==> fd in h.fds && h.fds[fd].reader.Some?
    ensures !r.1 ==> r.0 == h
    ensures r.1 ==> PairOf(r.0, fd) == Pair(None, h.fds[fd].writer)
    ensures r.1 ==> (fd in r.0.fds <==> h.fds[fd].writer.Some?)
    ensures forall x :: x != fd ==> PairOf(r.0, x) == PairOf(h, x) && (x in r.0.fds <==> x in h.fds)
    ensures NoEmptyEntry(h) ==> NoEmptyEntry(r.0)
  {
    if fd in h.fds && h.fds[fd].reader.Some? then
      if h.fds[fd].writer.None? then (IoHandles(h.fds - {fd}), true)
      else (IoHandles(h.fds[fd := h.fds[fd].(reader := None)]), true)
    else (h, false)
  }

  /** `remove_writer`, the mirror image of `remove_reader`. */
  function RemoveWriter(h: IoHandles, fd: int): (r: (IoHandles, bool))
    ensures r.1 <==> fd in h.fds && h.fds[fd].writer.Some?
    ensures !r.1 ==> r.0 == h
    ensures r.1 ==> PairOf(r.0, fd) == Pair(h.fds[fd].reader, None)
    ensures r.1 ==> (fd in r.0.fds <==> h.fds[fd].reader.Some?)
    ensures forall x :: x != fd ==> PairOf(r.0, x) == PairOf(h, x) && (x in r.0.fds <==> x in h.fds)
    ensures NoEmptyEntry(h) ==> NoEmptyEntry(r.0)
  {
    if fd in h.fds && h.fds[fd].writer.Some? then
      if h.fds[fd].reader.None? then (IoHandles(h.fds - {fd}), true)
      else (IoHandles(h.fds[fd := h.fds[fd].(writer := None)]), true)
    else (h, false)
  }

  function GetReader(h: IoHandles, fd: int): Option<Handle> {
    if fd in h.fds then h.fds[fd].reader else None
  }

  function GetWriter(h: IoHandles, fd: int): Option<Handle> {
    if fd in h.fds then h.fds[fd].writer else None
  }

  function GetPair(h: IoHandles, fd: int): Option<Pair> {
    if fd in h.fds then Some(h.fds[fd]) else None
  }

  /** The getters read back what the mutators stored, and a reader added
      then removed leaves the registry as it was when `fd` had no reader. */
  lemma AddThenGet(h: IoHandles, fd: int, cb: IoCallback)
    ensures GetReader(AddReader(h, fd, cb), fd) == Some(Handle(cb, false))
    ensures GetWriter(AddReader(h, fd, cb), fd) == GetWriter(h, fd)
    ensures GetWriter(AddWriter(h, fd, cb), fd) == Some(Handle(cb, false))
    ensures GetReader(AddWriter(h, fd, cb), fd) == GetReader(h, fd)
    ensures GetPair(AddReader(h, fd, cb), fd).Some?
  {
  }

  lemma AddRemoveReaderRoundTrip(h: IoHandles, fd: int, cb: IoCallback)
    requires NoEmptyEntry(h) && GetReader(h, fd).None?
    ensures RemoveReader(AddReader(h, fd, cb), fd) == (h, true)
  {
    var r := RemoveReader(AddReader(h, fd, cb), fd).0;
    assert r.fds == h.fds;
  }

  lemma AddRemoveWriterRoundTrip(h: IoHandles, fd: int, cb: IoCallback)
    requires NoEmptyEntry(h) && GetWriter(h, fd).None?
    ensures RemoveWriter(AddWriter(h, fd, cb), fd) == (h, true)
  {
    var r := RemoveWriter(AddWriter(h, fd, cb), fd).0;
    assert r.fds == h.fds;
  }

  /** Removing both sides, in either order, drops the entry altogether. */
  lemma RemoveBothDropsEntry(h: IoHandles, fd: int)
    requires NoEmptyEntry(h)
    ensures fd !in RemoveWriter(RemoveReader(h, fd).0, fd).0.fds
    ensures fd !in RemoveReader(RemoveWriter(h, fd).0, fd).0.fds
  {
  }
}

=== FILE: io_backend.dfy ===
/** `src/io_backend/mod.rs`: the backend kinds, the readiness interest a
    descriptor is registered with, and the readiness event a backend
    reports. */
module IoBackend {

  datatype BackendType = IoUring | Epoll | Kqueue | Iocp | Poll

  /** A completion-based backend reports finished operations; the others
      report readiness. */
  function IsCompletionBased(t: BackendType): bool {
    t.IoUring? || t.Iocp?
  }

  function IsReadinessBased(t: BackendType): bool {
    !IsCompletionBased(t)
  }

  /** The operating systems `BackendType::current` distinguishes. */
  datatype Platform = Linux | MacOs | Windows | OtherOs

  /** `BackendType::current`: io_uring on Linux when the kernel offers it
      (whether it does is an input), epoll otherwise; kqueue on macOS, IOCP
      on Windows, generic polling elsewhere. */
  function Current(p: Platform, uringAvailable: bool): (t: BackendType)
    ensures IsCompletionBased(t) <==> (p.Linux? && uringAvailable) || p.Windows?
  {
    match p
    case Linux => if uringAvailable then IoUring else Epoll
    case MacOs => Kqueue
    case Windows => Iocp
    case OtherOs => Poll
  }

  /** Every backend is exactly one of the two kinds: io_uring and IOCP
      complete operations, epoll, kqueue and polling report readiness. */
  lemma BackendKinds(t: BackendType)
    ensures IsCompletionBased(t) != IsReadinessBased(t)
    ensures IsReadinessBased(t) <==> t == Epoll || t == Kqueue || t == Poll
  {
  }

  // ---------------------------------------------------------------------------
  // Interest
  // ---------------------------------------------------------------------------

  datatype Interest = Interest(readable: bool, writable: bool) {
    static function Readable(): (i: Interest)
      ensures i.readable && !i.writable
    {
      Interest(true, false)
    }

    static function Writable(): (i: Interest)
      ensures !i.readable && i.writable
    {
      Interest(false, true)
    }

    static function Both(): (i: Interest)
      ensures i.readable && i.writable
    {
      Interest(true, true)
    }

    static function Empty(): (i: Interest)
      ensures !i.readable && !i.writable
    {
      Interest(false, false)
    }
  }

  /** The derived `Default` interest: every flag false. */
  const DefaultInterest: Interest := Interest(false, false)

  /** The four named interests are distinct and cover every interest, and
      the default one is the empty one. */
  lemma InterestConstructors(i: Interest)
    ensures DefaultInterest == Interest.Empty()
    ensures i == Interest.Readable() || i == Interest.Writable() || i == Interest.Both() || i == Interest.Empty()
    ensures Interest.Readable() != Interest.Writable() && Interest.Both() != Interest.Empty()
    ensures Interest.Readable() != Interest.Both() && Interest.Writable() != Interest.Empty()
  {
  }

  // ---------------------------------------------------------------------------
  // Events
  // ---------------------------------------------------------------------------

  datatype IoEvent = IoEvent(fd: int, readable: bool, writable: bool, error: bool, hangup: bool)

  /** `IoEvent::new`: the descriptor with nothing ready. */
  function NewEvent(fd: int): (e: IoEvent)
    ensures e.fd == fd && !e.readable && !e.writable && !e.error && !e.hangup
  {
    IoEvent(fd, false, false, false, false)
  }
}

=== FILE: loop_io.dfy ===
/** `src/event_loop/io.rs`: how the loop keeps the poller's armed interest
    in step with its handle registry when readers and writers come and go,
    including the Linux oneshot readers whose descriptor stays registered
    but disarmed after firing. */
module LoopIo {
  import opened Wrappers
  import H = Handles
  import P = Poller

  /** The request the loop makes of the poller, as the source names it. */
  datatype Request =
    | Register(fd: int, ev: P.PollerEvent)
    | Modify(fd: int, ev: P.PollerEvent)
    | RegisterOneshot(fd: int, ev: P.PollerEvent)
    | RearmOneshot(fd: int, ev: P.PollerEvent)
    | Delete(fd: int)

  /** The loop state io.rs touches: the registry, the poller, and the
      descriptors registered with a fired oneshot poll. */
  datatype Loop = Loop(handles: H.IoHandles, poller: P.LoopPoller, disabled: set<int>)

  /** Carry out one request on the poller. */
  function Apply(p: P.LoopPoller, req: Request): (r: (P.LoopPoller, Result<(), P.PollerError>))
    ensures req.Delete? ==> r == (P.Delete(p, req.fd), Ok(()))
  {
    match req
    case Register(fd, ev) => P.Register(p, fd, ev)
    case Modify(fd, ev) => P.Modify(p, fd, ev)
    case RegisterOneshot(fd, ev) => P.RegisterOneshot(p, fd, ev)
    case RearmOneshot(fd, ev) => P.RearmOneshot(p, fd, ev)
    case Delete(fd) => (P.Delete(p, fd), Ok(()))
  }

  /** Which sides of `fd` have a handle. */
  function States(h: H.IoHandles, fd: int): P.FdInterest {
    P.FdInterest(H.GetReader(h, fd).Some?, H.GetWriter(h, fd).Some?)
  }

  /** The refinement invariant: every descriptor with a handle is armed in
      the poller with exactly the sides it has handles for. */
  ghost predicate Consistent(l: Loop) {
    && P.PollerSound(l.poller)
    && H.NoEmptyEntry(l.handles)
    && forall fd :: fd in l.handles.fds ==> P.Armed(l.poller, fd) == Some(States(l.handles, fd))
  }

  function ReqFd(req: Request): int {
    req.fd
  }

  /** Applying a request re-arms or disarms only its own descriptor. */
  lemma ApplyArms(p: P.LoopPoller, req: Request)
    requires P.PollerSound(p)
    ensures var r := Apply(p, req);
      && P.PollerSound(r.0)
      && (forall x :: x != ReqFd(req) ==> P.Armed(r.0, x) == P.Armed(p, x))
      && (req.Delete? ==> P.Armed(r.0, req.fd).None?)
      && (!req.Delete? && r.1.Ok? ==> P.Armed(r.0, req.fd) == Some(P.FdInterest(req.ev.readable, req.ev.writable)))
  {
    match req
    case Register(fd, ev) => P.RegisterArms(p, fd, ev);
    case Modify(fd, ev) => P.RegisterArms(p, fd, ev);
    case RegisterOneshot(fd, ev) => P.RegisterArms(p, fd, ev);
    case RearmOneshot(fd, ev) => P.RearmArms(p, fd, ev);
    case Delete(fd) => P.DeleteDisarms(p, fd);
  }

  /** `add_reader_internal`: install the reader, then ask for read interest
      (plus write interest if a writer exists), registering a descriptor
      that had no handle and modifying one that had. */
  function AddReader(l: Loop, fd: int, cb: H.IoCallback): (r: (Loop, Request, Result<(), P.PollerError>))
    ensures r.0.handles == H.AddReader(l.handles, fd, cb) && r.0.disabled == l.disabled
    ensures (r.1.Register? || r.1.Modify?) && r.1.ev == P.PollerEvent(fd, true, H.GetWriter(l.handles, fd).Some?)
    ensures r.1.Register? <==> H.GetReader(l.handles, fd).None? && H.GetWriter(l.handles, fd).None?
    ensures (r.0.poller, r.2) == Apply(l.poller, r.1)
  {
    var st := States(l.handles, fd);
    var h := H.AddReader(l.handles, fd, cb);
    var ev := P.PollerEvent(fd, true, st.writable);
    var req := if st.readable || st.writable then Modify(fd, ev) else Register(fd, ev);
    var (p, res) := Apply(l.poller, req);
    (Loop(h, p, l.disabled), req, res)
  }

  /** `add_writer_internal`, the mirror image of `AddReader`. */
  function AddWriter(l: Loop, fd: int, cb: H.IoCallback): (r: (Loop, Request, Result<(), P.PollerError>))
    ensures r.0.handles == H.AddWriter(l.handles, fd, cb) && r.0.disabled == l.disabled
    ensures (r.1.Register? || r.1.Modify?) && r.1.ev == P.PollerEvent(fd, H.GetReader(l.handles, fd).Some?, true)
    ensures r.1.Register? <==> H.GetReader(l.handles, fd).None? && H.GetWriter(l.handles, fd).None?
    ensures (r.0.poller, r.2) == Apply(l.poller, r.1)
  {
    var st := States(l.handles, fd);
    var h := H.AddWriter(l.handles, fd, cb);
    var ev := P.PollerEvent(fd, st.readable, true);
    var req := if st.readable || st.writable then Modify(fd, ev) else Register(fd, ev);
    var (p, res) := Apply(l.poller, req);
    (Loop(h, p, l.disabled), req, res)
  }

  /** `remove_reader`: when a reader was removed, downgrade the descriptor to
      write interest if a writer remains and delete it otherwise, then drop
      it from the disabled set; a failed downgrade returns before that. An
      absent reader answers false and touches nothing. */
  function RemoveReader(l: Loop, fd: int): (r: (Loop, seq<Request>, Result<bool, P.PollerError>))
    ensures H.GetReader(l.handles, fd).None? ==> r == (l, [], Ok(false))
    ensures H.GetReader(l.handles, fd).Some? ==>
      && r.0.handles == H.RemoveReader(l.handles, fd).0
      && r.1 == [if H.GetWriter(l.handles, fd).Some? then Modify(fd, P.EventWritable(fd)) else Delete(fd)]
      && (r.0.poller, if r.2.Ok? then Ok(()) else Err(r.2.error)) == Apply(l.poller, r.1[0])
      && (r.2.Ok? ==> r.2.value && r.0.disabled == l.disabled - {fd})
      && (r.2.Err? ==> r.0.disabled == l.disabled)
  {
    var (h, existed) := H.RemoveReader(l.handles, fd);
    if !existed then (l, [], Ok(false))
    else
      var req := if H.GetWriter(h, fd).Some? then Modify(fd, P.EventWritable(fd)) else Delete(fd);
      var (p, res) := Apply(l.poller, req);
      if res.Err? then (Loop(h, p, l.disabled), [req], Err(res.error))
      else (Loop(h, p, l.disabled - {fd}), [req], Ok(true))
  }

  /** `remove_writer`, the mirror image of `RemoveReader`. */
  function RemoveWriter(l: Loop, fd: int): (r: (Loop, seq<Request>, Result<bool, P.PollerError>))
    ensures H.GetWriter(l.handles, fd).None? ==> r == (l, [], Ok(false))
    ensures H.GetWriter(l.handles, fd).Some? ==>
      && r.0.handles == H.RemoveWriter(l.handles, fd).0
      && r.1 == [if H.GetReader(l.handles, fd).Some? then Modify(fd, P.EventReadable(fd)) else Delete(fd)]
      && (r.0.poller, if r.2.Ok? then Ok(()) else Err(r.2.error)) == Apply(l.poller, r.1[0])
      && (r.2.Ok? ==> r.2.value && r.0.disabled == l.disabled - {fd})
      && (r.2.Err? ==> r.0.disabled == l.disabled)
  {
    var (h, existed) := H.RemoveWriter(l.handles, fd);
    if !existed then (l, [], Ok(false))
    else
      var req := if H.GetReader(h, fd).Some? then Modify(fd, P.EventReadable(fd)) else Delete(fd);
      var (p, res) := Apply(l.poller, req);
      if res.Err? then (Loop(h, p, l.disabled), [req], Err(res.error))
      else (Loop(h, p, l.disabled - {fd}), [req], Ok(true))
  }

  /** `add_reader_oneshot`: install a native reader and arm a read-only
      oneshot poll, re-arming a disabled descriptor (and taking it out of
      the disabled set) instead of registering it afresh. The source falls
      back to registering when the re-arm fails with ENOENT; the io_uring
      poller's only failure is a full submission queue, so that fallback
      never runs and the failure is returned. */
  function AddReaderOneshot(l: Loop, fd: int, closure: nat): (r: (Loop, Request, Result<(), P.PollerError>))
    ensures r.0.handles == H.AddReader(l.handles, fd, H.Native(closure))
    ensures r.0.disabled == l.disabled - {fd}
    ensures r.1 == (if fd in l.disabled then RearmOneshot(fd, P.EventReadable(fd)) else RegisterOneshot(fd, P.EventReadable(fd)))
    ensures (r.0.poller, r.2) == Apply(l.poller, r.1)
  {
    var h := H.AddReader(l.handles, fd, H.Native(closure));
    var ev := P.EventReadable(fd);
    var req := if fd in l.disabled then RearmOneshot(fd, ev) else RegisterOneshot(fd, ev);
    var (p, res) := Apply(l.poller, req);
    (Loop(h, p, l.disabled - {fd}), req, res)
  }

  /** `mark_oneshot_disabled`: the reader has fired, so drop it and remember
      that the descriptor is still registered. The poller is not touched. */
  function MarkOneshotDisabled(l: Loop, fd: int): (r: Loop)
    ensures r.handles == H.RemoveReader(l.handles, fd).0
    ensures r.disabled == l.disabled + {fd} && r.poller == l.poller
    ensures H.GetReader(r.handles, fd).None?
  {
    Loop(H.RemoveReader(l.handles, fd).0, l.poller, l.disabled + {fd})
  }

  /** `cleanup_oneshot`: a disabled descriptor is deleted from the poller and
      leaves the set; any other is left alone. */
  function CleanupOneshot(l: Loop, fd: int): (r: (Loop, seq<Request>))
    ensures fd !in r.0.disabled && r.0.handles == l.handles
    ensures fd in l.disabled ==> r == (l.(poller := P.Delete(l.poller, fd), disabled := l.disabled - {fd}), [Delete(fd)])
    ensures fd !in l.disabled ==> r == (l, [])
  {
    if fd in l.disabled then (l.(poller := P.Delete(l.poller, fd), disabled := l.disabled - {fd}), [Delete(fd)])
    else (l, [])
  }

  // ---------------------------------------------------------------------------
  // The refinement invariant
  // ---------------------------------------------------------------------------

  /** A registry change confined to `fd`, followed by a request for `fd` that
      arms exactly its new states, keeps the loop consistent. */
  lemma ConsistentAfter(l: Loop, h: H.IoHandles, req: Request, fd: int)
    requires Consistent(l) && H.NoEmptyEntry(h) && ReqFd(req) == fd
    requires forall x :: x != fd ==> H.PairOf(h, x) == H.PairOf(l.handles, x) && (x in h.fds <==> x in l.handles.fds)
    requires Apply(l.poller, req).1.Ok?
    requires req.Delete? <==> fd !in h.fds
    requires !req.Delete? ==> P.FdInterest(req.ev.readable, req.ev.writable) == States(h, fd)
    ensures Consistent(Loop(h, Apply(l.poller, req).0, l.disabled))
    ensures forall d :: Consistent(Loop(h, Apply(l.poller, req).0, d))
  {
    ApplyArms(l.poller, req);
    var p := Apply(l.poller, req).0;
    forall x | x in h.fds
      ensures P.Armed(p, x) == Some(States(h, x))
    {
      if x != fd {
        assert H.PairOf(h, x) == H.PairOf(l.handles, x);
      }
    }
  }

  /** Adding a reader or writer keeps the poller in step with the registry
      when the poller accepts the request. */
  lemma AddKeepsConsistent(l: Loop, fd: int, cb: H.IoCallback)
    requires Consistent(l)
    ensures AddReader(l, fd, cb).2.Ok? ==> Consistent(AddReader(l, fd, cb).0)
    ensures AddWriter(l, fd, cb).2.Ok? ==> Consistent(AddWriter(l, fd, cb).0)
  {
    var r := AddReader(l, fd, cb);
    if r.2.Ok? {
      ConsistentAfter(l, r.0.handles, r.1, fd);
    }
    var w := AddWriter(l, fd, cb);
    if w.2.Ok? {
      ConsistentAfter(l, w.0.handles, w.1, fd);
    }
  }

  /** Removing a reader or writer keeps the poller in step with the registry
      when the poller accepts the request. */
  lemma RemoveKeepsConsistent(l: Loop, fd: int)
    requires Consistent(l)
    ensures RemoveReader(l, fd).2.Ok? ==> Consistent(RemoveReader(l, fd).0)
    ensures RemoveWriter(l, fd).2.Ok? ==> Consistent(RemoveWriter(l, fd).0)
  {
    var r := RemoveReader(l, fd);
    if r.2.Ok? && |r.1| == 1 {
      ConsistentAfter(l, r.0.handles, r.1[0], fd);
    }
    var w := RemoveWriter(l, fd);
    if w.2.Ok? && |w.1| == 1 {
      ConsistentAfter(l, w.0.handles, w.1[0], fd);
    }
  }

  /** A oneshot reader on a descriptor without a writer keeps the poller in
      step; with a writer the read-only request drops the write interest. */
  lemma OneshotKeepsConsistent(l: Loop, fd: int, closure: nat)
    requires Consistent(l)
    ensures H.GetWriter(l.handles, fd).None? && AddReaderOneshot(l, fd, closure).2.Ok? ==>
      Consistent(AddReaderOneshot(l, fd, closure).0)
    ensures H.GetWriter(l.handles, fd).Some? && AddReaderOneshot(l, fd, closure).2.Ok? ==>
      P.Armed(AddReaderOneshot(l, fd, closure).0.poller, fd) != Some(States(AddReaderOneshot(l, fd, closure).0.handles, fd))
  {
    var r := AddReaderOneshot(l, fd, closure);
    ApplyArms(l.poller, r.1);
    if H.GetWriter(l.handles, fd).None? && r.2.Ok? {
      ConsistentAfter(l, r.0.handles, r.1, fd);
    }
  }
}

=== FILE: loop_legacy.dfy ===
/** `src/event_loop.rs`: the loop of the earlier revision, built on a
    readiness poller (the `polling` crate) rather than the ring. The poller
    is its map from descriptor to interest: `register` inserts, `modify`
    replaces, `delete` removes, and whether a call succeeds is an input.
    A Python callback's effect on the loop is an input too. */
module LoopLegacy {
  import opened Wrappers
  import H = Handles
  import P = Poller
  import Io = LoopIo
  import T = Timers
  import C = Callbacks
  import LoopPoll

  // ---------------------------------------------------------------------------
  // Lifecycle flags
  // ---------------------------------------------------------------------------

  datatype Flags = Flags(running: bool, stopped: bool, closed: bool, debug: bool)

  /** `VeloxLoop::new`: idle, open, debug as asked (default off). */
  function NewFlags(debug: Option<bool>): (f: Flags)
    ensures !f.running && !f.stopped && !f.closed
    ensures f.debug <==> debug == Some(true)
  {
    Flags(false, false, false, if debug.Some? then debug.value else false)
  }

  /** `stop`: request a stop and leave the running state. */
  function Stop(f: Flags): (r: Flags)
    ensures r.stopped && !r.running
    ensures r.closed == f.closed && r.debug == f.debug
  {
    f.(stopped := true, running := false)
  }

  /** `close`: mark closed and leave the running state. */
  function Close(f: Flags): (r: Flags)
    ensures r.closed && !r.running
    ensures r.stopped == f.stopped && r.debug == f.debug
  {
    f.(closed := true, running := false)
  }

  function SetDebug(f: Flags, enabled: bool): (r: Flags)
    ensures r.running == f.running && r.stopped == f.stopped && r.closed == f.closed
  {
    f.(debug := enabled)
  }

  function GetDebug(f: Flags): bool {
    f.debug
  }

  /** `get_debug` reads back what `set_debug` stored, and storing the value
      just read changes nothing. */
  lemma DebugRoundTrip(f: Flags, enabled: bool)
    ensures GetDebug(SetDebug(f, enabled)) == enabled
    ensures SetDebug(f, GetDebug(f)) == f
  {
  }

  /** What one pass of `run_forever`'s loop amounts to: a normal iteration,
      one whose callbacks call `stop` or `close`, one whose `_run_once`
      fails, or a normal one after which the signal check raises. */
  datatype Iteration = Continue | CallsStop | CallsClose | Fails | Interrupted

  /** How `run_forever` ended: it returned, it raised, or the given
      iterations ran out while it was still looping. */
  datatype RunEnd = Returned | Raised | StillLooping

  /** The loop of `run_forever` from flags `f` over the iterations `its`:
      the flags at the end, how many iterations ran, and how it ended. */
  function Iterate(v: Variant, f: Flags, its: seq<Iteration>): (r: (Flags, nat, RunEnd))
    decreases |its|
  {
    if !f.running || f.stopped then (f.(running := false), 0, Returned)
    else if |its| == 0 then (f, 0, StillLooping)
    else match its[0]
      case Fails => (if v.Corrected? then f.(running := false) else f, 1, Raised)
      case CallsStop => (Stop(f), 1, Returned)
      case Interrupted => (if v.Corrected? then f.(running := false) else f, 1, Raised)
      case CallsClose =>
        var rest := Iterate(v, Close(f), its[1..]);
        (rest.0, rest.1 + 1, rest.2)
      case Continue =>
        var rest := Iterate(v, f, its[1..]);
        (rest.0, rest.1 + 1, rest.2)
  }

  /** `run_forever`: enter the running state, clear a previous stop, loop. */
  function RunForeverWith(v: Variant, f: Flags, its: seq<Iteration>): (r: (Flags, nat, RunEnd)) {
    Iterate(v, f.(running := true, stopped := false), its)
  }

  function RunForever(f: Flags, its: seq<Iteration>): (r: (Flags, nat, RunEnd)) {
    RunForeverWith(Corrected, f, its)
  }

  /** The loop runs iterations only while running and not stopped: every
      iteration but the last that ran was a plain one, a `close` ends the
      loop at the next test, and a normal return leaves the loop not
      running. */
  lemma {:induction false} IterateSpec(v: Variant, f: Flags, its: seq<Iteration>)
    ensures var r := Iterate(v, f, its);
      && r.1 <= |its|
      && (r.2.Returned? ==> !r.0.running)
      && (r.2.StillLooping? ==> r.1 == |its| && r.0.running && !r.0.stopped)
      && (forall i :: 0 <= i < r.1 && its[i] != Continue && its[i] != CallsClose ==> i == r.1 - 1)
      && (r.2.Raised? ==> r.1 > 0 && (its[r.1 - 1] == Fails || its[r.1 - 1] == Interrupted))
      && r.0.debug == f.debug
    decreases |its|
  {
    if f.running && !f.stopped && |its| > 0 && (its[0] == Continue || its[0] == CallsClose) {
      var f1 := if its[0] == Continue then f else Close(f);
      IterateSpec(v, f1, its[1..]);
      var rest := Iterate(v, f1, its[1..]);
      var r := Iterate(v, f, its);
      assert r == (rest.0, rest.1 + 1, rest.2);
      forall i | 0 <= i < r.1 && its[i] != Continue && its[i] != CallsClose
        ensures i == r.1 - 1
      {
        assert i > 0 && its[1..][i - 1] == its[i];
      }
      if r.2.Raised? {
        assert its[r.1 - 1] == its[1..][rest.1 - 1];
      }
    }
  }

  /** Corrected: however `run_forever` leaves, by return or by exception,
      the loop is no longer running. */
  lemma {:induction false} RunForeverStopsRunning(f: Flags, its: seq<Iteration>)
    ensures RunForever(f, its).2 != StillLooping ==> !RunForever(f, its).0.running
  {
    IterateLeaves(f.(running := true, stopped := false), its);
  }

  lemma {:induction false} IterateLeaves(f: Flags, its: seq<Iteration>)
    ensures Iterate(Corrected, f, its).2 != StillLooping ==> !Iterate(Corrected, f, its).0.running
    decreases |its|
  {
    if f.running && !f.stopped && |its| > 0 && (its[0] == Continue || its[0] == CallsClose) {
      IterateLeaves(if its[0] == Continue then f else Close(f), its[1..]);
    }
  }

  /** As written: when `_run_once` fails (or the signal check raises) the
      `?` leaves `run_forever` before the flag is reset, so the loop still
      reports itself running. */
  lemma RunningAfterFailureAsWritten()
    ensures var r := RunForeverWith(AsWritten, NewFlags(None), [Fails]);
      r.2 == Raised && r.0.running
  {
  }

  // ---------------------------------------------------------------------------
  // Reader and writer registration
  // ---------------------------------------------------------------------------

  /** The calls made on the readiness poller. */
  datatype Ctl = CtlRegister(fd: int, ev: P.FdInterest) | CtlModify(fd: int, ev: P.FdInterest) | CtlDelete(fd: int)

  datatype CtlFailed = CtlFailed

  datatype Legacy = Legacy(handles: H.IoHandles, interest: map<int, P.FdInterest>)

  /** The poller's interest map after a call that succeeded. */
  function ApplyCtl(m: map<int, P.FdInterest>, c: Ctl): map<int, P.FdInterest> {
    match c
    case CtlRegister(fd, ev) => m[fd := ev]
    case CtlModify(fd, ev) => m[fd := ev]
    case CtlDelete(fd) => m - {fd}
  }

  /** The registry and the poller agree: the descriptors with handles are
      exactly the registered ones, each with interest in the sides that
      have a handle. */
  ghost predicate Consistent(l: Legacy) {
    && H.NoEmptyEntry(l.handles)
    && (forall fd :: fd in l.interest <==> fd in l.handles.fds)
    && forall fd :: fd in l.interest ==> l.interest[fd] == Io.States(l.handles, fd)
  }

  /** Performs `c` on the poller if `ok` says the call succeeds; the
      registry has already been changed either way. */
  function Commit(h: H.IoHandles, l: Legacy, c: Ctl, ok: bool): (r: (Legacy, Ctl, Result<(), CtlFailed>))
    ensures r.1 == c && (r.2.Ok? <==> ok) && r.0.handles == h
  {
    if ok then (Legacy(h, ApplyCtl(l.interest, c)), c, Ok(()))
    else (Legacy(h, l.interest), c, Err(CtlFailed))
  }

  /** `add_reader`: install the reader, then register the descriptor if it
      had no handle at all, or modify it to reading plus writing if a writer
      is present. */
  function AddReader(l: Legacy, fd: int, cb: H.IoCallback, ok: bool): (r: (Legacy, Ctl, Result<(), CtlFailed>)) {
    var had := H.GetReader(l.handles, fd).Some? || H.GetWriter(l.handles, fd).Some?;
    var ev := P.FdInterest(true, H.GetWriter(l.handles, fd).Some?);
    Commit(H.AddReader(l.handles, fd, cb), l, if had then CtlModify(fd, ev) else CtlRegister(fd, ev), ok)
  }

  /** `add_writer`, the mirror image. */
  function AddWriter(l: Legacy, fd: int, cb: H.IoCallback, ok: bool): (r: (Legacy, Ctl, Result<(), CtlFailed>)) {
    var had := H.GetReader(l.handles, fd).Some? || H.GetWriter(l.handles, fd).Some?;
    var ev := P.FdInterest(H.GetReader(l.handles, fd).Some?, true);
    Commit(H.AddWriter(l.handles, fd, cb), l, if had then CtlModify(fd, ev) else CtlRegister(fd, ev), ok)
  }

  /** `remove_reader`: nothing when there is no reader; otherwise drop it
      and downgrade to writing only, or delete the descriptor. */
  function RemoveReader(l: Legacy, fd: int, ok: bool): (r: (Legacy, Option<Ctl>, Result<bool, CtlFailed>)) {
    var (h, removed) := H.RemoveReader(l.handles, fd);
    if !removed then (l, None, Ok(false))
    else
      var c := if H.GetWriter(h, fd).Some? then CtlModify(fd, P.FdInterest(false, true)) else CtlDelete(fd);
      var d := Commit(h, l, c, ok);
      (d.0, Some(c), if d.2.Ok? then Ok(true) else Err(CtlFailed))
  }

  /** `remove_writer`, the mirror image. */
  function RemoveWriter(l: Legacy, fd: int, ok: bool): (r: (Legacy, Option<Ctl>, Result<bool, CtlFailed>)) {
    var (h, removed) := H.RemoveWriter(l.handles, fd);
    if !removed then (l, None, Ok(false))
    else
      var c := if H.GetReader(h, fd).Some? then CtlModify(fd, P.FdInterest(true, false)) else CtlDelete(fd);
      var d := Commit(h, l, c, ok);
      (d.0, Some(c), if d.2.Ok? then Ok(true) else Err(CtlFailed))
  }

  /** Adding registers exactly the descriptors the poller does not know and
      modifies the ones it does; with the call succeeding the registry and
      the poller stay in agreement. */
  lemma AddSpec(l: Legacy, fd: int, cb: H.IoCallback, ok: bool)
    requires Consistent(l)
    ensures var r := AddReader(l, fd, cb, ok);
      && (r.1.CtlRegister? <==> fd !in l.interest)
      && r.1.ev == P.FdInterest(true, H.GetWriter(l.handles, fd).Some?)
      && (ok ==> Consistent(r.0))
    ensures var r := AddWriter(l, fd, cb, ok);
      && (r.1.CtlRegister? <==> fd !in l.interest)
      && r.1.ev == P.FdInterest(H.GetReader(l.handles, fd).Some?, true)
      && (ok ==> Consistent(r.0))
  {
  }

  /** Removing an absent side answers false and touches nothing; otherwise
      the call downgrades to the remaining side or deletes, and a succeeding
      call keeps the registry and the poller in agreement. */
  lemma RemoveSpec(l: Legacy, fd: int, ok: bool)
    requires Consistent(l)
    ensures var r := RemoveReader(l, fd, ok);
      && (H.GetReader(l.handles, fd).None? ==> r == (l, None, Ok(false)))
      && (H.GetReader(l.handles, fd).Some? ==>
            && r.1 == Some(if H.GetWriter(l.handles, fd).Some? then CtlModify(fd, P.FdInterest(false, true)) else CtlDelete(fd))
            && (ok ==> r.2 == Ok(true) && Consistent(r.0)))
    ensures var r := RemoveWriter(l, fd, ok);
      && (H.GetWriter(l.handles, fd).None? ==> r == (l, None, Ok(false)))
      && (H.GetWriter(l.handles, fd).Some? ==>
            && r.1 == Some(if H.GetReader(l.handles, fd).Some? then CtlModify(fd, P.FdInterest(true, false)) else CtlDelete(fd))
            && (ok ==> r.2 == Ok(true) && Consistent(r.0)))
  {
  }

  // ---------------------------------------------------------------------------
  // Event dispatch in `_run_once`
  // ---------------------------------------------------------------------------

  /** What a Python callback does to the registry and the poller; a raise is
      printed and otherwise ignored. */
  type Runner = (Legacy, H.Handle) -> Legacy

  /** A handle that may run: present and not cancelled. */
  function Live(hd: Option<H.Handle>): (r: Option<H.Handle>)
    ensures r.Some? ==> hd == r && !r.value.cancelled
    ensures hd.Some? && !hd.value.cancelled ==> r == hd
  {
    if hd.Some? && !hd.value.cancelled then hd else None
  }

  function RunIf(l: Legacy, hd: Option<H.Handle>, run: Runner): Legacy {
    if hd.Some? then run(l, hd.value) else l
  }

  /** `modify` with its error ignored: a descriptor the poller does not know
      is left alone. */
  function ModifyIgnoring(m: map<int, P.FdInterest>, fd: int, ev: P.FdInterest): (r: map<int, P.FdInterest>) {
    if fd in m then m[fd := ev] else m
  }

  /** One event: the live reader runs if the event is readable, then the
      live writer (looked up afresh) if it is writable; then the descriptor
      is re-armed with the sides that still have a handle. */
  function Dispatch(l: Legacy, e: P.PollerEvent, run: Runner): (r: (Legacy, seq<H.Handle>)) {
    var fd := e.key;
    var rh := if e.readable then Live(H.GetReader(l.handles, fd)) else None;
    var l1 := RunIf(l, rh, run);
    var wh := if e.writable then Live(H.GetWriter(l1.handles, fd)) else None;
    var l2 := RunIf(l1, wh, run);
    var st := Io.States(l2.handles, fd);
    var l3 := if st.readable || st.writable then l2.(interest := ModifyIgnoring(l2.interest, fd, st)) else l2;
    (l3, (if rh.Some? then [rh.value] else []) + (if wh.Some? then [wh.value] else []))
  }

  /** Only live handles run, each on its own ready side; afterwards a
      descriptor the poller still knows is armed for exactly the sides that
      have a handle, nothing is armed for one without handles, and every
      other descriptor keeps what the callbacks left. */
  lemma DispatchSpec(l: Legacy, e: P.PollerEvent, run: Runner)
    ensures var r := Dispatch(l, e, run);
      && |r.1| <= 2
      && (forall x :: x in r.1 ==> !x.cancelled)
      && (!e.readable && !e.writable ==> r == (Legacy(l.handles, ModifyIgnoring(l.interest, e.key, Io.States(l.handles, e.key))), []) || r == (l, []))
      && ((e.key in r.0.interest && (Io.States(r.0.handles, e.key).readable || Io.States(r.0.handles, e.key).writable))
            ==> r.0.interest[e.key] == Io.States(r.0.handles, e.key))
  {
  }

  function DispatchAll(l: Legacy, events: seq<P.PollerEvent>, run: Runner): (r: (Legacy, seq<H.Handle>))
    decreases |events|
  {
    if |events| == 0 then (l, [])
    else
      var d := Dispatch(l, events[0], run);
      var rest := DispatchAll(d.0, events[1..], run);
      (rest.0, d.1 + rest.1)
  }

  /** Over a whole batch no cancelled handle is ever invoked, and at most
      two handles run per event. */
  lemma {:induction false} DispatchAllLive(l: Legacy, events: seq<P.PollerEvent>, run: Runner)
    ensures var r := DispatchAll(l, events, run);
      && |r.1| <= 2 * |events|
      && forall x :: x in r.1 ==> !x.cancelled
    decreases |events|
  {
    if |events| > 0 {
      DispatchSpec(l, events[0], run);
      var d := Dispatch(l, events[0], run);
      DispatchAllLive(d.0, events[1..], run);
    }
  }

  datatype LegacyLoop = LegacyLoop(io: Legacy, timers: T.Timers, queue: C.CallbackQueue)

  /** `_run_once` of this revision: the timeout rule, the poll (whose error
      ends the iteration), the dispatch of every event, then the expired
      timers, then the queued callbacks. Timer expiries are read against
      the clock's origin here. */
  method RunOnce(s: LegacyLoop, nowNs: nat, laterNs: nat, events: Result<seq<P.PollerEvent>, CtlFailed>, run: Runner)
    returns (r: LegacyLoop, timeout: nat, trace: seq<LoopPoll.Phase>, res: Result<(), CtlFailed>)
    ensures !C.IsEmpty(s.queue) ==> timeout == 0
    ensures C.IsEmpty(s.queue) && s.timers.minExpiryCache.Some? ==>
      nowNs + timeout == (if s.timers.minExpiryCache.value > nowNs then s.timers.minExpiryCache.value else nowNs)
    ensures C.IsEmpty(s.queue) && s.timers.minExpiryCache.None? && |s.timers.slab.entries| == 0 ==>
      timeout == LoopPoll.DEFAULT_TIMEOUT_NS
    ensures events.Err? ==> res.Err? && r == s && trace == []
    ensures events.Ok? ==> |trace| == 3 && trace[0].IoPhase? && trace[1].TimerPhase? && trace[2].CallbackPhase?
    ensures events.Ok? ==> trace[2].callbacks == s.queue.items && C.IsEmpty(r.queue)
    ensures events.Ok? ==> forall x :: x in trace[0].handles ==> !x.cancelled
  {
    var hasCallbacks := !C.IsEmpty(s.queue);
    var next := T.NextExpiry(s.timers);
    timeout := LoopPoll.Timeout(hasCallbacks, next, nowNs);
    LoopPoll.TimeoutSpec(hasCallbacks, next, nowNs);
    if events.Err? {
      return s, timeout, [], Err(CtlFailed);
    }
    var d := DispatchAll(s.io, events.value, run);
    DispatchAllLive(s.io, events.value, run);
    var (timers, fired) := T.PopExpired(s.timers, laterNs, 0);
    var (queue, cbs) := C.PopAll(s.queue);
    r := LegacyLoop(d.0, timers, queue);
    trace := [LoopPoll.IoPhase(d.1), LoopPoll.TimerPhase(fired), LoopPoll.CallbackPhase(cbs)];
    res := Ok(());
  }
}

=== FILE: loop_poll.dfy ===
/** `src/event_loop/poll.rs`: one iteration of the loop. It chooses the poll
    timeout, polls, dispatches I/O events to the handles (one event on a
    fast path, several as a batch that runs native callbacks before Python
    ones), re-arms the oneshot polls, then runs expired timers and finally
    the `call_soon` queue. What a callback does to the registry is an input:
    a function from the registry and the handle to the registry afterwards
    and whether the callback raised. */
module LoopPoll {
  import opened Wrappers
  import H = Handles
  import P = Poller
  import Io = LoopIo
  import T = Timers
  import C = Callbacks

  /** The poll timeout when nothing is scheduled: 10 ms. */
  const DEFAULT_TIMEOUT_NS: nat := 10_000_000

  /** Running one handle: the registry afterwards and whether it raised. */
  type Runner = (H.IoHandles, H.Handle) -> (H.IoHandles, bool)

  datatype LoopError = CallbackRaised | PollerFailed(err: P.PollerError)

  // ---------------------------------------------------------------------------
  // Timeout
  // ---------------------------------------------------------------------------

  /** The timeout `_run_once` polls with, in nanoseconds. */
  function Timeout(hasCallbacks: bool, next: Option<nat>, nowNs: nat): (r: nat) {
    if hasCallbacks then 0
    else match next
      case Some(n) => if n > nowNs then n - nowNs else 0
      case None => DEFAULT_TIMEOUT_NS
  }

  /** The poll never sleeps past the next timer or while callbacks wait, it
      does not sleep at all exactly when something is ready to run, and with
      nothing scheduled it wakes after 10 ms. */
  lemma TimeoutSpec(hasCallbacks: bool, next: Option<nat>, nowNs: nat)
    ensures var r := Timeout(hasCallbacks, next, nowNs);
      && (r == 0 <==> hasCallbacks || (next.Some? && next.value <= nowNs))
      && (!hasCallbacks && next.Some? ==> nowNs + r == if next.value > nowNs then next.value else nowNs)
      && (!hasCallbacks && next.None? ==> r == DEFAULT_TIMEOUT_NS)
  {
  }

  // ---------------------------------------------------------------------------
  // A single event
  // ---------------------------------------------------------------------------

  /** Run a handle if there is one. */
  function RunOpt(h: H.IoHandles, hd: Option<H.Handle>, run: Runner): (r: (H.IoHandles, bool))
    ensures hd.None? ==> r == (h, false)
  {
    if hd.Some? then run(h, hd.value) else (h, false)
  }

  /** The oneshot re-arm after an event: arm again with the sides that still
      have a handle, re-arming a disabled descriptor and registering any
      other; nothing when no handle is left. */
  function RearmRequest(l: Io.Loop, fd: int): (r: Option<Io.Request>)
  {
    var st := Io.States(l.handles, fd);
    if st.readable || st.writable then
      var ev := P.PollerEvent(fd, st.readable, st.writable);
      Some(if fd in l.disabled then Io.RearmOneshot(fd, ev) else Io.RegisterOneshot(fd, ev))
    else None
  }

  /** The one-event fast path of `_process_native_events`. An error event
      drops both handles and deletes the descriptor without running
      anything. Otherwise the reader and the writer present before the
      event run in that order, whatever the event's readiness bits, a raise
      stopping the rest, and the descriptor is re-armed. */
  function ProcessSingle(l: Io.Loop, e: P.PlatformEvent, run: Runner): (r: (Io.Loop, seq<H.Handle>, Result<(), LoopError>))
  {
    var fd := e.fd;
    if e.error then
      var h := H.RemoveWriter(H.RemoveReader(l.handles, fd).0, fd).0;
      (Io.Loop(h, P.Delete(l.poller, fd), l.disabled), [], Ok(()))
    else
      var rh := H.GetReader(l.handles, fd);
      var wh := H.GetWriter(l.handles, fd);
      var ranR := if rh.Some? then [rh.value] else [];
      var (h1, raised1) := RunOpt(l.handles, rh, run);
      if raised1 then (l.(handles := h1), ranR, Err(CallbackRaised))
      else
        var ran := ranR + (if wh.Some? then [wh.value] else []);
        var (h2, raised2) := RunOpt(h1, wh, run);
        if raised2 then (l.(handles := h2), ran, Err(CallbackRaised))
        else
          var l2 := l.(handles := h2);
          match RearmRequest(l2, fd)
          case None => (l2, ran, Ok(()))
          case Some(req) =>
            var (p, res) := Io.Apply(l2.poller, req);
            (l2.(poller := p), ran, if res.Ok? then Ok(()) else Err(PollerFailed(res.error)))
  }

  /** After the fast path the descriptor is armed with exactly the sides that
      still have a handle, or nothing is requested when none is left; an
      error event runs nothing and leaves the descriptor unregistered. */
  lemma ProcessSingleSpec(l: Io.Loop, e: P.PlatformEvent, run: Runner)
    requires P.PollerSound(l.poller)
    ensures var r := ProcessSingle(l, e, run);
      && P.PollerSound(r.0.poller)
      && (e.error ==> && r.1 == [] && r.2.Ok?
                      && H.GetReader(r.0.handles, e.fd).None? && H.GetWriter(r.0.handles, e.fd).None?
                      && P.Armed(r.0.poller, e.fd).None?)
      && (!e.error && r.2.Ok? ==>
            && r.1 == (if H.GetReader(l.handles, e.fd).Some? then [H.GetReader(l.handles, e.fd).value] else [])
                      + (if H.GetWriter(l.handles, e.fd).Some? then [H.GetWriter(l.handles, e.fd).value] else [])
            && (e.fd in r.0.handles.fds && H.NoEmptyEntry(r.0.handles) ==>
                  P.Armed(r.0.poller, e.fd) == Some(Io.States(r.0.handles, e.fd))))
      && (forall x :: x != e.fd ==> P.Armed(r.0.poller, x) == P.Armed(l.poller, x))
  {
    var fd := e.fd;
    if e.error {
      P.DeleteDisarms(l.poller, fd);
    } else {
      var r := ProcessSingle(l, e, run);
      var l2 := l.(handles := r.0.handles);
      var req := RearmRequest(l2, fd);
      if req.Some? {
        Io.ApplyArms(l.poller, req.value);
      }
    }
  }

  // ---------------------------------------------------------------------------
  // A batch of events
  // ---------------------------------------------------------------------------

  /** What the batch path keeps for an event whose descriptor has handles:
      the reader if the event is readable and the reader not cancelled, and
      likewise the writer. */
  datatype Entry = Entry(fd: int, reader: Option<H.Handle>, writer: Option<H.Handle>)

  function Keep(hd: Option<H.Handle>, ready: bool): Option<H.Handle> {
    if ready && hd.Some? && !hd.value.cancelled then hd else None
  }

  /** The collection loop: events for descriptors without an entry are
      skipped. */
  function Collect(h: H.IoHandles, events: seq<P.PlatformEvent>): (r: seq<Entry>)
    decreases |events|
  {
    if |events| == 0 then []
    else
      var e := events[0];
      var rest := Collect(h, events[1..]);
      if e.fd in h.fds then
        [Entry(e.fd, Keep(h.fds[e.fd].reader, e.readable), Keep(h.fds[e.fd].writer, e.writable))] + rest
      else rest
  }

  /** Each kept handle is the one registered for its descriptor, is not
      cancelled, and came with an event that was ready on its side; events
      for unknown descriptors contribute nothing. */
  lemma {:induction false} CollectSpec(h: H.IoHandles, events: seq<P.PlatformEvent>)
    ensures |Collect(h, events)| <= |events|
    ensures (forall i :: 0 <= i < |events| ==> events[i].fd !in h.fds) ==> Collect(h, events) == []
    ensures var r := Collect(h, events);
      forall k :: 0 <= k < |r| ==>
        && r[k].fd in h.fds
        && (r[k].reader.Some? ==>
              && r[k].reader == h.fds[r[k].fd].reader && !r[k].reader.value.cancelled
              && exists j :: 0 <= j < |events| && events[j].fd == r[k].fd && events[j].readable)
        && (r[k].writer.Some? ==>
              && r[k].writer == h.fds[r[k].fd].writer && !r[k].writer.value.cancelled
              && exists j :: 0 <= j < |events| && events[j].fd == r[k].fd && events[j].writable)
    decreases |events|
  {
    if |events| > 0 {
      CollectSpec(h, events[1..]);
      var r := Collect(h, events);
      var rest := Collect(h, events[1..]);
      forall k | 0 <= k < |r|
        ensures r[k].fd in h.fds
        ensures r[k].reader.Some? ==> exists j :: 0 <= j < |events| && events[j].fd == r[k].fd && events[j].readable
        ensures r[k].writer.Some? ==> exists j :: 0 <= j < |events| && events[j].fd == r[k].fd && events[j].writable
      {
        if events[0].fd in h.fds && k == 0 {
          if r[k].reader.Some? { assert events[0].fd == r[k].fd && events[0].readable; }
          if r[k].writer.Some? { assert events[0].fd == r[k].fd && events[0].writable; }
        } else {
          var k' := if events[0].fd in h.fds then k - 1 else k;
          assert r[k] == rest[k'];
          if r[k].reader.Some? {
            var j :| 0 <= j < |events[1..]| && events[1..][j].fd == r[k].fd && events[1..][j].readable;
            assert events[j + 1] == events[1..][j];
          }
          if r[k].writer.Some? {
            var j :| 0 <= j < |events[1..]| && events[1..][j].fd == r[k].fd && events[1..][j].writable;
            assert events[j + 1] == events[1..][j];
          }
        }
      }
    }
  }

  function IsNative(hd: H.Handle): bool {
    hd.callback.Native?
  }

  /** One side of an entry: a native handle runs now (a raise is ignored),
      any other is deferred. */
  function RunSide(h: H.IoHandles, hd: Option<H.Handle>, run: Runner): (r: (H.IoHandles, seq<H.Handle>, seq<H.Handle>))
    ensures forall x :: x in r.1 ==> IsNative(x)
    ensures forall x :: x in r.2 ==> !IsNative(x)
    ensures r.1 + r.2 == (if hd.Some? then [hd.value] else [])
  {
    if hd.None? then (h, [], [])
    else if IsNative(hd.value) then (run(h, hd.value).0, [hd.value], [])
    else (h, [], [hd.value])
  }

  /** The dispatch loop over the entries: native callbacks run, the
      others are deferred, and after each entry its descriptor is re-armed
      with the sides that still have a handle (a failed re-arm is ignored). */
  function RunEntries(l: Io.Loop, entries: seq<Entry>, run: Runner): (r: (Io.Loop, seq<H.Handle>, seq<H.Handle>, seq<Io.Request>))
    ensures forall x :: x in r.1 ==> IsNative(x)
    ensures forall x :: x in r.2 ==> !IsNative(x)
    ensures forall q :: q in r.3 ==> q.RearmOneshot? && (q.ev.readable || q.ev.writable)
    ensures r.0.disabled == l.disabled
    decreases |entries|
  {
    if |entries| == 0 then (l, [], [], [])
    else
      var en := entries[0];
      var a := RunSide(l.handles, en.reader, run);
      var b := RunSide(a.0, en.writer, run);
      var st := Io.States(b.0, en.fd);
      var reqs := if st.readable || st.writable then [Io.RearmOneshot(en.fd, P.PollerEvent(en.fd, st.readable, st.writable))] else [];
      var p := if |reqs| > 0 then Io.Apply(l.poller, reqs[0]).0 else l.poller;
      var rest := RunEntries(Io.Loop(b.0, p, l.disabled), entries[1..], run);
      (rest.0, a.1 + b.1 + rest.1, a.2 + b.2 + rest.2, reqs + rest.3)
  }

  /** The deferred Python callbacks, run last; a raise is reported and
      ignored. */
  function RunDeferred(h: H.IoHandles, ds: seq<H.Handle>, run: Runner): H.IoHandles
    decreases |ds|
  {
    if |ds| == 0 then h else RunDeferred(run(h, ds[0]).0, ds[1..], run)
  }

  /** The batch path: collect, dispatch, re-arm, then run what was deferred.
      The handles are listed in the order they run. */
  function ProcessBatch(l: Io.Loop, events: seq<P.PlatformEvent>, run: Runner): (r: (Io.Loop, seq<H.Handle>, seq<Io.Request>))
  {
    var d := RunEntries(l, Collect(l.handles, events), run);
    (d.0.(handles := RunDeferred(d.0.handles, d.2, run)), d.1 + d.2, d.3)
  }

  /** One entry of `RunEntries`, spelled out: what it ran, what it
      deferred, and the loop the rest starts from. The entry's descriptor is
      re-armed as a oneshot with the sides that still have a handle after
      its callbacks ran, exactly when some side does; a successful re-arm
      leaves it armed with exactly those sides, and no other descriptor's
      arming changes. */
  lemma RunEntriesStep(l: Io.Loop, entries: seq<Entry>, run: Runner) returns (l1: Io.Loop, reqs: seq<Io.Request>)
    requires |entries| > 0
    ensures var en := entries[0];
      var a := RunSide(l.handles, en.reader, run);
      var b := RunSide(a.0, en.writer, run);
      var rest := RunEntries(l1, entries[1..], run);
      && |reqs| <= 1
      && RunEntries(l, entries, run) == (rest.0, a.1 + b.1 + rest.1, a.2 + b.2 + rest.2, reqs + rest.3)
      && l1.handles == b.0 && l1.disabled == l.disabled
    ensures var en := entries[0];
      var st := Io.States(l1.handles, en.fd);
      && (|reqs| == 1 <==> st.readable || st.writable)
      && (|reqs| == 1 ==> reqs[0] == Io.RearmOneshot(en.fd, P.PollerEvent(en.fd, st.readable, st.writable)))
      && (|reqs| == 0 ==> l1.poller == l.poller)
      && (P.PollerSound(l.poller) ==>
            && P.PollerSound(l1.poller)
            && (forall x :: x != en.fd ==> P.Armed(l1.poller, x) == P.Armed(l.poller, x))
            && (|reqs| == 1 && Io.Apply(l.poller, reqs[0]).1.Ok? ==> P.Armed(l1.poller, en.fd) == Some(st)))
  {
    var en := entries[0];
    var a := RunSide(l.handles, en.reader, run);
    var b := RunSide(a.0, en.writer, run);
    var st := Io.States(b.0, en.fd);
    reqs := if st.readable || st.writable then [Io.RearmOneshot(en.fd, P.PollerEvent(en.fd, st.readable, st.writable))] else [];
    var p := if |reqs| > 0 then Io.Apply(l.poller, reqs[0]).0 else l.poller;
    l1 := Io.Loop(b.0, p, l.disabled);
    if P.PollerSound(l.poller) && |reqs| > 0 {
      Io.ApplyArms(l.poller, reqs[0]);
    }
    var rest := RunEntries(l1, entries[1..], run);
    assert RunEntries(l, entries, run) == (rest.0, a.1 + b.1 + rest.1, a.2 + b.2 + rest.2, reqs + rest.3);
  }

  /** Across a batch the poller stays sound. */
  lemma {:induction false} RunEntriesSound(l: Io.Loop, entries: seq<Entry>, run: Runner)
    requires P.PollerSound(l.poller)
    ensures P.PollerSound(RunEntries(l, entries, run).0.poller)
    decreases |entries|
  {
    if |entries| > 0 {
      var l1, reqs := RunEntriesStep(l, entries, run);
      RunEntriesSound(l1, entries[1..], run);
    }
  }

  /** The descriptors a batch has entries for. */
  function EntryFds(entries: seq<Entry>): set<int>
    decreases |entries|
  {
    if |entries| == 0 then {} else {entries[0].fd} + EntryFds(entries[1..])
  }

  /** Every re-arm request of a batch is for a descriptor of the batch. */
  lemma {:induction false} RunEntriesRequestFds(l: Io.Loop, entries: seq<Entry>, run: Runner)
    ensures forall q :: q in RunEntries(l, entries, run).3 ==> q.fd in EntryFds(entries)
    decreases |entries|
  {
    if |entries| > 0 {
      var l1, reqs := RunEntriesStep(l, entries, run);
      RunEntriesRequestFds(l1, entries[1..], run);
    }
  }

  /** A descriptor with no entry in the batch keeps its arming. */
  lemma {:induction false} RunEntriesKeepsOthers(l: Io.Loop, entries: seq<Entry>, run: Runner, x: int)
    requires P.PollerSound(l.poller) && x !in EntryFds(entries)
    ensures P.Armed(RunEntries(l, entries, run).0.poller, x) == P.Armed(l.poller, x)
    decreases |entries|
  {
    if |entries| > 0 {
      var l1, reqs := RunEntriesStep(l, entries, run);
      RunEntriesKeepsOthers(l1, entries[1..], run, x);
    }
  }

  /** A handle in one part of a split run is in the whole run. */
  lemma InRun<T>(x: T, a1: seq<T>, a2: seq<T>, b1: seq<T>, b2: seq<T>, c1: seq<T>, c2: seq<T>)
    requires x in a1 + a2 || x in b1 + b2 || x in c1 + c2
    ensures x in (a1 + b1 + c1) + (a2 + b2 + c2)
  {
    assert x in a1 || x in a2 || x in b1 || x in b2 || x in c1 || x in c2;
  }

  /** In a batch every native callback runs before any deferred one, each
      runs at most once per side of an event, and every kept handle does
      run. */
  lemma {:induction false} RunEntriesRunsAll(l: Io.Loop, entries: seq<Entry>, run: Runner)
    ensures var r := RunEntries(l, entries, run);
      && |r.1| + |r.2| <= 2 * |entries|
      && |r.3| <= |entries|
      && (forall k :: 0 <= k < |entries| && entries[k].reader.Some? ==> entries[k].reader.value in r.1 + r.2)
      && (forall k :: 0 <= k < |entries| && entries[k].writer.Some? ==> entries[k].writer.value in r.1 + r.2)
    decreases |entries|
  {
    if |entries| > 0 {
      var en := entries[0];
      var a := RunSide(l.handles, en.reader, run);
      var b := RunSide(a.0, en.writer, run);
      var l1, reqs := RunEntriesStep(l, entries, run);
      RunEntriesRunsAll(l1, entries[1..], run);
      var rest := RunEntries(l1, entries[1..], run);
      var r := RunEntries(l, entries, run);
      forall k | 0 <= k < |entries| && entries[k].reader.Some?
        ensures entries[k].reader.value in r.1 + r.2
      {
        if k > 0 {
          assert entries[1..][k - 1] == entries[k];
        }
        InRun(entries[k].reader.value, a.1, a.2, b.1, b.2, rest.1, rest.2);
      }
      forall k | 0 <= k < |entries| && entries[k].writer.Some?
        ensures entries[k].writer.value in r.1 + r.2
      {
        if k > 0 {
          assert entries[1..][k - 1] == entries[k];
        }
        InRun(entries[k].writer.value, a.1, a.2, b.1, b.2, rest.1, rest.2);
      }
    }
  }

  /** In the batch's run order no native callback comes after a deferred
      one. */
  lemma ProcessBatchOrder(l: Io.Loop, events: seq<P.PlatformEvent>, run: Runner)
    ensures var r := ProcessBatch(l, events, run);
      forall i, j :: 0 <= i < j < |r.1| && !IsNative(r.1[i]) ==> !IsNative(r.1[j])
  {
    var d := RunEntries(l, Collect(l.handles, events), run);
    var r := ProcessBatch(l, events, run);
    assert r.1 == d.1 + d.2;
    forall i, j | 0 <= i < j < |r.1| && !IsNative(r.1[i])
      ensures !IsNative(r.1[j])
    {
      assert forall k :: 0 <= k < |d.1| ==> r.1[k] == d.1[k] && d.1[k] in d.1;
      assert r.1[j] == d.2[j - |d.1|] && d.2[j - |d.1|] in d.2;
    }
  }

  /** `_process_native_events`: nothing for no event, the fast path for one,
      the batch path for more. The batch path never fails. */
  function ProcessNativeEvents(l: Io.Loop, events: seq<P.PlatformEvent>, run: Runner): (r: (Io.Loop, seq<H.Handle>, Result<(), LoopError>))
    ensures |events| == 0 ==> r == (l, [], Ok(()))
    ensures |events| > 1 ==> r.2.Ok?
  {
    if |events| == 0 then (l, [], Ok(()))
    else if |events| == 1 then ProcessSingle(l, events[0], run)
    else
      var b := ProcessBatch(l, events, run);
      (b.0, b.1, Ok(()))
  }

  // ---------------------------------------------------------------------------
  // One iteration
  // ---------------------------------------------------------------------------

  datatype EventLoop = EventLoop(io: Io.Loop, timers: T.Timers, queue: C.CallbackQueue)

  /** What an iteration ran, phase by phase. */
  datatype Phase =
    | IoPhase(handles: seq<H.Handle>)
    | TimerPhase(fired: seq<T.TimerEntry>)
    | CallbackPhase(callbacks: seq<C.Callback>)

  /** `_run_once`. `nowNs` is the clock before polling and `laterNs` after
      the I/O phase; `startNs` is the timer wheel's origin; `completions`
      are what the kernel delivers to the poll. */
  method RunOnce(s: EventLoop, nowNs: nat, laterNs: nat, startNs: nat, completions: seq<P.Completion>, run: Runner)
    returns (r: EventLoop, trace: seq<Phase>, res: Result<(), LoopError>)
    ensures res.Err? ==> |trace| == 1 && trace[0].IoPhase? && r.timers == s.timers && r.queue == s.queue
    ensures res.Ok? ==> |trace| == 3 && trace[0].IoPhase? && trace[1].TimerPhase? && trace[2].CallbackPhase?
    ensures res.Ok? ==> trace[2].callbacks == s.queue.items && C.IsEmpty(r.queue)
    ensures res.Ok? ==> (r.timers, trace[1].fired) == T.PopExpired(s.timers, laterNs, startNs)
  {
    var hasCallbacks := !C.IsEmpty(s.queue);
    var next: Option<nat> := None;
    if !hasCallbacks {
      next := T.NextExpiry(s.timers);
    }
    var timeout := Timeout(hasCallbacks, next, nowNs);
    var polled := P.PollNative(s.io.poller, Some(timeout), completions);
    var processed := ProcessNativeEvents(s.io.(poller := polled.0), polled.1, run);
    if processed.2.Err? {
      return EventLoop(processed.0, s.timers, s.queue), [IoPhase(processed.1)], processed.2;
    }
    var (timers, fired) := T.PopExpired(s.timers, laterNs, startNs);
    var (queue, cbs) := C.PopAll(s.queue);
    return EventLoop(processed.0, timers, queue), [IoPhase(processed.1), TimerPhase(fired), CallbackPhase(cbs)], Ok(());
  }
}

=== FILE: ops.dfy ===
/** `src/io_backend/ops.rs`: the operations a backend accepts, the tokens
    that track them, and the results they complete with. Socket addresses
    are the datagram transport's. */
module Ops {
  import opened Wrappers
  import B = IoBackend
  import Udp

  type SocketAddr = Udp.SockAddr

  /** A `u64` operation token. */
  datatype OpToken = OpToken(id: nat)

  function NewToken(id: nat): (t: OpToken)
    ensures t.id == id
  {
    OpToken(id)
  }

  // ---------------------------------------------------------------------------
  // Shutdown
  // ---------------------------------------------------------------------------

  datatype ShutdownHow = ShutRead | ShutWrite | ShutBoth

  /** The `shutdown(2)` constants on Linux. */
  const SHUT_RD: int := 0
  const SHUT_WR: int := 1
  const SHUT_RDWR: int := 2

  function ToLibc(h: ShutdownHow): int {
    match h
    case ShutRead => SHUT_RD
    case ShutWrite => SHUT_WR
    case ShutBoth => SHUT_RDWR
  }

  /** Each direction maps to its own `shutdown(2)` constant, and no two
      directions share one. */
  lemma ToLibcSpec(a: ShutdownHow, b: ShutdownHow)
    ensures ToLibc(a) == ToLibc(b) <==> a == b
    ensures a.ShutBoth? <==> ToLibc(a) == SHUT_RDWR
    ensures 0 <= ToLibc(a) <= 2
  {
  }

  // ---------------------------------------------------------------------------
  // Operations and results
  // ---------------------------------------------------------------------------

  datatype IoOp =
    | AcceptOp(fd: int, token: OpToken)
    | ConnectOp(fd: int, addr: SocketAddr, token: OpToken)
    | ReadOp(fd: int, offset: Option<nat>, len: nat, token: OpToken)
    | WriteOp(fd: int, offset: Option<nat>, token: OpToken)
    | RecvOp(fd: int, len: nat, flags: int, token: OpToken)
    | SendOp(fd: int, flags: int, token: OpToken)
    | RecvFromOp(fd: int, len: nat, flags: int, token: OpToken)
    | SendToOp(fd: int, addr: SocketAddr, flags: int, token: OpToken)
    | CloseOp(fd: int, token: OpToken)
    | ShutdownOp(fd: int, how: ShutdownHow, token: OpToken)
    | PollOp(fd: int, interest: B.Interest, token: OpToken)
    | TimeoutOp(durationNs: nat, token: OpToken)
    | CancelOp(targetToken: OpToken, token: OpToken)
    | SendfileOp(outFd: int, inFd: int, fileOffset: nat, count: nat, token: OpToken)

  /** An I/O error is kept as its errno. */
  datatype OpResult =
    | Bytes(n: nat)
    | Accept(clientFd: int, addr: Option<SocketAddr>)
    | RecvFrom(len: nat, source: SocketAddr)
    | Connect
    | Close
    | Shutdown
    | Poll(readable: bool, writable: bool)
    | Timeout
    | Cancelled
    | Error(errno: int)

  datatype OpCompletion = OpCompletion(token: OpToken, result: OpResult)

  function IsError(r: OpResult): bool {
    r.Error?
  }

  /** The byte count a result carries, if it carries one. */
  function BytesOf(r: OpResult): Option<nat> {
    match r
    case Bytes(n) => Some(n)
    case RecvFrom(len, _) => Some(len)
    case _ => None
  }

  /** Exactly the two transfer results carry a byte count, and an error
      never does. */
  lemma ResultQueries(r: OpResult)
    ensures BytesOf(r).Some? <==> r.Bytes? || r.RecvFrom?
    ensures r.Bytes? ==> BytesOf(r) == Some(r.n)
    ensures r.RecvFrom? ==> BytesOf(r) == Some(r.len)
    ensures IsError(r) ==> BytesOf(r).None?
  {
  }
}

=== FILE: poll_backend.dfy ===
/** `src/io_backend/poll_backend.rs`: the readiness backend over epoll. It
    keeps its own map of interests next to the epoll instance's, merges a
    read or write request into the interest a descriptor already has, and
    hands out a token per submitted operation. The kernel's answers (the
    errno an `epoll_ctl`, `connect` or `close` fails with, if it does) are
    inputs. */
module PollBackend {
  import opened Wrappers
  import B = IoBackend
  import E = Epoll
  import O = Ops

  /** `EINPROGRESS` and `EWOULDBLOCK` (= `EAGAIN`) on Linux. */
  const EINPROGRESS: int := 115
  const EWOULDBLOCK: int := 11

  datatype Backend = Backend(epoll: E.Epoll, interests: map<int, B.Interest>, nextToken: nat)

  function New(wakeRead: int): (b: Backend)
    ensures Consistent(b) && TokensValid(b) && b.interests == map[]
  {
    Backend(E.New(wakeRead), map[], 1)
  }

  function BackendType(): (t: B.BackendType)
    ensures B.IsReadinessBased(t)
  {
    B.Epoll
  }

  /** The epoll interest a backend interest is registered as (never
      oneshot). */
  function EpollInterest(i: B.Interest): E.Interest {
    E.NewInterest(i.readable, i.writable)
  }

  /** The backend's map and the epoll instance's agree descriptor by
      descriptor. */
  ghost predicate Consistent(b: Backend) {
    && b.interests.Keys == b.epoll.interests.Keys
    && forall fd :: fd in b.interests ==> b.epoll.interests[fd] == EpollInterest(b.interests[fd])
  }

  /** Tokens are handed out from 1 upwards. */
  ghost predicate TokensValid(b: Backend) {
    b.nextToken >= 1
  }

  function Current(b: Backend, fd: int): B.Interest {
    if fd in b.interests then b.interests[fd] else B.Interest.Empty()
  }

  function IsRegistered(b: Backend, fd: int): bool {
    fd in b.interests
  }

  /** Every registered descriptor counts as one pending operation. */
  function PendingOps(b: Backend): nat {
    |b.interests|
  }

  // ---------------------------------------------------------------------------
  // Registration
  // ---------------------------------------------------------------------------

  /** `register`: `epoll_ctl(ADD)`, and on success record the interest. */
  function Register(b: Backend, fd: int, i: B.Interest, failure: Option<int>): (r: (Backend, Result<(), int>))
  {
    var (e, res) := E.Add(b.epoll, fd, EpollInterest(i), failure);
    if res.Err? then (b, Err(res.error))
    else (b.(epoll := e, interests := b.interests[fd := i]), Ok(()))
  }

  /** `modify`: an unchanged interest makes no system call; otherwise
      `epoll_ctl(MOD)` and on success record the interest. */
  function Modify(b: Backend, fd: int, i: B.Interest, failure: Option<int>): (r: (Backend, Result<(), int>))
  {
    if fd in b.interests && b.interests[fd] == i then (b, Ok(()))
    else
      var (e, res, _) := E.Modify(b.epoll, fd, EpollInterest(i), failure);
      if res.Err? then (b, Err(res.error))
      else (b.(epoll := e, interests := b.interests[fd := i]), Ok(()))
  }

  /** `unregister`: `epoll_ctl(DEL)` (a missing registration is tolerated),
      and on success forget the descriptor. */
  function Unregister(b: Backend, fd: int, failure: Option<int>): (r: (Backend, Result<(), int>))
  {
    var (e, res) := E.Delete(b.epoll, fd, failure);
    if res.Err? then (b, Err(res.error))
    else (b.(epoll := e, interests := b.interests - {fd}), Ok(()))
  }

  /** `register` succeeds exactly when the kernel accepts; it then records
      the interest, keeps the two maps in agreement and counts a new
      descriptor; a failure changes nothing. */
  lemma RegisterSpec(b: Backend, fd: int, i: B.Interest, failure: Option<int>)
    requires Consistent(b)
    ensures var r := Register(b, fd, i, failure);
      && (r.1.Ok? <==> failure.None?)
      && (r.1.Ok? ==> r.0.interests == b.interests[fd := i] && Consistent(r.0))
      && (r.1.Ok? && !IsRegistered(b, fd) ==> PendingOps(r.0) == PendingOps(b) + 1)
      && (r.1.Err? ==> r.0 == b)
  {
  }

  /** `modify` records the new interest on success, makes no system call
      when it is unchanged, and changes nothing on failure. */
  lemma ModifySpec(b: Backend, fd: int, i: B.Interest, failure: Option<int>)
    requires Consistent(b)
    ensures var r := Modify(b, fd, i, failure);
      && (r.1.Ok? ==> r.0.interests == b.interests[fd := i] && Consistent(r.0))
      && (Current(b, fd) == i && IsRegistered(b, fd) ==> r.0 == b && r.1.Ok?)
      && (r.1.Err? ==> r.0 == b)
  {
    var m := Modify(b, fd, i, failure);
    if !(fd in b.interests && b.interests[fd] == i) && m.1.Ok? {
      assert fd in b.epoll.interests ==> b.epoll.interests[fd] != EpollInterest(i);
    }
  }

  /** `unregister` succeeds when the kernel accepts or answers ENOENT, and
      then forgets the descriptor; a failure changes nothing. */
  lemma UnregisterSpec(b: Backend, fd: int, failure: Option<int>)
    requires Consistent(b)
    ensures var r := Unregister(b, fd, failure);
      && (r.1.Ok? <==> failure.None? || failure == Some(E.ENOENT))
      && (r.1.Ok? ==> !IsRegistered(r.0, fd) && r.0.interests == b.interests - {fd} && Consistent(r.0))
      && (r.1.Ok? && IsRegistered(b, fd) ==> PendingOps(r.0) == PendingOps(b) - 1)
      && (r.1.Err? ==> r.0 == b)
  {
  }

  // ---------------------------------------------------------------------------
  // Submissions
  // ---------------------------------------------------------------------------

  /** Hand out the next token. */
  function Issue(b: Backend): (r: (Backend, O.OpToken))
    ensures r.1.id == b.nextToken && r.0 == b.(nextToken := b.nextToken + 1)
  {
    (b.(nextToken := b.nextToken + 1), O.NewToken(b.nextToken))
  }

  /** Register the merged interest if the descriptor is new, modify
      otherwise; a failure is returned before a token is taken. */
  function Arm(b: Backend, fd: int, i: B.Interest, failure: Option<int>): (r: (Backend, Result<O.OpToken, int>))
  {
    var (b1, res) := if fd in b.interests then Modify(b, fd, i, failure) else Register(b, fd, i, failure);
    if res.Err? then (b1, Err(res.error))
    else var (b2, t) := Issue(b1); (b2, Ok(t))
  }

  /** `submit_read`: add readability, keeping the writability the
      descriptor already has. */
  function SubmitRead(b: Backend, fd: int, failure: Option<int>): (r: (Backend, Result<O.OpToken, int>)) {
    Arm(b, fd, B.Interest(true, Current(b, fd).writable), failure)
  }

  /** `submit_write`: add writability, keeping the readability. */
  function SubmitWrite(b: Backend, fd: int, failure: Option<int>): (r: (Backend, Result<O.OpToken, int>)) {
    Arm(b, fd, B.Interest(Current(b, fd).readable, true), failure)
  }

  /** `submit_recv` is `submit_read` and `submit_send` is `submit_write`. */
  function SubmitRecv(b: Backend, fd: int, failure: Option<int>): (r: (Backend, Result<O.OpToken, int>)) {
    SubmitRead(b, fd, failure)
  }

  function SubmitSend(b: Backend, fd: int, failure: Option<int>): (r: (Backend, Result<O.OpToken, int>)) {
    SubmitWrite(b, fd, failure)
  }

  /** `submit_read` adds readability and keeps writability, registering a new
      descriptor and modifying a known one; a descriptor already readable
      needs no system call. The token is the next one and the counter moves
      on; a failure changes nothing and takes no token. `submit_recv` is the
      same request. */
  lemma SubmitReadSpec(b: Backend, fd: int, failure: Option<int>)
    requires Consistent(b)
    ensures var r := SubmitRead(b, fd, failure);
      && (r.1.Ok? ==>
            && r.0.interests == b.interests[fd := B.Interest(true, fd in b.interests && b.interests[fd].writable)]
            && r.1.value.id == b.nextToken && r.0.nextToken == b.nextToken + 1
            && Consistent(r.0))
      && (r.1.Err? ==> r.0 == b && failure.Some?)
      && (fd in b.interests && b.interests[fd].readable ==> r.1.Ok? && r.0.interests == b.interests)
      && (fd !in b.interests ==> (r.1.Ok? <==> failure.None?))
      && SubmitRecv(b, fd, failure) == r
  {
    RegisterSpec(b, fd, B.Interest(true, Current(b, fd).writable), failure);
    ModifySpec(b, fd, B.Interest(true, Current(b, fd).writable), failure);
  }

  /** The mirror image for `submit_write` and `submit_send`. */
  lemma SubmitWriteSpec(b: Backend, fd: int, failure: Option<int>)
    requires Consistent(b)
    ensures var r := SubmitWrite(b, fd, failure);
      && (r.1.Ok? ==>
            && r.0.interests == b.interests[fd := B.Interest(fd in b.interests && b.interests[fd].readable, true)]
            && r.1.value.id == b.nextToken && r.0.nextToken == b.nextToken + 1
            && Consistent(r.0))
      && (r.1.Err? ==> r.0 == b && failure.Some?)
      && (fd in b.interests && b.interests[fd].writable ==> r.1.Ok? && r.0.interests == b.interests)
      && (fd !in b.interests ==> (r.1.Ok? <==> failure.None?))
      && SubmitSend(b, fd, failure) == r
  {
    RegisterSpec(b, fd, B.Interest(Current(b, fd).readable, true), failure);
    ModifySpec(b, fd, B.Interest(Current(b, fd).readable, true), failure);
  }

  /** A read request then a write request on a new descriptor leave it
      registered for both, under two consecutive tokens. */
  lemma ReadThenWrite(b: Backend, fd: int)
    requires Consistent(b) && fd !in b.interests
    ensures var r1 := SubmitRead(b, fd, None);
      var r2 := SubmitWrite(r1.0, fd, None);
      && r1.1.Ok? && r2.1.Ok?
      && r2.0.interests == b.interests[fd := B.Interest.Both()]
      && r2.1.value.id == r1.1.value.id + 1
      && Consistent(r2.0)
  {
    SubmitReadSpec(b, fd, None);
    var r1 := SubmitRead(b, fd, None);
    SubmitWriteSpec(r1.0, fd, None);
  }

  /** `submit_accept`: register the listening descriptor readable-only (an
      `epoll_ctl(ADD)` even when it is already known). */
  function SubmitAccept(b: Backend, fd: int, failure: Option<int>): (r: (Backend, Result<O.OpToken, int>))
    ensures r.1.Ok? <==> failure.None?
    ensures r.1.Ok? ==> r.0.interests == b.interests[fd := B.Interest.Readable()] && r.1.value.id == b.nextToken
    ensures r.1.Err? ==> r.0 == b
  {
    var (b1, res) := Register(b, fd, B.Interest.Readable(), failure);
    if res.Err? then (b1, Err(res.error))
    else var (b2, t) := Issue(b1); (b2, Ok(t))
  }

  /** `submit_connect`: `connect` either completes at once (`connectErr` is
      `None`), is in progress, which registers the descriptor writable-only,
      or fails, which is returned. */
  function SubmitConnect(b: Backend, fd: int, connectErr: Option<int>, failure: Option<int>): (r: (Backend, Result<O.OpToken, int>))
    ensures connectErr.None? ==> r.1.Ok? && r.0.interests == b.interests
    ensures connectErr.Some? && connectErr.value != EINPROGRESS && connectErr.value != EWOULDBLOCK ==>
      r == (b, Err(connectErr.value))
    ensures connectErr.Some? && r.1.Ok? ==> r.0.interests == b.interests[fd := B.Interest.Writable()]
    ensures r.1.Ok? ==> r.1.value.id == b.nextToken && r.0.nextToken == b.nextToken + 1
  {
    if connectErr.None? then var (b1, t) := Issue(b); (b1, Ok(t))
    else if connectErr.value == EINPROGRESS || connectErr.value == EWOULDBLOCK then
      var (b1, res) := Register(b, fd, B.Interest.Writable(), failure);
      if res.Err? then (b1, Err(res.error))
      else var (b2, t) := Issue(b1); (b2, Ok(t))
    else (b, Err(connectErr.value))
  }

  /** `submit_close`: unregister (ignoring the outcome), then `close`; a
      failed close is returned. */
  function SubmitClose(b: Backend, fd: int, deleteFailure: Option<int>, closeErr: Option<int>): (r: (Backend, Result<O.OpToken, int>))
    ensures r.1.Ok? <==> closeErr.None?
    ensures deleteFailure.None? ==> !IsRegistered(r.0, fd)
    ensures r.0.interests == b.interests || r.0.interests == b.interests - {fd}
  {
    var (b1, _) := Unregister(b, fd, deleteFailure);
    if closeErr.Some? then (b1, Err(closeErr.value))
    else var (b2, t) := Issue(b1); (b2, Ok(t))
  }

  /** `cancel` does nothing, and there are never completions to collect. */
  function Cancel(b: Backend, token: O.OpToken): (r: (Backend, Result<(), int>))
    ensures r == (b, Ok(()))
  {
    (b, Ok(()))
  }

  function GetCompletions(b: Backend): (r: seq<O.OpCompletion>)
    ensures r == []
  {
    []
  }

  /** Every token handed out is the counter's value before the call and at
      least 1, so the tokens of successive successful submissions strictly
      increase. */
  lemma TokensIncrease(b: Backend, fd: int, fd2: int, failure: Option<int>, failure2: Option<int>)
    requires Consistent(b) && TokensValid(b)
    ensures var r1 := SubmitRead(b, fd, failure);
      var r2 := SubmitWrite(r1.0, fd2, failure2);
      && TokensValid(r1.0)
      && (r1.1.Ok? ==> r1.1.value.id >= 1)
      && (r1.1.Ok? && r2.1.Ok? ==> r1.1.value.id < r2.1.value.id)
  {
    SubmitReadSpec(b, fd, failure);
    var r1 := SubmitRead(b, fd, failure);
    if r1.1.Ok? {
      SubmitWriteSpec(r1.0, fd2, failure2);
    }
  }

  // ---------------------------------------------------------------------------
  // Polling
  // ---------------------------------------------------------------------------

  /** `poll`: the epoll events as backend events, never with an error or
      hang-up flag; `None` while the answers are used up by interruptions. */
  function PollEvents(b: Backend, answers: seq<E.WaitAnswer>): (r: Option<Result<seq<B.IoEvent>, int>>)
    ensures r.Some? && r.value.Ok? ==> forall k :: 0 <= k < |r.value.value| ==>
      !r.value.value[k].error && !r.value.value[k].hangup
    ensures r.None? <==> E.Wait(b.epoll, answers).StillWaiting?
  {
    match E.Wait(b.epoll, answers)
    case Returned(evs) => Some(Ok(ToIoEvents(evs)))
    case WaitError(e) => Some(Err(e))
    case StillWaiting => None
  }

  /** The wake pipe never shows up among the polled events, and every
      reported event is some kernel entry's readiness. */
  lemma PollSpec(b: Backend, answers: seq<E.WaitAnswer>)
    ensures var r := PollEvents(b, answers);
      r.Some? && r.value.Ok? ==> forall k :: 0 <= k < |r.value.value| ==>
        r.value.value[k].fd != b.epoll.wakeRead
  {
    var w := E.Wait(b.epoll, answers);
    if w.Returned? {
      var j :| 0 <= j < |answers| && answers[j].Ready? && w.events == E.Decode(answers[j].raw, b.epoll.wakeRead);
      E.DecodeSpec(answers[j].raw, b.epoll.wakeRead);
    }
  }

  function ToIoEvents(evs: seq<E.Event>): (r: seq<B.IoEvent>)
    ensures |r| == |evs|
    ensures forall k :: 0 <= k < |r| ==> r[k] == B.IoEvent(evs[k].fd, evs[k].readable, evs[k].writable, false, false)
  {
    seq(|evs|, k requires 0 <= k < |evs| => B.IoEvent(evs[k].fd, evs[k].readable, evs[k].writable, false, false))
  }
}

=== FILE: poller.dfy ===
/** `src/poller.rs`: the loop's readiness poller. On Linux it arms one
    io_uring `PollAdd` per descriptor, each under a fresh token, and decodes
    the completions into platform events; elsewhere it is a stub that only
    records interests. The ring itself is reduced to the number of queued
    submission entries; the kernel's completions are an input. */
module Poller {
  import opened Wrappers

  const POLLIN: nat := 1
  const POLLOUT: nat := 4
  const POLLERR: nat := 8
  const POLLHUP: nat := 16
  /** `ECANCELED` on Linux. */
  const ECANCELED: int := 125
  const SQ_SIZE: nat := 256

  /** Whether the single bit `b` (a power of two) is set in `x`. */
  function HasBit(x: nat, b: nat): bool
    requires b > 0
  {
    (x / b) % 2 == 1
  }

  // ---------------------------------------------------------------------------
  // Events
  // ---------------------------------------------------------------------------

  datatype FdInterest = FdInterest(readable: bool, writable: bool)

  /** An interest request. `key` carries the descriptor; the Linux poller
      ignores it. */
  datatype PollerEvent = PollerEvent(key: int, readable: bool, writable: bool)

  function EventNone(key: int): (e: PollerEvent)
    ensures e.key == key && !e.readable && !e.writable && !HasInterest(e)
  {
    PollerEvent(key, false, false)
  }

  function EventReadable(key: int): (e: PollerEvent)
    ensures e.key == key && e.readable && !e.writable && HasInterest(e)
  {
    PollerEvent(key, true, false)
  }

  function EventWritable(key: int): (e: PollerEvent)
    ensures e.key == key && !e.readable && e.writable && HasInterest(e)
  {
    PollerEvent(key, false, true)
  }

  function EventAll(key: int): (e: PollerEvent)
    ensures e.key == key && e.readable && e.writable && HasInterest(e)
  {
    PollerEvent(key, true, true)
  }

  function HasInterest(e: PollerEvent): bool {
    e.readable || e.writable
  }

  /** The constructors are the four points of the interest square, and only
      the empty one has no interest. */
  lemma EventConstructors(key: int, e: PollerEvent)
    requires e.key == key
    ensures !HasInterest(e) <==> e == EventNone(key)
    ensures HasInterest(e) <==> e in {EventReadable(key), EventWritable(key), EventAll(key)}
  {
  }

  /** What `poll_native` reports for one descriptor. */
  datatype PlatformEvent = PlatformEvent(fd: int, readable: bool, writable: bool, error: bool)

  // ---------------------------------------------------------------------------
  // Linux poller
  // ---------------------------------------------------------------------------

  datatype PendingPoll = PendingPoll(fd: int, readable: bool, writable: bool)

  datatype PollerError = SqFull

  datatype LoopPoller = LoopPoller(
    counter: nat,
    fdTokens: map<int, nat>,
    pending: map<nat, PendingPoll>,
    eventfd: int,
    eventfdToken: nat,
    queued: nat)

  /** Every token handed out is below the counter, and the counter starts at 1,
      so token 0 is never handed out. */
  ghost predicate TokensFresh(p: LoopPoller) {
    && p.counter >= 1
    && 0 < p.eventfdToken < p.counter
    && (forall t :: t in p.pending ==> 0 < t < p.counter)
    && (forall fd :: fd in p.fdTokens ==> 0 < p.fdTokens[fd] < p.counter)
  }

  /** `submit_poll_add`: queue a `PollAdd` and remember it as pending; a full
      submission queue fails before anything is recorded. */
  function SubmitPollAdd(p: LoopPoller, fd: int, readable: bool, writable: bool, token: nat): (r: (LoopPoller, Result<(), PollerError>))
    ensures p.queued < SQ_SIZE ==>
      r == (p.(queued := p.queued + 1, pending := p.pending[token := PendingPoll(fd, readable, writable)]), Ok(()))
    ensures p.queued >= SQ_SIZE ==> r == (p, Err(SqFull))
  {
    if p.queued < SQ_SIZE then
      (p.(queued := p.queued + 1, pending := p.pending[token := PendingPoll(fd, readable, writable)]), Ok(()))
    else (p, Err(SqFull))
  }

  /** `submit_poll_remove`: queue a `PollRemove` if there is room (a full
      queue is ignored) and forget the poll either way. */
  function SubmitPollRemove(p: LoopPoller, token: nat): (r: LoopPoller)
    ensures r.pending == p.pending - {token}
    ensures r == p.(pending := r.pending, queued := r.queued)
  {
    p.(pending := p.pending - {token}, queued := if p.queued < SQ_SIZE then p.queued + 1 else p.queued)
  }

  /** `LoopPoller::new`, given the eventfd it opened: the eventfd's poll takes
      the first token. */
  function NewPoller(eventfd: int): (p: LoopPoller)
    ensures p.eventfdToken == 1 && p.counter == 2 && p.fdTokens == map[]
    ensures p.pending == map[1 := PendingPoll(eventfd, true, false)]
    ensures TokensFresh(p)
  {
    SubmitPollAdd(LoopPoller(2, map[], map[], eventfd, 1, 0), eventfd, true, false, 1).0
  }

  /** `register` and `modify`, which do the same: cancel the descriptor's
      current poll, map it to a fresh token, and arm a poll under that token. */
  function Register(p: LoopPoller, fd: int, ev: PollerEvent): (r: (LoopPoller, Result<(), PollerError>))
  {
    var p1 := if fd in p.fdTokens then SubmitPollRemove(p, p.fdTokens[fd]) else p;
    var token := p1.counter;
    SubmitPollAdd(p1.(counter := token + 1, fdTokens := p1.fdTokens[fd := token]), fd, ev.readable, ev.writable, token)
  }

  function Modify(p: LoopPoller, fd: int, ev: PollerEvent): (LoopPoller, Result<(), PollerError>) {
    Register(p, fd, ev)
  }

  function RegisterOneshot(p: LoopPoller, fd: int, ev: PollerEvent): (LoopPoller, Result<(), PollerError>) {
    Register(p, fd, ev)
  }

  /** `rearm_oneshot`: arm under a fresh token without cancelling anything. */
  function RearmOneshot(p: LoopPoller, fd: int, ev: PollerEvent): (r: (LoopPoller, Result<(), PollerError>))
    ensures r.0.fdTokens == p.fdTokens[fd := p.counter] && r.0.counter == p.counter + 1
    ensures r.1.Ok? ==> r.0.pending == p.pending[p.counter := PendingPoll(fd, ev.readable, ev.writable)]
    ensures TokensFresh(p) ==> TokensFresh(r.0)
  {
    var token := p.counter;
    SubmitPollAdd(p.(counter := token + 1, fdTokens := p.fdTokens[fd := token]), fd, ev.readable, ev.writable, token)
  }

  /** `register`/`modify` drop the descriptor's old poll, map it to a token
      never used before, and, when the queue has room, record the new poll
      as pending with the requested interest. */
  lemma RegisterSpec(p: LoopPoller, fd: int, ev: PollerEvent)
    requires TokensFresh(p)
    ensures var r := Register(p, fd, ev);
      && TokensFresh(r.0)
      && r.0.counter == p.counter + 1
      && r.0.fdTokens == p.fdTokens[fd := p.counter]
      && (fd in p.fdTokens ==> p.fdTokens[fd] !in r.0.pending)
      && (forall t :: t in p.pending && !(fd in p.fdTokens && t == p.fdTokens[fd]) ==>
            t in r.0.pending && r.0.pending[t] == p.pending[t])
      && (r.1.Ok? ==> p.counter in r.0.pending && r.0.pending[p.counter] == PendingPoll(fd, ev.readable, ev.writable))
      && (r.1.Ok? <==> (if fd in p.fdTokens then SubmitPollRemove(p, p.fdTokens[fd]).queued else p.queued) < SQ_SIZE)
  {
  }

  /** `delete`: forget the descriptor and its poll; unknown descriptors are
      left alone. */
  function Delete(p: LoopPoller, fd: int): (r: LoopPoller)
    ensures fd !in r.fdTokens
    ensures fd !in p.fdTokens ==> r == p
    ensures fd in p.fdTokens ==>
      r.fdTokens == p.fdTokens - {fd} && r.pending == p.pending - {p.fdTokens[fd]}
    ensures TokensFresh(p) ==> TokensFresh(r)
  {
    if fd in p.fdTokens then SubmitPollRemove(p.(fdTokens := p.fdTokens - {fd}), p.fdTokens[fd]) else p
  }

  function IsRegistered(p: LoopPoller, fd: int): bool {
    fd in p.fdTokens
  }

  /** The interest the poller has armed for `fd`: the pending poll named by
      the descriptor's current token. */
  function Armed(p: LoopPoller, fd: int): Option<FdInterest> {
    if fd in p.fdTokens && p.fdTokens[fd] in p.pending && p.pending[p.fdTokens[fd]].fd == fd
    then Some(FdInterest(p.pending[p.fdTokens[fd]].readable, p.pending[p.fdTokens[fd]].writable))
    else None
  }

  /** Fresh tokens, and no token shared by two descriptors. */
  ghost predicate PollerSound(p: LoopPoller) {
    && TokensFresh(p)
    && forall a, b :: a in p.fdTokens && b in p.fdTokens && a != b ==> p.fdTokens[a] != p.fdTokens[b]
  }

  /** After `register`/`modify` the descriptor is armed with the requested
      interest (when the queue had room) and no other descriptor's armed
      interest changes. */
  lemma RegisterArms(p: LoopPoller, fd: int, ev: PollerEvent)
    requires PollerSound(p)
    ensures var r := Register(p, fd, ev);
      && PollerSound(r.0)
      && (r.1.Ok? ==> Armed(r.0, fd) == Some(FdInterest(ev.readable, ev.writable)))
      && (r.1.Err? ==> Armed(r.0, fd).None?)
      && forall x :: x != fd ==> Armed(r.0, x) == Armed(p, x)
  {
    RegisterSpec(p, fd, ev);
    RegisterKeepsOthers(p, fd, ev);
  }

  /** `register`/`modify` leave every other descriptor's armed interest alone. */
  lemma RegisterKeepsOthers(p: LoopPoller, fd: int, ev: PollerEvent)
    requires PollerSound(p)
    ensures forall x :: x != fd ==> Armed(Register(p, fd, ev).0, x) == Armed(p, x)
  {
    RegisterSpec(p, fd, ev);
  }

  /** The same for `rearm_oneshot`. */
  lemma RearmArms(p: LoopPoller, fd: int, ev: PollerEvent)
    requires PollerSound(p)
    ensures var r := RearmOneshot(p, fd, ev);
      && PollerSound(r.0)
      && (r.1.Ok? ==> Armed(r.0, fd) == Some(FdInterest(ev.readable, ev.writable)))
      && (r.1.Err? ==> Armed(r.0, fd).None?)
      && forall x :: x != fd ==> Armed(r.0, x) == Armed(p, x)
  {
  }

  /** After `delete` nothing is armed for the descriptor and every other
      descriptor keeps its armed interest. */
  lemma DeleteDisarms(p: LoopPoller, fd: int)
    requires PollerSound(p)
    ensures var r := Delete(p, fd);
      && PollerSound(r)
      && Armed(r, fd).None?
      && forall x :: x != fd ==> Armed(r, x) == Armed(p, x)
  {
  }

  /** A completion as the ring reports it. */
  datatype Completion = Completion(token: nat, result: int)

  /** The event a finished poll reports: readiness bits for a non-negative
      result, an error-only event for a failure other than cancellation. */
  function DecodePoll(fd: int, result: int): (e: Option<PlatformEvent>)
    ensures result >= 0 ==>
      && e.Some? && e.value.fd == fd
      && (e.value.readable <==> HasBit(result, POLLIN) || HasBit(result, POLLHUP))
      && (e.value.writable <==> HasBit(result, POLLOUT))
      && (e.value.error <==> HasBit(result, POLLERR))
    ensures result == -ECANCELED ==> e.None?
    ensures result < 0 && result != -ECANCELED ==> e == Some(PlatformEvent(fd, false, false, true))
  {
    if result >= 0 then
      Some(PlatformEvent(fd, HasBit(result, POLLIN) || HasBit(result, POLLHUP), HasBit(result, POLLOUT), HasBit(result, POLLERR)))
    else if result == -ECANCELED then None
    else Some(PlatformEvent(fd, false, false, true))
  }

  /** One completion of `poll_native`'s loop: the poller afterwards, the
      event it yields, and whether the eventfd must be re-armed. Token 0
      (timeouts and cancellations) is skipped; the eventfd's token asks for a
      re-arm, and `Corrected` also forgets the finished eventfd poll, which
      `AsWritten` leaves in the pending map. */
  function Complete(v: Variant, p: LoopPoller, c: Completion): (r: (LoopPoller, Option<PlatformEvent>, bool))
    ensures r.0.counter == p.counter && r.0.eventfdToken == p.eventfdToken && r.0.queued == p.queued
    ensures r.2 <==> c.token != 0 && c.token == p.eventfdToken
    ensures r.1.Some? ==> c.token != 0 && c.token != p.eventfdToken && c.token in p.pending
  {
    if c.token == 0 then (p, None, false)
    else if c.token == p.eventfdToken then
      (if v == Corrected then p.(pending := p.pending - {c.token}) else p, None, true)
    else if c.token !in p.pending then (p, None, false)
    else
      var pend := p.pending[c.token];
      var p1 := p.(pending := p.pending - {c.token});
      var e := DecodePoll(pend.fd, c.result);
      (if e.Some? then p1.(fdTokens := p1.fdTokens - {pend.fd}) else p1, e, false)
  }

  /** The completion loop over a batch, collecting events in order. */
  function CompleteAll(v: Variant, p: LoopPoller, cs: seq<Completion>): (r: (LoopPoller, seq<PlatformEvent>, bool))
    ensures r.0.counter == p.counter && r.0.eventfdToken == p.eventfdToken && r.0.queued == p.queued
    decreases |cs|
  {
    if |cs| == 0 then (p, [], false)
    else
      var step := Complete(v, p, cs[0]);
      var rest := CompleteAll(v, step.0, cs[1..]);
      (rest.0, (if step.1.Some? then [step.1.value] else []) + rest.1, step.2 || rest.2)
  }

  /** `poll_native`, given the completions the kernel delivers. A positive
      timeout queues a timeout entry; submitting empties the queue; after the
      batch the eventfd is re-armed under a fresh token if it fired. */
  function PollNativeWith(v: Variant, p: LoopPoller, timeoutNs: Option<nat>, cs: seq<Completion>): (r: (LoopPoller, seq<PlatformEvent>))
  {
    var p0 := if timeoutNs.Some? && timeoutNs.value > 0 && p.queued < SQ_SIZE then p.(queued := p.queued + 1) else p;
    var batch := CompleteAll(v, p0.(queued := 0), cs);
    if batch.2 then
      var token := batch.0.counter;
      (SubmitPollAdd(batch.0.(eventfdToken := token, counter := token + 1), batch.0.eventfd, true, false, token).0, batch.1)
    else (batch.0, batch.1)
  }

  function PollNative(p: LoopPoller, timeoutNs: Option<nat>, cs: seq<Completion>): (LoopPoller, seq<PlatformEvent>) {
    PollNativeWith(Corrected, p, timeoutNs, cs)
  }

  /** The tokens a batch carries. */
  function TokensOf(cs: seq<Completion>): set<nat> {
    set i | 0 <= i < |cs| :: cs[i].token
  }

  /** A batch reports at most one event per completion, asks for the
      eventfd's re-arm exactly when the eventfd's token is among the
      completions, and never adds a pending poll. */
  lemma {:induction false} CompleteAllEvents(v: Variant, p: LoopPoller, cs: seq<Completion>)
    ensures var r := CompleteAll(v, p, cs);
      && |r.1| <= |cs|
      && (r.2 <==> p.eventfdToken != 0 && p.eventfdToken in TokensOf(cs))
      && (forall t :: t in r.0.pending ==> t in p.pending)
    decreases |cs|
  {
    if |cs| > 0 {
      var p1 := Complete(v, p, cs[0]).0;
      CompleteAllEvents(v, p1, cs[1..]);
      assert TokensOf(cs) == {cs[0].token} + TokensOf(cs[1..]) by {
        forall t | t in TokensOf(cs) ensures t in {cs[0].token} + TokensOf(cs[1..]) {
          var i :| 0 <= i < |cs| && cs[i].token == t;
          if i > 0 { assert cs[1..][i - 1].token == t; }
        }
        forall t | t in TokensOf(cs[1..]) ensures t in TokensOf(cs) {
          var i :| 0 <= i < |cs[1..]| && cs[1..][i].token == t;
          assert cs[i + 1].token == t;
        }
      }
    }
  }

  /** With the correction, no poll whose completion has been consumed is
      still pending: a finished poll leaves the pending map with its
      completion, whether it was a descriptor's or the eventfd's. */
  lemma {:induction false} CorrectedForgetsCompleted(p: LoopPoller, cs: seq<Completion>)
    ensures var r := CompleteAll(Corrected, p, cs);
      forall t :: t in TokensOf(cs) && t != 0 ==> t !in r.0.pending
    decreases |cs|
  {
    if |cs| > 0 {
      var p1 := Complete(Corrected, p, cs[0]).0;
      CorrectedForgetsCompleted(p1, cs[1..]);
      CompleteAllEvents(Corrected, p1, cs[1..]);
      var r := CompleteAll(Corrected, p, cs);
      assert r.0 == CompleteAll(Corrected, p1, cs[1..]).0;
      forall t | t in TokensOf(cs) && t != 0
        ensures t !in r.0.pending
      {
        var i :| 0 <= i < |cs| && cs[i].token == t;
        if i > 0 {
          assert cs[1..][i - 1].token == t;
        } else {
          assert t !in p1.pending;
        }
      }
    }
  }

  /** As written, a wake-up of the loop leaves the eventfd's finished poll in
      the pending map for good: after one wake-up the old token 1 is still
      pending although the eventfd has been re-armed under token 2. */
  lemma EventfdPollLeaksAsWritten(eventfd: int)
    ensures var p := NewPoller(eventfd);
      var r := PollNativeWith(AsWritten, p, None, [Completion(1, POLLIN as int)]);
      && r.1 == []
      && r.0.eventfdToken == 2
      && 1 in r.0.pending && 2 in r.0.pending
  {
    var p := NewPoller(eventfd);
    var c := Completion(1, POLLIN as int);
    var q := p.(queued := 0);
    assert [c][0] == c && [c][1..] == [];
    assert Complete(AsWritten, q, c) == (q, None, true);
    assert CompleteAll(AsWritten, q, []) == (q, [], false);
    var all := CompleteAll(AsWritten, q, [c]);
    assert all.0 == q;
    assert all.1 == [];
    assert all.2;
  }

  /** Corrected, the same wake-up leaves only the new eventfd poll pending. */
  lemma EventfdPollForgottenCorrected(eventfd: int)
    ensures var p := NewPoller(eventfd);
      var r := PollNative(p, None, [Completion(1, POLLIN as int)]);
      r.1 == [] && r.0.eventfdToken == 2 && r.0.pending.Keys == {2}
  {
    var p := NewPoller(eventfd);
    var c := Completion(1, POLLIN as int);
    var q := p.(queued := 0);
    var q1 := q.(pending := map[]);
    assert [c][0] == c && [c][1..] == [];
    assert Complete(Corrected, q, c) == (q1, None, true);
    assert CompleteAll(Corrected, q1, []) == (q1, [], false);
    var all := CompleteAll(Corrected, q, [c]);
    assert all.0 == q1;
    assert all.1 == [];
    assert all.2;
  }

  /** A finished poll with a non-negative result unmaps its descriptor and
      reports its bits; a cancelled one reports nothing; any other failure
      reports an error-only event and unmaps the descriptor. */
  lemma CompleteDescriptor(v: Variant, p: LoopPoller, c: Completion)
    requires c.token != 0 && c.token != p.eventfdToken && c.token in p.pending
    ensures var r := Complete(v, p, c);
      var fd := p.pending[c.token].fd;
      && c.token !in r.0.pending
      && r.1 == DecodePoll(fd, c.result)
      && (c.result != -ECANCELED ==> fd !in r.0.fdTokens)
      && (c.result == -ECANCELED ==> r.0.fdTokens == p.fdTokens)
  {
  }

  // ---------------------------------------------------------------------------
  // Non-Linux stub
  // ---------------------------------------------------------------------------

  datatype StubPoller = StubPoller(interests: map<int, FdInterest>)

  /** `register`, `register_oneshot`, `modify` and `rearm_oneshot` of the
      stub all store the interest. */
  function StubRegister(p: StubPoller, fd: int, ev: PollerEvent): (r: StubPoller)
    ensures r.interests == p.interests[fd := FdInterest(ev.readable, ev.writable)]
  {
    StubPoller(p.interests[fd := FdInterest(ev.readable, ev.writable)])
  }

  function StubDelete(p: StubPoller, fd: int): (r: StubPoller)
    ensures r.interests == p.interests - {fd}
  {
    StubPoller(p.interests - {fd})
  }

  function StubIsRegistered(p: StubPoller, fd: int): bool {
    fd in p.interests
  }

  /** The stub never reports an event. */
  function StubPollNative(p: StubPoller, timeoutNs: Option<nat>): (r: (StubPoller, seq<PlatformEvent>))
    ensures r == (p, [])
  {
    (p, [])
  }

  /** Registration and deletion are what `is_registered` sees, and deleting
      undoes registering a new descriptor. */
  lemma StubRoundTrip(p: StubPoller, fd: int, other: int, ev: PollerEvent)
    requires other != fd
    ensures StubIsRegistered(StubRegister(p, fd, ev), fd)
    ensures !StubIsRegistered(StubDelete(p, fd), fd)
    ensures StubIsRegistered(StubRegister(p, fd, ev), other) == StubIsRegistered(p, other)
    ensures fd !in p.interests ==> StubDelete(StubRegister(p, fd, ev), fd) == p
  {
    if fd !in p.interests {
      assert StubDelete(StubRegister(p, fd, ev), fd).interests == p.interests;
    }
  }
}

=== FILE: stream_server.dfy ===
/** `src/transports/stream_server.rs`: the transport behind
    `start_server` connections, which shares its write buffer with the
    connection's `StreamWriter`, and the listening `StreamServer`. As for
    the TCP transport, `wire` holds the bytes the kernel has taken and the
    socket's answers are inputs; the loop's reader and writer for the
    descriptor are two flags. */
module StreamServer {
  import opened Wrappers
  import S = Streams
  import Tcp

  datatype StreamTransport = StreamTransport(
    stream: bool,          // the socket is still held
    closing: bool,
    writer: S.Writer,      // its buffer is the transport's write buffer
    wire: Bytes,
    readerArmed: bool,     // the loop will run the reader: handle stored and poller armed for it
    writerArmed: bool,     // the loop will run the writer: handle stored and poller armed for it
    woken: seq<nat>)       // drain futures woken so far

  /** A connection as `_on_accept` sets it up: the socket held, a writer with
      64 KiB / 16 KiB marks, the native reader armed. */
  function NewTransport(): (t: StreamTransport)
    ensures t.stream && !t.closing && t.writer.buffer == [] && t.readerArmed && !t.writerArmed
  {
    StreamTransport(true, false, S.NewWriter(Some(64 * 1024), Some(16 * 1024)), [], true, false, [])
  }

  function Buffer(t: StreamTransport): Bytes {
    t.writer.buffer
  }

  /** Bytes the kernel took, then bytes still buffered. */
  function Sent(t: StreamTransport): Bytes {
    t.wire + Buffer(t)
  }

  /** No buffered byte is forgotten: while the socket is held and bytes wait,
      the writer is armed to flush them. */
  ghost predicate NoStall(t: StreamTransport) {
    t.stream && |Buffer(t)| > 0 ==> t.writerArmed
  }

  /** A dropped socket only happens on the way to closing. */
  ghost predicate Sound(t: StreamTransport) {
    !t.stream ==> t.closing
  }

  // ---------------------------------------------------------------------------
  // Closing
  // ---------------------------------------------------------------------------

  /** `force_close`: drop the socket and both registry entries if the socket
      is still held; closing either way. */
  function ForceClose(t: StreamTransport): (r: StreamTransport)
    ensures r.closing && !r.stream && Buffer(r) == Buffer(t) && r.wire == t.wire
    ensures !t.stream ==> r == t.(closing := true)
    ensures t.stream ==> !r.readerArmed && !r.writerArmed
  {
    if t.stream then t.(stream := false, readerArmed := false, writerArmed := false, closing := true)
    else t.(closing := true)
  }

  /** `close`: once only, mark closing, mark the writer closing, remove the
      loop's reader, and force-close when nothing is buffered.
      `removeReader` is what the loop's `remove_reader` raises, if anything:
      the loop has already dropped the reader's handle, the error is raised
      before the buffer is looked at, and the socket stays held. */
  function Close(t: StreamTransport, removeReader: Option<PyError>): (r: (StreamTransport, Result<(), PyError>))
  {
    if t.closing then (t, Ok(()))
    else
      var t1 := t.(closing := true, writer := S.Close(t.writer), readerArmed := false);
      if removeReader.Some? then (t1, Err(removeReader.value))
      else if |Buffer(t1)| == 0 then (ForceClose(t1), Ok(()))
      else (t1, Ok(()))
  }

  /** `close` and `force_close` are idempotent and both leave the transport
      closing; a second `close` changes nothing and succeeds, also after a
      first call that raised. `close` keeps the buffer and, unless
      `remove_reader` raises, drops the socket exactly when the buffer was
      empty. When it raises, the socket is still held, and since every
      later `close` returns at once, `close` never drops it. */
  lemma CloseSpec(t: StreamTransport, removeReader: Option<PyError>, again: Option<PyError>)
    ensures ForceClose(ForceClose(t)) == ForceClose(t)
    ensures var r := Close(t, removeReader);
      && Close(r.0, again) == (r.0, Ok(()))
      && r.0.closing && Buffer(r.0) == Buffer(t) && Sound(r.0)
      && (t.closing ==> r == (t, Ok(())))
      && (!t.closing ==> S.IsClosing(r.0.writer) && !r.0.readerArmed)
      && (!t.closing ==> (r.1.Err? <==> removeReader.Some?))
      && (!t.closing && removeReader.None? && t.stream ==> (r.0.stream <==> |Buffer(t)| > 0))
      && (!t.closing && removeReader.Some? ==>
            r.1 == Err(removeReader.value) && r.0.stream == t.stream && r.0.writerArmed == t.writerArmed)
  {
  }

  // ---------------------------------------------------------------------------
  // Writing
  // ---------------------------------------------------------------------------

  /** `write`: refused once closing. With older bytes buffered the data only
      queues behind them. Otherwise it goes to the socket: a full write
      leaves nothing, a short one buffers the rest, a would-block buffers
      all of it. As written nothing then arms the writer; corrected, a
      non-empty buffer arms it. */
  function WriteWith(v: Variant, t: StreamTransport, data: Bytes, answer: Tcp.WriteAnswer): (r: Result<StreamTransport, PyError>)
    ensures t.closing ==> r == Err(RuntimeError("Transport is closing"))
    ensures r.Ok? ==> r.value.closing == t.closing && r.value.stream == t.stream
  {
    if t.closing then Err(RuntimeError("Transport is closing"))
    else if |Buffer(t)| > 0 then Ok(t.(writer := t.writer.(buffer := Buffer(t) + data)))
    else if !t.stream then Ok(t)
    else
      var u :- match answer
        case Wrote(n) =>
          var k := Tcp.Taken(n, |data|);
          Ok(t.(wire := t.wire + data[..k], writer := t.writer.(buffer := data[k..])))
        case WouldBlock => Ok(t.(writer := t.writer.(buffer := data)))
        case WriteFailed(e) => Err(OSError(e));
      Ok(if v.Corrected? && |Buffer(u)| > 0 then u.(writerArmed := true) else u)
  }

  function Write(t: StreamTransport, data: Bytes, answer: Tcp.WriteAnswer): (r: Result<StreamTransport, PyError>) {
    WriteWith(Corrected, t, data, answer)
  }

  /** A write keeps byte order: what the kernel took followed by what is
      buffered grows by exactly the data; with bytes already buffered
      nothing reaches the socket. Corrected, no buffered byte is left
      without an armed writer. */
  lemma WriteSpec(t: StreamTransport, data: Bytes, answer: Tcp.WriteAnswer)
    requires Sound(t) && !t.closing
    ensures var r := Write(t, data, answer);
      && (r.Ok? ==> Sent(r.value) == Sent(t) + data)
      && (|Buffer(t)| > 0 ==> r.Ok? && r.value.wire == t.wire)
      && (r.Err? <==> |Buffer(t)| == 0 && answer.WriteFailed?)
      && (|Buffer(t)| == 0 && answer.Wrote? && answer.n >= |data| ==> r.Ok? && Buffer(r.value) == [])
      && (NoStall(t) && r.Ok? ==> NoStall(r.value))
  {
    if |Buffer(t)| == 0 && answer.Wrote? {
      var k := Tcp.Taken(answer.n, |data|);
      assert data[..k] + data[k..] == data;
    }
  }

  /** As written: two bytes into an idle connection, the kernel takes one;
      the other is buffered with no writer armed to flush it. */
  lemma WriteStallsAsWritten()
    ensures var r := WriteWith(AsWritten, NewTransport(), [1, 2], Tcp.Wrote(1));
      r.Ok? && Buffer(r.value) == [2] && !r.value.writerArmed && !NoStall(r.value)
  {
    var r := WriteWith(AsWritten, NewTransport(), [1, 2], Tcp.Wrote(1));
    assert Buffer(r.value) == [1, 2][1..] == [2];
  }

  /** The end of `_write_ready` once the buffer is empty: disarm the
      writer, wake every drain waiter, and force-close a closing
      transport. */
  function FinishFlush(t: StreamTransport): (r: StreamTransport)
    requires |Buffer(t)| == 0
    ensures Sent(r) == Sent(t) && |Buffer(r)| == 0
    ensures !r.writerArmed && r.woken == t.woken + t.writer.drainWaiters && r.writer.drainWaiters == []
    ensures t.closing ==> !r.stream
  {
    var (w, woken) := S.WakeupDrainWaiters(t.writer);
    var u := t.(writerArmed := false, writer := w, woken := t.woken + woken);
    if u.closing then ForceClose(u) else u
  }

  /** `_write_ready`: flush while the socket takes bytes. A zero-byte write
      raises; once the buffer is empty the writer is disarmed, the drain
      waiters are woken, and a closing transport is force-closed. Answers
      that run out read as would-block. */
  method WriteReady(t: StreamTransport, answers: seq<Tcp.WriteAnswer>) returns (r: StreamTransport, res: Result<(), PyError>)
    ensures Sent(r) == Sent(t)
    ensures !t.stream || |Buffer(t)| == 0 ==> r == t && res.Ok?
    ensures res.Err? && res.error.ConnectionError? ==> res.error.msg == "Connection closed during write"
    ensures res.Err? ==> |Buffer(r)| > 0 && r.closing == t.closing && r.stream
    ensures t.stream && |Buffer(t)| > 0 && |Buffer(r)| == 0 ==>
      && res.Ok? && !r.writerArmed && r.woken == t.woken + t.writer.drainWaiters && r.writer.drainWaiters == []
      && (t.closing ==> !r.stream)
    ensures |Buffer(r)| > 0 ==> r.stream == t.stream && r.writerArmed == t.writerArmed && r.closing == t.closing
  {
    r := t;
    res := Ok(());
    if !t.stream || |Buffer(t)| == 0 {
      return;
    }
    var i := 0;
    while i < |answers|
      invariant 0 <= i <= |answers|
      invariant Sent(r) == Sent(t) && |Buffer(r)| > 0
      invariant r == t.(wire := r.wire, writer := t.writer.(buffer := Buffer(r)))
      decreases |answers| - i
    {
      match answers[i]
      case Wrote(n) =>
        if n == 0 {
          return r, Err(ConnectionError("Connection closed during write"));
        }
        r := Flush(r, Tcp.Taken(n, |Buffer(r)|));
        if |Buffer(r)| == 0 {
          r := FinishFlush(r);
          return;
        }
        i := i + 1;
      case WouldBlock =>
        return;
      case WriteFailed(e) =>
        return r, Err(OSError(e));
    }
  }

  /** Move the first `k` buffered bytes onto the wire. */
  function Flush(t: StreamTransport, k: nat): (r: StreamTransport)
    requires k <= |Buffer(t)|
    ensures Sent(r) == Sent(t) && Buffer(r) == Buffer(t)[k..]
    ensures r == t.(wire := r.wire, writer := t.writer.(buffer := Buffer(r)))
  {
    assert Buffer(t)[..k] + Buffer(t)[k..] == Buffer(t);
    t.(wire := t.wire + Buffer(t)[..k], writer := t.writer.(buffer := Buffer(t)[k..]))
  }

  /** `_trigger_write`: with bytes buffered and the socket held, one write
      attempt (failures are swallowed), then arm the writer if bytes
      remain. */
  function TriggerWrite(t: StreamTransport, answer: Tcp.WriteAnswer): (r: StreamTransport)
    ensures Sent(r) == Sent(t) && r.closing == t.closing && r.stream == t.stream
    ensures NoStall(t) || |Buffer(r)| > 0 ==> NoStall(r)
  {
    if |Buffer(t)| == 0 || !t.stream then t
    else
      var u := Flush(t, if answer.Wrote? then Tcp.Taken(answer.n, |Buffer(t)|) else 0);
      if |Buffer(u)| > 0 then u.(writerArmed := true) else u
  }

  // ---------------------------------------------------------------------------
  // StreamServer
  // ---------------------------------------------------------------------------

  /** The listening side: whether it still holds its listener, whether it
      serves, and whether the loop has the listener's reader. */
  datatype Server = Server(listener: bool, active: bool, listenerArmed: bool)

  function NewServer(): (s: Server)
    ensures IsServing(s) && s.listener
  {
    Server(true, true, true)
  }

  function IsServing(s: Server): bool {
    s.active
  }

  /** `close`: remove the listener's reader if there is a listener, stop
      serving, drop the listener. `removeReader` is what the loop's
      `remove_reader` raises, if anything: the reader's handle is already
      gone, and the error is raised before the server stops serving, so it
      keeps serving with its listener. */
  function CloseServer(s: Server, removeReader: Option<PyError>): (r: (Server, Result<(), PyError>))
    ensures s.listener && removeReader.Some? ==>
      r == (s.(listenerArmed := false), Err(removeReader.value)) && IsServing(r.0) == IsServing(s) && r.0.listener
    ensures !(s.listener && removeReader.Some?) ==> r.1.Ok? && !IsServing(r.0) && !r.0.listener
    ensures s.listener ==> !r.0.listenerArmed
    ensures !s.listener ==> r.0.listenerArmed == s.listenerArmed
  {
    if s.listener && removeReader.Some? then (s.(listenerArmed := false), Err(removeReader.value))
    else (Server(false, false, if s.listener then false else s.listenerArmed), Ok(()))
  }

  /** A server serves from creation until it is closed; closing twice is
      closing once; and a `close` that raised leaves a server that a later
      successful `close` closes as if the first had succeeded. */
  lemma ServerLifecycle(s: Server, a: Option<PyError>, b: Option<PyError>)
    ensures IsServing(NewServer()) && !IsServing(CloseServer(NewServer(), None).0)
    ensures var c := CloseServer(s, None).0; CloseServer(c, b) == (c, Ok(()))
    ensures CloseServer(CloseServer(s, a).0, None).0 == CloseServer(s, None).0
    ensures !CloseServer(NewServer(), a).0.listenerArmed
  {
  }
}

=== FILE: streams.dfy ===
/** `src/streams.rs`: the byte buffers behind asyncio's `StreamReader` and
    `StreamWriter`. A reader accumulates received bytes and hands prefixes of
    them to `read*` calls, parking a call as a waiter when the bytes it wants
    have not arrived; a writer accumulates bytes for its transport to send. */
module Streams {
  import opened Wrappers

  const DEFAULT_LIMIT: nat := 64 * 1024
  const DEFAULT_HIGH: nat := 64 * 1024
  const DEFAULT_LOW: nat := 16 * 1024
  const NEWLINE: bv8 := 10

  // ---------------------------------------------------------------------------
  // Separator search
  // ---------------------------------------------------------------------------

  predicate OccursAt(buf: Bytes, sep: Bytes, i: int) {
    0 <= i && i + |sep| <= |buf| && buf[i..i + |sep|] == sep
  }

  /** The first position at or after `from` where `sep` occurs: what both the
      `memchr` path (one-byte separators) and the `windows` path compute. */
  function FindSep(buf: Bytes, sep: Bytes, from: nat): (r: Option<nat>)
    requires |sep| > 0
    ensures r.Some? ==> from <= r.value && OccursAt(buf, sep, r.value)
    ensures r.Some? ==> forall i :: from <= i < r.value ==> !OccursAt(buf, sep, i)
    ensures r.None? ==> forall i :: from <= i ==> !OccursAt(buf, sep, i)
    decreases |buf| - from
  {
    if from + |sep| > |buf| then None
    else if buf[from..from + |sep|] == sep then Some(from)
    else FindSep(buf, sep, from + 1)
  }

  /** An occurrence in a suffix is an occurrence in the whole buffer. */
  lemma OccursShift(p: Bytes, s: Bytes, sep: Bytes, i: int)
    requires OccursAt(s, sep, i)
    ensures OccursAt(p + s, sep, |p| + i)
  {
    assert (p + s)[|p| + i..|p| + i + |sep|] == s[i..i + |sep|];
  }

  /** A separator absent from a buffer is absent from every suffix of it. */
  lemma AbsentFromSuffix(p: Bytes, s: Bytes, sep: Bytes)
    requires forall i :: !OccursAt(p + s, sep, i)
    ensures forall i :: !OccursAt(s, sep, i)
  {
    forall i
      ensures OccursAt(s, sep, i) ==> OccursAt(p + s, sep, |p| + i)
    {
      if OccursAt(s, sep, i) {
        OccursShift(p, s, sep, i);
      }
    }
  }

  // ---------------------------------------------------------------------------
  // StreamReader
  // ---------------------------------------------------------------------------

  datatype WaiterKind = ReadLine | ReadUntil(sep: Bytes) | ReadExactly(n: nat)

  /** A parked read: what it waits for and the future it resolves. */
  datatype Waiter = Waiter(kind: WaiterKind, future: nat)

  datatype Reader = Reader(buffer: Bytes, limit: nat, eof: bool, exception: Option<string>, waiters: seq<Waiter>)

  /** What a `_try_*` helper answers: the bytes, "not yet", or an exception. */
  datatype Try = Ready(data: Bytes) | NotReady | Failed(err: PyError)

  /** How `_wakeup_waiters` settled a waiter's future. */
  datatype Settled = Resolved(future: nat, data: Bytes) | Rejected(future: nat, err: PyError)

  /** What a `read*` call returns: bytes now, a pending future, or an exception. */
  datatype Reply = Data(bytes: Bytes) | Future(id: nat) | Raised(err: PyError)

  /** `readuntil` refuses an empty separator, so no waiter holds one. */
  ghost predicate WaitersOk(r: Reader) {
    forall j :: 0 <= j < |r.waiters| && r.waiters[j].kind.ReadUntil? ==> |r.waiters[j].kind.sep| > 0
  }

  function NewReader(limit: Option<nat>): (r: Reader)
    ensures r.buffer == [] && !r.eof && r.exception.None? && r.waiters == []
    ensures limit.None? ==> r.limit == DEFAULT_LIMIT
  {
    Reader([], match limit case Some(l) => l case None => DEFAULT_LIMIT, false, None, [])
  }

  /** `_try_readuntil`. A stored exception fails the attempt without being
      consumed. Otherwise the bytes up to and including the first separator
      are taken; without a separator, EOF hands over whatever is left. */
  function TryReadUntil(r: Reader, sep: Bytes): (res: (Reader, Try))
    requires |sep| > 0
    ensures res.0 == r.(buffer := res.0.buffer)
    ensures res.1.Failed? <==> r.exception.Some?
    ensures res.1.Failed? ==> res == (r, Failed(RuntimeError(r.exception.value)))
    ensures res.1.Ready? ==> res.1.data + res.0.buffer == r.buffer
    ensures res.1.Ready? ==>
      || (&& |res.1.data| >= |sep|
          && OccursAt(r.buffer, sep, |res.1.data| - |sep|)
          && forall i :: i < |res.1.data| - |sep| ==> !OccursAt(r.buffer, sep, i))
      || (&& r.eof && res.1.data == r.buffer && res.0.buffer == []
          && forall i :: !OccursAt(r.buffer, sep, i))
    ensures res.1.NotReady? ==>
      res.0 == r && !r.eof && forall i :: !OccursAt(r.buffer, sep, i)
  {
    if r.exception.Some? then (r, Failed(RuntimeError(r.exception.value)))
    else match FindSep(r.buffer, sep, 0)
      case Some(p) =>
        assert r.buffer[..p + |sep|] + r.buffer[p + |sep|..] == r.buffer;
        (r.(buffer := r.buffer[p + |sep|..]), Ready(r.buffer[..p + |sep|]))
      case None =>
        if r.eof then (r.(buffer := []), Ready(r.buffer)) else (r, NotReady)
  }

  /** Without an exception, a read until the separator hands over the buffer
      whole exactly when the separator is absent and EOF was seen. */
  lemma TryReadUntilAtEof(r: Reader, sep: Bytes)
    requires |sep| > 0 && r.exception.None?
    requires forall i :: !OccursAt(r.buffer, sep, i)
    ensures r.eof ==> TryReadUntil(r, sep) == (r.(buffer := []), Ready(r.buffer))
    ensures !r.eof ==> TryReadUntil(r, sep) == (r, NotReady)
  {
  }

  /** The message of the ValueError an exact read raises at EOF. */
  function NotEnoughData(expected: nat, got: nat): string {
    "Not enough data: expected " + DecimalString(expected) + ", got " + DecimalString(got)
  }

  /** `_try_readexactly`: the first `n` bytes once there are that many; at EOF
      with fewer, a ValueError naming both counts that leaves the buffer alone. */
  function TryReadExactly(r: Reader, n: nat): (res: (Reader, Try))
    ensures res.0 == r.(buffer := res.0.buffer)
    ensures res.1.Failed? ==> res.0 == r
    ensures r.exception.Some? ==> res.1 == Failed(RuntimeError(r.exception.value))
    ensures r.exception.None? && |r.buffer| >= n ==>
      res.1 == Ready(r.buffer[..n]) && res.0.buffer == r.buffer[n..]
    ensures r.exception.None? && |r.buffer| < n ==>
      (if r.eof then res.1 == Failed(ValueError(NotEnoughData(n, |r.buffer|))) else res.1.NotReady?)
  {
    if r.exception.Some? then (r, Failed(RuntimeError(r.exception.value)))
    else if |r.buffer| >= n then (r.(buffer := r.buffer[n..]), Ready(r.buffer[..n]))
    else if r.eof then (r, Failed(ValueError(NotEnoughData(n, |r.buffer|))))
    else (r, NotReady)
  }

  /** A successful exact read followed by the rest of the buffer is the old buffer. */
  lemma TryReadExactlySplits(r: Reader, n: nat)
    requires TryReadExactly(r, n).1.Ready?
    ensures var res := TryReadExactly(r, n);
      |res.1.data| == n && res.1.data + res.0.buffer == r.buffer
  {
    var res := TryReadExactly(r, n);
    assert r.buffer[..n] + r.buffer[n..] == r.buffer;
  }

  /** The attempt `_wakeup_waiters` makes for one waiter. */
  function TryWaiter(r: Reader, k: WaiterKind): (res: (Reader, Try))
    requires k.ReadUntil? ==> |k.sep| > 0
    ensures res.0 == r.(buffer := res.0.buffer)
  {
    match k
    case ReadLine => TryReadUntil(r, [NEWLINE])
    case ReadUntil(sep) => TryReadUntil(r, sep)
    case ReadExactly(n) => TryReadExactly(r, n)
  }

  function TakeFrom<T>(s: seq<T>, i: nat): (r: seq<T>)
    requires i < |s|
    ensures |r| == |s| - 1
    ensures forall j :: 0 <= j < i ==> r[j] == s[j]
    ensures forall j :: i <= j < |r| ==> r[j] == s[j + 1]
    ensures forall x :: x in r ==> x in s
  {
    s[..i] + s[i + 1..]
  }

  /** The bytes a list of settlements delivered, in order. */
  function Delivered(ss: seq<Settled>): Bytes {
    if |ss| == 0 then []
    else (if ss[0].Resolved? then ss[0].data else []) + Delivered(ss[1..])
  }

  /** The settlement of a waiter whose attempt did not block. */
  function Settle(future: nat, t: Try): (s: Settled)
    requires !t.NotReady?
    ensures s.future == future
    ensures s.Resolved? <==> t.Ready?
  {
    match t
    case Ready(d) => Resolved(future, d)
    case Failed(e) => Rejected(future, e)
  }

  /** The reader left after settling and removing waiter `i`. */
  function Removed(r: Reader, i: nat): (r1: Reader)
    requires WaitersOk(r) && i < |r.waiters|
  {
    TryWaiter(r, r.waiters[i].kind).0.(waiters := TakeFrom(r.waiters, i))
  }

  /** `_wakeup_waiters` from index `i`: a waiter whose attempt succeeds or
      fails is settled and removed, a blocked one is skipped. */
  function WakeFrom(r: Reader, i: nat): (res: (Reader, seq<Settled>))
    requires WaitersOk(r) && i <= |r.waiters|
    ensures res.0.eof == r.eof && res.0.exception == r.exception && res.0.limit == r.limit
    decreases |r.waiters| - i
  {
    if i == |r.waiters| then (r, [])
    else
      var w := r.waiters[i];
      var t := TryWaiter(r, w.kind);
      if t.1.NotReady? then WakeFrom(r, i + 1)
      else
        assert WaitersOk(Removed(r, i));
        var rest := WakeFrom(Removed(r, i), i);
        (rest.0, [Settle(w.future, t.1)] + rest.1)
  }

  function WakeUp(r: Reader): (Reader, seq<Settled>)
    requires WaitersOk(r)
  {
    WakeFrom(r, 0)
  }

  ghost predicate Stuck(r: Reader, w: Waiter) {
    (w.kind.ReadUntil? ==> |w.kind.sep| > 0) && TryWaiter(r, w.kind).1.NotReady?
  }

  /** Consuming a prefix of the buffer never makes a blocked waiter ready. */
  lemma StuckAfterConsume(r: Reader, r': Reader, p: Bytes, w: Waiter)
    requires Stuck(r, w)
    requires r.buffer == p + r'.buffer && r'.eof == r.eof && r'.exception == r.exception
    ensures Stuck(r', w)
  {
    match w.kind
    case ReadLine =>
      AbsentFromSuffix(p, r'.buffer, [NEWLINE]);
      TryReadUntilAtEof(r', [NEWLINE]);
    case ReadUntil(sep) =>
      AbsentFromSuffix(p, r'.buffer, sep);
      TryReadUntilAtEof(r', sep);
    case ReadExactly(n) =>
  }

  function SettledData(s: Settled): Bytes {
    if s.Resolved? then s.data else []
  }

  lemma DeliveredCons(s: Settled, ss: seq<Settled>)
    ensures Delivered([s] + ss) == SettledData(s) + Delivered(ss)
  {
    assert ([s] + ss)[1..] == ss;
  }

  /** Settling one waiter hands over a prefix of the buffer and keeps the
      other waiters in order. */
  lemma RemovedSpec(r: Reader, i: nat)
    requires WaitersOk(r) && i < |r.waiters|
    requires !TryWaiter(r, r.waiters[i].kind).1.NotReady?
    ensures var r1 := Removed(r, i);
      && WaitersOk(r1) && |r1.waiters| == |r.waiters| - 1
      && r1.eof == r.eof && r1.exception == r.exception
      && SettledData(Settle(r.waiters[i].future, TryWaiter(r, r.waiters[i].kind).1)) + r1.buffer == r.buffer
      && (forall x :: x in r1.waiters ==> x in r.waiters)
  {
    var w := r.waiters[i];
    var t := TryWaiter(r, w.kind);
    match w.kind
    case ReadExactly(n) =>
      if t.1.Ready? { TryReadExactlySplits(r, n); }
    case ReadLine =>
    case ReadUntil(sep) =>
  }

  /** Settling one waiter leaves blocked the blocked ones before it. */
  lemma RemovedKeepsStuck(r: Reader, i: nat)
    requires WaitersOk(r) && i < |r.waiters|
    requires forall j :: 0 <= j < i ==> Stuck(r, r.waiters[j])
    requires !TryWaiter(r, r.waiters[i].kind).1.NotReady?
    ensures var r1 := Removed(r, i);
      forall j :: 0 <= j < i ==> Stuck(r1, r1.waiters[j])
  {
    RemovedSpec(r, i);
    var r1 := Removed(r, i);
    var d := SettledData(Settle(r.waiters[i].future, TryWaiter(r, r.waiters[i].kind).1));
    forall j | 0 <= j < i
      ensures Stuck(r1, r1.waiters[j])
    {
      StuckAfterConsume(r, r1, d, r.waiters[j]);
    }
  }

  /** `_wakeup_waiters` delivers bytes in waiter order without losing or
      duplicating any, and settles each waiter it removes exactly once. */
  lemma WakeFromConserves(r: Reader, i: nat)
    requires WaitersOk(r) && i <= |r.waiters|
    ensures var res := WakeFrom(r, i);
      && Delivered(res.1) + res.0.buffer == r.buffer
      && WaitersOk(res.0)
      && |res.1| + |res.0.waiters| == |r.waiters|
      && (forall x :: x in res.0.waiters ==> x in r.waiters)
  {
    WakeFromDelivers(r, i);
    WakeFromKeepsWaiters(r, i);
  }

  /** The bytes handed to settled waiters, then the buffer left, are the
      buffer before. */
  lemma {:induction false} WakeFromDelivers(r: Reader, i: nat)
    requires WaitersOk(r) && i <= |r.waiters|
    ensures Delivered(WakeFrom(r, i).1) + WakeFrom(r, i).0.buffer == r.buffer
    decreases |r.waiters| - i
  {
    if i < |r.waiters| {
      var w := r.waiters[i];
      var t := TryWaiter(r, w.kind);
      if t.1.NotReady? {
        WakeFromDelivers(r, i + 1);
        assert WakeFrom(r, i) == WakeFrom(r, i + 1);
      } else {
        WakeFromStep(r, i);
        RemovedSpec(r, i);
        var r1 := Removed(r, i);
        WakeFromDelivers(r1, i);
        DeliveredCons(Settle(w.future, t.1), WakeFrom(r1, i).1);
      }
    }
  }

  /** Every waiter is either settled or still waiting, and no waiter is
      invented. */
  lemma {:induction false} WakeFromKeepsWaiters(r: Reader, i: nat)
    requires WaitersOk(r) && i <= |r.waiters|
    ensures var res := WakeFrom(r, i);
      && WaitersOk(res.0)
      && |res.1| + |res.0.waiters| == |r.waiters|
      && (forall x :: x in res.0.waiters ==> x in r.waiters)
    decreases |r.waiters| - i
  {
    if i < |r.waiters| {
      var w := r.waiters[i];
      var t := TryWaiter(r, w.kind);
      if t.1.NotReady? {
        WakeFromKeepsWaiters(r, i + 1);
        assert WakeFrom(r, i) == WakeFrom(r, i + 1);
      } else {
        WakeFromStep(r, i);
        RemovedSpec(r, i);
        WakeFromKeepsWaiters(Removed(r, i), i);
      }
    }
  }

  /** One settling step of `WakeFrom`, spelled out. */
  lemma WakeFromStep(r: Reader, i: nat)
    requires WaitersOk(r) && i < |r.waiters|
    requires !TryWaiter(r, r.waiters[i].kind).1.NotReady?
    ensures WaitersOk(Removed(r, i))
    ensures var rest := WakeFrom(Removed(r, i), i);
      WakeFrom(r, i) == (rest.0, [Settle(r.waiters[i].future, TryWaiter(r, r.waiters[i].kind).1)] + rest.1)
  {
    RemovedSpec(r, i);
  }

  /** Every waiter before index `i` cannot proceed on the buffer. */
  ghost predicate StuckBefore(r: Reader, i: nat) {
    forall j :: 0 <= j < i && j < |r.waiters| ==> Stuck(r, r.waiters[j])
  }

  /** `_wakeup_waiters` stops with only waiters that cannot proceed on what
      is left of the buffer. */
  lemma {:induction false} WakeFromStuck(r: Reader, i: nat)
    requires WaitersOk(r) && i <= |r.waiters|
    requires StuckBefore(r, i)
    ensures var res := WakeFrom(r, i);
      StuckBefore(res.0, |res.0.waiters|)
    decreases |r.waiters| - i
  {
    if i < |r.waiters| {
      var w := r.waiters[i];
      var t := TryWaiter(r, w.kind);
      if t.1.NotReady? {
        assert Stuck(r, w);
        WakeFromStuck(r, i + 1);
        assert WakeFrom(r, i) == WakeFrom(r, i + 1);
      } else {
        WakeFromStep(r, i);
        RemovedKeepsStuck(r, i);
        WakeFromStuck(Removed(r, i), i);
      }
    } else {
      assert WakeFrom(r, i) == (r, []);
    }
  }

  /** The whole of `_wakeup_waiters`. */
  lemma WakeUpSpec(r: Reader)
    requires WaitersOk(r)
    ensures var res := WakeUp(r);
      && Delivered(res.1) + res.0.buffer == r.buffer
      && WaitersOk(res.0)
      && |res.1| + |res.0.waiters| == |r.waiters|
      && (forall x :: x in res.0.waiters ==> x in r.waiters)
      && (forall j :: 0 <= j < |res.0.waiters| ==> Stuck(res.0, res.0.waiters[j]))
  {
    WakeFromConserves(r, 0);
    WakeFromStuck(r, 0);
    assert StuckBefore(WakeUp(r).0, |WakeUp(r).0.waiters|);
  }

  /** With an exception stored, every waiter from `i` on is rejected and
      removed, and the buffer is left alone. */
  lemma {:induction false} WakeFromWithException(r: Reader, i: nat)
    requires WaitersOk(r) && i <= |r.waiters| && r.exception.Some?
    ensures var res := WakeFrom(r, i);
      res.0.waiters == r.waiters[..i] && res.0.buffer == r.buffer && Delivered(res.1) == []
    decreases |r.waiters| - i
  {
    if i < |r.waiters| {
      var w := r.waiters[i];
      var t := TryWaiter(r, w.kind);
      var r1 := Removed(r, i);
      assert t.1.Failed? && t.0 == r;
      WakeFromWithException(r1, i);
      var rest := WakeFrom(r1, i);
      DeliveredCons(Settle(w.future, t.1), rest.1);
      assert r1.waiters[..i] == r.waiters[..i];
    }
  }

  lemma WakeUpWithException(r: Reader)
    requires WaitersOk(r) && r.exception.Some?
    ensures WakeUp(r).0.waiters == [] && WakeUp(r).0.buffer == r.buffer
    ensures Delivered(WakeUp(r).1) == []
  {
    WakeFromWithException(r, 0);
  }

  /** `feed_data`: empty data changes nothing; otherwise the data is appended
      and the waiters are woken. */
  function FeedData(r: Reader, data: Bytes): (res: (Reader, seq<Settled>))
    requires WaitersOk(r)
  {
    if |data| == 0 then (r, []) else WakeUp(r.(buffer := r.buffer + data))
  }

  /** The bytes handed to waiters by `feed_data`, followed by what stays in
      the buffer, are the old buffer followed by the new data. */
  lemma FeedDataSpec(r: Reader, data: Bytes)
    requires WaitersOk(r)
    ensures |data| == 0 ==> FeedData(r, data) == (r, [])
    ensures var res := FeedData(r, data);
      && Delivered(res.1) + res.0.buffer == r.buffer + data
      && WaitersOk(res.0)
      && res.0.eof == r.eof && res.0.exception == r.exception
  {
    if |data| > 0 {
      WakeUpSpec(r.(buffer := r.buffer + data));
    } else {
      assert r.buffer + data == r.buffer;
    }
  }

  /** `feed_eof`. */
  function FeedEof(r: Reader): (res: (Reader, seq<Settled>))
    requires WaitersOk(r)
    ensures res.0.eof
  {
    WakeUp(r.(eof := true))
  }

  /** After `feed_eof` no line or separator read is left waiting: each one
      either got its bytes or was settled. */
  lemma FeedEofSettlesReads(r: Reader)
    requires WaitersOk(r)
    ensures var res := FeedEof(r);
      && Delivered(res.1) + res.0.buffer == r.buffer
      && forall j :: 0 <= j < |res.0.waiters| ==> res.0.waiters[j].kind.ReadExactly?
  {
    WakeUpSpec(r.(eof := true));
  }

  function SetException(r: Reader, msg: string): (res: Reader)
    ensures res.exception == Some(msg) && res.buffer == r.buffer
  {
    r.(exception := Some(msg))
  }

  function AtEof(r: Reader): (b: bool)
    ensures b <==> r.eof && |r.buffer| == 0
  {
    r.eof && r.buffer == []
  }

  /** `read(n)`: a stored exception is raised and consumed; a negative `n`
      drains everything; otherwise up to `n` bytes are taken from the front. */
  function Read(r: Reader, n: int): (res: (Reader, Result<Bytes, PyError>))
    ensures r.exception.Some? ==>
      res == (r.(exception := None), Err(RuntimeError(r.exception.value)))
    ensures r.exception.None? ==> res.1.Ok? && res.0 == r.(buffer := res.0.buffer)
    ensures res.1.Ok? ==> res.1.value + res.0.buffer == r.buffer
    ensures res.1.Ok? && n < 0 ==> res.0.buffer == []
    ensures res.1.Ok? && n >= 0 ==> |res.1.value| == if n < |r.buffer| then n else |r.buffer|
  {
    if r.exception.Some? then (r.(exception := None), Err(RuntimeError(r.exception.value)))
    else if n < 0 then
      assert r.buffer + [] == r.buffer;
      (r.(buffer := []), Ok(r.buffer))
    else
      var k := if n < |r.buffer| then n else |r.buffer|;
      assert r.buffer[..k] + r.buffer[k..] == r.buffer;
      (r.(buffer := r.buffer[k..]), Ok(r.buffer[..k]))
  }

  /** The `_try_*` helpers only look at a stored exception; `read` consumes it. */
  lemma ExceptionObservedThenConsumed(r: Reader, sep: Bytes, n: nat, m: int)
    requires |sep| > 0 && r.exception.Some?
    ensures TryReadUntil(r, sep).0.exception == r.exception
    ensures TryReadExactly(r, n).0.exception == r.exception
    ensures Read(r, m).1.Err? && Read(r, m).0.exception.None?
    ensures Read(Read(r, m).0, m).1.Ok?
  {
  }

  /** Park a read on a fresh future. */
  function Park(r: Reader, k: WaiterKind, future: nat): (res: (Reader, Reply))
    ensures res.0.waiters == r.waiters + [Waiter(k, future)] && res.1 == Future(future)
  {
    (r.(waiters := r.waiters + [Waiter(k, future)]), Future(future))
  }

  /** Turn an attempt into the reply of a `read*` call, parking it if not ready. */
  function Answer(r: Reader, t: (Reader, Try), k: WaiterKind, future: nat): (Reader, Reply) {
    match t.1
    case Ready(d) => (t.0, Data(d))
    case Failed(e) => (t.0, Raised(e))
    case NotReady => Park(r, k, future)
  }

  /** `readexactly(n)`; `future` stands for the `PendingFuture` it would create. */
  function ReadExactlyCall(r: Reader, n: nat, future: nat): (res: (Reader, Reply))
    requires WaitersOk(r)
    ensures WaitersOk(res.0)
    ensures res.1.Future? <==> r.exception.None? && |r.buffer| < n && !r.eof
  {
    Answer(r, TryReadExactly(r, n), ReadExactly(n), future)
  }

  /** `readuntil(sep)`: an empty separator is refused before anything else. */
  function ReadUntilCall(r: Reader, sep: Bytes, future: nat): (res: (Reader, Reply))
    requires WaitersOk(r)
    ensures WaitersOk(res.0)
    ensures |sep| == 0 ==> res == (r, Raised(ValueError("Separator cannot be empty")))
    ensures |sep| > 0 && res.1.Future? ==>
      res.0.waiters == r.waiters + [Waiter(ReadUntil(sep), future)] && res.0.buffer == r.buffer
  {
    if |sep| == 0 then (r, Raised(ValueError("Separator cannot be empty")))
    else Answer(r, TryReadUntil(r, sep), ReadUntil(sep), future)
  }

  /** `readline()`: `readuntil(b"\n")` under its own waiter kind. */
  function ReadLineCall(r: Reader, future: nat): (res: (Reader, Reply))
    requires WaitersOk(r)
    ensures WaitersOk(res.0)
    ensures res.1.Data? ==> res.1.bytes + res.0.buffer == r.buffer
  {
    Answer(r, TryReadUntil(r, [NEWLINE]), ReadLine, future)
  }

  // ---------------------------------------------------------------------------
  // StreamWriter
  // ---------------------------------------------------------------------------

  datatype Writer = Writer(buffer: Bytes, closed: bool, closing: bool, high: nat, low: nat, drainWaiters: seq<nat>)

  /** What `drain` returns: an already completed future or a pending one. */
  datatype DrainReply = Completed | Pending(future: nat)

  function NewWriter(high: Option<nat>, low: Option<nat>): (w: Writer)
    ensures w.buffer == [] && !w.closed && !w.closing && w.drainWaiters == []
    ensures high.None? ==> w.high == DEFAULT_HIGH
    ensures low.None? ==> w.low == DEFAULT_LOW
  {
    Writer([], false, false,
      match high case Some(h) => h case None => DEFAULT_HIGH,
      match low case Some(l) => l case None => DEFAULT_LOW,
      [])
  }

  /** `write`: refused once closed, then once closing; otherwise the data is
      appended and the transport's `_trigger_write` is called. `trigger` is
      what that call raised (`None` when it returned, or when no transport
      is set); its error reaches the caller with the data already buffered. */
  function Write(w: Writer, data: Bytes, trigger: Option<PyError>): (r: (Writer, Result<(), PyError>))
    ensures w.closed ==> r == (w, Err(RuntimeError("Writer is closed")))
    ensures !w.closed && w.closing ==> r == (w, Err(RuntimeError("Writer is closing")))
    ensures !IsClosing(w) ==> r.0 == w.(buffer := w.buffer + data)
    ensures !IsClosing(w) ==> (r.1.Ok? <==> trigger.None?) && (trigger.Some? ==> r.1 == Err(trigger.value))
  {
    if w.closed then (w, Err(RuntimeError("Writer is closed")))
    else if w.closing then (w, Err(RuntimeError("Writer is closing")))
    else
      var w1 := w.(buffer := w.buffer + data);
      match trigger
      case Some(e) => (w1, Err(e))
      case None => (w1, Ok(()))
  }

  function Concat(lines: seq<Bytes>): Bytes {
    if |lines| == 0 then [] else lines[0] + Concat(lines[1..])
  }

  /** The index of the first `_trigger_write` that raises, or the number of
      answers when none does. */
  function FirstFailure(triggers: seq<Option<PyError>>): (k: nat)
    ensures k <= |triggers|
    ensures forall i :: 0 <= i < k ==> triggers[i].None?
    ensures k < |triggers| ==> triggers[k].Some?
  {
    if |triggers| == 0 || triggers[0].Some? then 0 else 1 + FirstFailure(triggers[1..])
  }

  /** `writelines`: one `write` per line, stopping at the first error;
      `triggers[i]` answers the `_trigger_write` of line `i`. */
  function WriteLines(w: Writer, lines: seq<Bytes>, triggers: seq<Option<PyError>>): (Writer, Result<(), PyError>)
    requires |triggers| == |lines|
    decreases |lines|
  {
    if |lines| == 0 then (w, Ok(()))
    else
      var first := Write(w, lines[0], triggers[0]);
      if first.1.Err? then first else WriteLines(first.0, lines[1..], triggers[1..])
  }

  /** `writelines` on a closing writer with something to write fails before
      appending anything; otherwise it appends the lines up to and including
      the first whose `_trigger_write` raises, and raises that error, or all
      of them. */
  lemma {:induction false} WriteLinesSpec(w: Writer, lines: seq<Bytes>, triggers: seq<Option<PyError>>)
    requires |triggers| == |lines|
    ensures var r := WriteLines(w, lines, triggers);
      var k := FirstFailure(triggers);
      var n := if k < |lines| then k + 1 else |lines|;
      && (|lines| > 0 && IsClosing(w) ==> r == Write(w, lines[0], triggers[0]) && r.0 == w && r.1.Err?)
      && (|lines| == 0 || !IsClosing(w) ==>
            && r.0 == w.(buffer := w.buffer + Concat(lines[..n]))
            && r.1 == (if k < |lines| then Err(triggers[k].value) else Ok(())))
    decreases |lines|
  {
    if |lines| == 0 {
      assert w.buffer + [] == w.buffer;
    } else if !IsClosing(w) {
      var w1 := w.(buffer := w.buffer + lines[0]);
      if triggers[0].Some? {
        assert lines[..1] == [lines[0]];
        assert Concat(lines[..1]) == lines[0] + Concat([]);
        assert lines[0] + [] == lines[0];
      } else {
        WriteLinesSpec(w1, lines[1..], triggers[1..]);
        var k := FirstFailure(triggers[1..]);
        var m := if k < |lines| - 1 then k + 1 else |lines| - 1;
        assert lines[..m + 1][1..] == lines[1..][..m];
        assert Concat(lines[..m + 1]) == lines[0] + Concat(lines[1..][..m]);
        assert w.buffer + lines[0] + Concat(lines[1..][..m]) == w.buffer + (lines[0] + Concat(lines[1..][..m]));
      }
    }
  }

  /** `close` only marks the writer closing. */
  function Close(w: Writer): (r: Writer)
    ensures IsClosing(r) && r.buffer == w.buffer && r.closed == w.closed
  {
    w.(closing := true)
  }

  function IsClosing(w: Writer): bool {
    w.closing || w.closed
  }

  function NeedsDrain(w: Writer): bool {
    |w.buffer| > w.high
  }

  function IsDrained(w: Writer): bool {
    |w.buffer| <= w.low
  }

  function CanWriteEof(w: Writer): bool {
    !w.closed
  }

  /** `write_eof`: refused once closed, otherwise marks closed and closing. */
  function WriteEof(w: Writer): (r: Result<Writer, PyError>)
    ensures r.Ok? <==> CanWriteEof(w)
    ensures r.Ok? ==> r.value == w.(closed := true, closing := true)
    ensures r.Err? ==> r.error == RuntimeError("Already closed")
  {
    if w.closed then Err(RuntimeError("Already closed"))
    else Ok(w.(closed := true, closing := true))
  }

  /** `_clear_buffer`: hands over every buffered byte. */
  function ClearBuffer(w: Writer): (r: (Writer, Bytes))
    ensures r.1 == w.buffer && r.0 == w.(buffer := [])
  {
    (w.(buffer := []), w.buffer)
  }

  /** The flags and water marks together: once closed or closing nothing more
      is written, a second `write_eof` fails, a writer above its high mark is
      not drained when the marks are ordered, and clearing drains it. */
  lemma WriterFlags(w: Writer, data: Bytes, trigger: Option<PyError>)
    ensures Write(Close(w), data, trigger).1.Err?
    ensures WriteEof(w).Ok? ==> Write(WriteEof(w).value, data, trigger).1.Err? && WriteEof(WriteEof(w).value).Err?
    ensures IsClosing(w) <==> Write(w, data, None).1.Err?
    ensures w.low <= w.high && NeedsDrain(w) ==> !IsDrained(w)
    ensures IsDrained(ClearBuffer(w).0) && !NeedsDrain(ClearBuffer(w).0)
  {
  }

  /** `drain`: already drained completes at once, otherwise a waiter is queued. */
  function Drain(w: Writer, future: nat): (r: (Writer, DrainReply))
    ensures IsDrained(w) <==> r.1.Completed?
    ensures r.1.Completed? ==> r.0 == w
    ensures r.1.Pending? ==> r.0 == w.(drainWaiters := w.drainWaiters + [future]) && r.1.future == future
  {
    if IsDrained(w) then (w, Completed)
    else (w.(drainWaiters := w.drainWaiters + [future]), Pending(future))
  }

  /** `_wakeup_drain_waiters`: when drained, every waiter is resolved in
      order and the list emptied; otherwise nothing happens. */
  function WakeupDrainWaiters(w: Writer): (r: (Writer, seq<nat>))
    ensures IsDrained(w) ==> r == (w.(drainWaiters := []), w.drainWaiters)
    ensures !IsDrained(w) ==> r == (w, [])
  {
    if IsDrained(w) then (w.(drainWaiters := []), w.drainWaiters) else (w, [])
  }
}

=== FILE: tcp.dfy ===
/** `src/transports/tcp.rs`: the state of a `TcpTransport`. The socket is
    reduced to what it accepts: `wire` holds the bytes the kernel has taken,
    in order, and each `write` call's answer is an input. The loop's
    registry entries for the transport's descriptor are two flags, and the
    protocol's `connection_lost` notifications are counted. A flag says the
    loop will run that callback when the descriptor is ready. The loop's
    `add_*` calls store the handle before the poller call that can fail,
    which leaves the poller as it was, so a failed add leaves the flag
    unchanged; its `remove_*` calls drop the handle before that call, so a
    failed remove clears the flag (`src/event_loop/io.rs`). */
module Tcp {
  import opened Wrappers

  /** Default flow-control marks, from `src/constants.rs`. */
  const DEFAULT_HIGH: nat := 64 * 1024
  const DEFAULT_LOW: nat := 16 * 1024

  /** The `TransportState` bit set. */
  datatype State = State(active: bool, closing: bool, closed: bool, readingPaused: bool)

  datatype Transport = Transport(
    state: State,
    stream: bool,          // the socket is still held
    reader: bool,          // a linked `StreamReader` is still held
    buffer: Bytes,         // bytes waiting for the socket to become writable
    high: nat,
    low: nat,
    wire: Bytes,           // bytes the kernel has accepted so far
    readerArmed: bool,     // the loop will run the reader: handle stored and poller armed for it
    writerArmed: bool,     // the loop will run the writer: handle stored and poller armed for it
    lost: nat)             // `connection_lost` calls so far

  /** What a `write` on the socket answers. */
  datatype WriteAnswer = Wrote(n: nat) | WouldBlock | WriteFailed(errno: int)

  /** `TcpTransport::new`: active, default marks, nothing buffered, with its
      socket and reading armed by the caller. */
  function New(): (t: Transport)
    ensures t.state == State(true, false, false, false)
    ensures t.high == DEFAULT_HIGH && t.low == DEFAULT_LOW && t.buffer == [] && t.stream
    ensures !IsClosing(t)
  {
    Transport(State(true, false, false, false), true, false, [], DEFAULT_HIGH, DEFAULT_LOW, [], false, false, 0)
  }

  /** `is_closing`: closing or already closed. */
  function IsClosing(t: Transport): bool {
    t.state.closing || t.state.closed
  }

  function WriteBufferSize(t: Transport): nat {
    |t.buffer|
  }

  /** The count of bytes the kernel took of a `want`-byte write. */
  function Taken(n: nat, want: nat): (k: nat)
    ensures k <= want && (n <= want ==> k == n)
  {
    if n <= want then n else want
  }

  // ---------------------------------------------------------------------------
  // Closing
  // ---------------------------------------------------------------------------

  /** `_force_close_internal`: once only, enter CLOSED (leaving ACTIVE and
      CLOSING), drop both registry entries, the socket and the reader. */
  function ForceCloseInternal(t: Transport): (r: Transport)
    ensures r.state.closed && (t.state.closed ==> r == t)
    ensures !t.state.closed ==> !r.state.active && !r.state.closing && !r.stream && !r.reader && !r.readerArmed && !r.writerArmed
    ensures r.buffer == t.buffer && r.wire == t.wire && r.lost == t.lost
    ensures r.state.readingPaused == t.state.readingPaused
  {
    if t.state.closed then t
    else t.(state := t.state.(closed := true, active := false, closing := false),
            readerArmed := false, writerArmed := false, stream := false, reader := false)
  }

  /** `_force_close` and `abort`: force-close, then notify the protocol. */
  function Abort(t: Transport): (r: Transport)
    ensures r.state.closed && r.lost == t.lost + 1
  {
    ForceCloseInternal(t).(lost := t.lost + 1)
  }

  /** `close`: nothing when already closing or closed; otherwise enter
      CLOSING, then close at once if nothing is buffered, or arm the writer
      so the buffer is flushed first. `addWriter` is what the loop's
      `add_tcp_writer` raises, if anything: the error is raised with the
      transport already CLOSING and the writer not armed. The loop keeps
      the new handle in its registry, but the poller was not armed for it,
      so no flush is ever scheduled. */
  function Close(t: Transport, addWriter: Option<PyError>): (r: (Transport, Result<(), PyError>))
  {
    if IsClosing(t) then (t, Ok(()))
    else
      var t1 := t.(state := t.state.(closing := true));
      if |t.buffer| == 0 then (ForceCloseInternal(t1).(lost := t.lost + 1), Ok(()))
      else if addWriter.Some? then (t1, Err(addWriter.value))
      else (t1.(writerArmed := true), Ok(()))
  }

  /** Force-closing is idempotent, and so is `close`: a second call changes
      nothing and succeeds, even after a first call that raised. After
      `close` the transport is closing; it is closed with the protocol told
      once if and only if nothing was buffered. Otherwise it keeps its
      buffered bytes and arms the writer, unless `add_tcp_writer` raises,
      in which case that error is raised and the writer flag is unchanged. */
  lemma CloseSpec(t: Transport, addWriter: Option<PyError>, again: Option<PyError>)
    ensures ForceCloseInternal(ForceCloseInternal(t)) == ForceCloseInternal(t)
    ensures var r := Close(t, addWriter);
      && Close(r.0, again) == (r.0, Ok(()))
      && IsClosing(r.0)
      && (IsClosing(t) ==> r == (t, Ok(())))
      && (!IsClosing(t) ==>
          && (r.0.state.closed <==> |t.buffer| == 0)
          && r.0.lost == t.lost + (if |t.buffer| == 0 then 1 else 0)
          && (r.1.Err? <==> |t.buffer| > 0 && addWriter.Some?)
          && (|t.buffer| > 0 ==> r.0.buffer == t.buffer && r.0.stream == t.stream)
          && (|t.buffer| > 0 && addWriter.None? ==> r.0.writerArmed)
          && (|t.buffer| > 0 && addWriter.Some? ==> r.1 == Err(addWriter.value) && r.0.writerArmed == t.writerArmed))
  {
  }

  // ---------------------------------------------------------------------------
  // Writing
  // ---------------------------------------------------------------------------

  /** The trait's `write`: with no socket nothing happens. As written the
      data goes to the socket at once even when older bytes are buffered;
      corrected, it is queued behind them. A short write buffers the rest,
      a would-block buffers all of it, and any other failure is raised. */
  function SendWith(v: Variant, t: Transport, data: Bytes, answer: WriteAnswer): (r: Result<Transport, PyError>)
    ensures r.Ok? ==> r.value.state == t.state && r.value.high == t.high && r.value.low == t.low
    ensures r.Err? <==> t.stream && (v.AsWritten? || |t.buffer| == 0) && answer.WriteFailed?
  {
    if !t.stream then Ok(t)
    else if v.Corrected? && |t.buffer| > 0 then Ok(t.(buffer := t.buffer + data))
    else match answer
      case Wrote(n) =>
        var k := Taken(n, |data|);
        Ok(t.(wire := t.wire + data[..k], buffer := t.buffer + data[k..]))
      case WouldBlock => Ok(t.(buffer := t.buffer + data))
      case WriteFailed(e) => Err(OSError(e))
  }

  /** The Python-facing `write`: send, then arm the writer if anything is
      left in the buffer. A refused send raises and changes nothing.
      `addWriter` is what the loop's `add_tcp_writer` raises, if anything:
      the error is raised with the data already buffered and the writer
      flag unchanged, as in `Close`. */
  function WriteWith(v: Variant, t: Transport, data: Bytes, answer: WriteAnswer, addWriter: Option<PyError>): (r: (Transport, Result<(), PyError>))
    ensures r.0.state == t.state
    ensures r.1.Ok? ==> (|r.0.buffer| > 0 ==> r.0.writerArmed)
    ensures SendWith(v, t, data, answer).Err? ==> r == (t, Err(SendWith(v, t, data, answer).error))
    ensures SendWith(v, t, data, answer).Ok? ==>
      var s := SendWith(v, t, data, answer).value;
      && r.0.buffer == s.buffer && r.0.wire == s.wire
      && (|s.buffer| == 0 ==> r == (s, Ok(())))
      && (|s.buffer| > 0 && addWriter.None? ==> r == (s.(writerArmed := true), Ok(())))
      && (|s.buffer| > 0 && addWriter.Some? ==> r == (s, Err(addWriter.value)) && r.0.writerArmed == t.writerArmed)
  {
    match SendWith(v, t, data, answer)
    case Err(e) => (t, Err(e))
    case Ok(s) =>
      if |s.buffer| == 0 then (s, Ok(()))
      else if addWriter.Some? then (s, Err(addWriter.value))
      else (s.(writerArmed := true), Ok(()))
  }

  function Write(t: Transport, data: Bytes, answer: WriteAnswer, addWriter: Option<PyError>): (r: (Transport, Result<(), PyError>)) {
    WriteWith(Corrected, t, data, answer, addWriter)
  }

  /** Corrected: the bytes accepted followed by the bytes buffered are the
      bytes written, in the order the writes were made; with an empty
      buffer a full write leaves it empty, a short write of `n` buffers
      `data[n..]` and a would-block buffers all of `data`. */
  lemma WriteKeepsOrder(t: Transport, data: Bytes, answer: WriteAnswer, addWriter: Option<PyError>)
    requires t.stream
    ensures var r := Write(t, data, answer, addWriter);
      && (|t.buffer| == 0 && answer.WriteFailed? ==> r == (t, Err(OSError(answer.errno))))
      && (!(|t.buffer| == 0 && answer.WriteFailed?) ==> r.0.wire + r.0.buffer == t.wire + t.buffer + data)
      && (|t.buffer| == 0 && answer.Wrote? && answer.n < |data| ==> r.0.buffer == data[answer.n..])
      && (|t.buffer| == 0 && answer.Wrote? && answer.n >= |data| ==> r.1.Ok? && r.0.buffer == [])
      && (|t.buffer| == 0 && answer.WouldBlock? ==> r.0.buffer == data)
      && (|t.buffer| > 0 ==> r.0.wire == t.wire)
  {
    if |t.buffer| == 0 && answer.Wrote? {
      var k := Taken(answer.n, |data|);
      assert t.wire + data[..k] + (t.buffer + data[k..]) == t.wire + t.buffer + data by {
        assert data[..k] + data[k..] == data;
      }
    }
  }

  /** As written: one byte waits in the buffer, a second byte is written
      and the kernel takes it, so the second byte reaches the peer before
      the first. */
  lemma WriteReordersAsWritten()
    ensures var t := New().(buffer := [1]);
      var r := WriteWith(AsWritten, t, [2], Wrote(1), None);
      r.1.Ok? && r.0.wire + r.0.buffer == [2, 1] && r.0.wire + r.0.buffer != t.wire + t.buffer + [2]
  {
    var t := New().(buffer := [1]);
    var r := WriteWith(AsWritten, t, [2], Wrote(1), None);
    assert r.0.wire == [2];
    assert r.0.buffer == [1];
    assert r.0.wire + r.0.buffer == [2, 1];
    assert (t.wire + t.buffer + [2])[0] == 1;
  }

  /** `write_ready`: flush the buffer while the socket takes bytes. A
      zero-byte write raises; once the buffer is empty the loop's writer is
      removed and, when closing, the transport closes and tells the
      protocol. The answers are the socket's replies in order; when they
      run out the socket would block. `removeWriter` is what the loop's
      `remove_writer` raises, if anything; its error propagates with the
      buffer already flushed. `_force_close_internal` never fails. */
  method WriteReady(t: Transport, answers: seq<WriteAnswer>, removeWriter: Option<PyError>)
    returns (r: Transport, res: Result<(), PyError>)
    ensures r.wire + r.buffer == t.wire + t.buffer
    ensures |r.buffer| <= |t.buffer|
    ensures !t.stream ==> r == t && res.Ok?
    ensures res.Err? ==> r.state == t.state && r.lost == t.lost
    ensures t.stream && |t.buffer| > 0 && |r.buffer| == 0 ==> !r.writerArmed
    ensures res.Err? && |r.buffer| > 0 && res.error.ConnectionError? ==> res.error.msg == "Connection closed during write"
    ensures t.stream && |t.buffer| > 0 && |r.buffer| == 0 ==>
      (res.Ok? <==> removeWriter.None?) && (removeWriter.Some? ==> res == Err(removeWriter.value))
    ensures t.stream && res.Ok? && |t.buffer| > 0 && |r.buffer| == 0 ==>
      !r.writerArmed && (t.state.closing && !t.state.closed ==> r.state.closed && !r.stream && r.lost == t.lost + 1)
    ensures |r.buffer| > 0 ==> r.state == t.state && r.writerArmed == t.writerArmed && r.lost == t.lost
  {
    r := t;
    res := Ok(());
    if !t.stream {
      return;
    }
    var finalize := false;
    var i := 0;
    while |r.buffer| > 0 && i < |answers|
      invariant 0 <= i <= |answers|
      invariant r.wire + r.buffer == t.wire + t.buffer
      invariant |r.buffer| <= |t.buffer|
      invariant r.state == t.state && r.lost == t.lost && r.stream
      invariant |r.buffer| > 0 ==> r.writerArmed == t.writerArmed
      invariant |t.buffer| > 0 && |r.buffer| == 0 ==> !r.writerArmed && removeWriter.None?
      invariant finalize <==> |r.buffer| == 0 && |t.buffer| > 0 && t.state.closing
      decreases |answers| - i
    {
      match answers[i]
      case Wrote(n) =>
        if n == 0 {
          return r, Err(ConnectionError("Connection closed during write"));
        }
        var k := Taken(n, |r.buffer|);
        assert r.wire + r.buffer[..k] + r.buffer[k..] == r.wire + r.buffer by {
          assert r.buffer[..k] + r.buffer[k..] == r.buffer;
        }
        r := r.(wire := r.wire + r.buffer[..k], buffer := r.buffer[k..]);
        if |r.buffer| == 0 {
          if removeWriter.Some? {
            return r.(writerArmed := false), Err(removeWriter.value);
          }
          r := r.(writerArmed := false);
          if r.state.closing {
            finalize := true;
          }
        }
        i := i + 1;
      case WouldBlock =>
        break;
      case WriteFailed(e) =>
        return r, Err(OSError(e));
    }
    if finalize {
      r := ForceCloseInternal(r).(lost := r.lost + 1);
    }
  }

  /** `_trigger_write`: unless closing, closed or without a socket, flush
      what is buffered and, if anything is left, add the loop's writer.
      `addWriter` is what the loop's `add_tcp_writer` raises, if anything;
      that error replaces the flush's answer. */
  method TriggerWrite(t: Transport, answers: seq<WriteAnswer>, removeWriter: Option<PyError>, addWriter: Option<PyError>)
    returns (r: Transport, res: Result<(), PyError>)
    ensures IsClosing(t) || !t.stream || |t.buffer| == 0 ==> r == t && res.Ok?
    ensures r.wire + r.buffer == t.wire + t.buffer
    ensures !IsClosing(t) && t.stream && |r.buffer| > 0 && addWriter.None? ==> r.writerArmed
    ensures !IsClosing(t) && t.stream && |r.buffer| > 0 && addWriter.Some? ==>
      res == Err(addWriter.value) && r.writerArmed == t.writerArmed
  {
    if IsClosing(t) || !t.stream || |t.buffer| == 0 {
      return t, Ok(());
    }
    r, res := WriteReady(t, answers, removeWriter);
    if |r.buffer| > 0 {
      if addWriter.Some? {
        res := Err(addWriter.value);
      } else {
        r := r.(writerArmed := true);
      }
    }
  }

  // ---------------------------------------------------------------------------
  // Flow control and reading
  // ---------------------------------------------------------------------------

  /** `set_write_buffer_limits`: `high` defaults to 64 KiB and `low` to a
      quarter of `high` (0 when `high` is 0). Unless `high` is 0, `low` must
      be below `high`; on success both are stored and the answer says
      whether `pause_writing` is called because the buffer is above the new
      high mark. */
  function SetWriteBufferLimits(t: Transport, high: Option<nat>, low: Option<nat>): (r: (Transport, Result<bool, PyError>))
  {
    var h := if high.Some? then high.value else DEFAULT_HIGH;
    var l := if low.Some? then low.value else if h == 0 then 0 else h / 4;
    if h > 0 && l >= h then (t, Err(ValueError("low must be less than high")))
    else (t.(high := h, low := l), Ok(h > 0 && |t.buffer| > h))
  }

  /** The marks are rejected exactly when flow control is on and `low` is
      not below `high`, and then nothing changes; accepted marks are stored
      and satisfy that rule; leaving `low` out never fails. */
  lemma SetWriteBufferLimitsSpec(t: Transport, high: Option<nat>, low: Option<nat>)
    ensures var r := SetWriteBufferLimits(t, high, low);
      && (r.1.Err? <==> (var h := if high.Some? then high.value else DEFAULT_HIGH;
                         h > 0 && low.Some? && low.value >= h))
      && (r.1.Err? ==> r.0 == t)
      && (r.1.Ok? ==> (r.0.high == 0 || r.0.low < r.0.high) && r.0.buffer == t.buffer && r.0.state == t.state)
      && (r.1.Ok? ==> r.0.high == (if high.Some? then high.value else DEFAULT_HIGH))
      && (r.1.Ok? && low.Some? ==> r.0.low == low.value)
      && (r.1.Ok? && r.1.value <==> r.1.Ok? && r.0.high > 0 && |t.buffer| > r.0.high)
  {
  }

  /** `pause_reading`: the first call sets READING_PAUSED and removes the
      loop's reader; a repeated call does nothing. `removeReader` is what
      the loop's `remove_reader` raises, if anything: the error is raised
      with the flag already set and the reader's handle already gone. */
  function PauseReading(t: Transport, removeReader: Option<PyError>): (r: (Transport, Result<(), PyError>))
    ensures r.0.state.readingPaused
    ensures t.state.readingPaused ==> r == (t, Ok(()))
    ensures !t.state.readingPaused ==>
      && r.0 == t.(state := t.state.(readingPaused := true), readerArmed := false)
      && (r.1.Err? <==> removeReader.Some?)
      && (removeReader.Some? ==> r.1 == Err(removeReader.value))
  {
    if t.state.readingPaused then (t, Ok(()))
    else
      var t1 := t.(state := t.state.(readingPaused := true), readerArmed := false);
      if removeReader.Some? then (t1, Err(removeReader.value)) else (t1, Ok(()))
  }

  /** `resume_reading`: when paused, clear the flag and add the loop's
      reader. `addReader` is what the loop's `add_tcp_reader` raises, if
      anything: the error is raised with the flag already cleared and the
      reader not armed. */
  function ResumeReading(t: Transport, addReader: Option<PyError>): (r: (Transport, Result<(), PyError>))
    ensures !r.0.state.readingPaused
    ensures !t.state.readingPaused ==> r == (t, Ok(()))
    ensures t.state.readingPaused && addReader.None? ==>
      r == (t.(state := t.state.(readingPaused := false), readerArmed := true), Ok(()))
    ensures t.state.readingPaused && addReader.Some? ==>
      r == (t.(state := t.state.(readingPaused := false)), Err(addReader.value)) && r.0.readerArmed == t.readerArmed
  {
    if t.state.readingPaused then
      var t1 := t.(state := t.state.(readingPaused := false));
      if addReader.Some? then (t1, Err(addReader.value)) else (t1.(readerArmed := true), Ok(()))
    else (t, Ok(()))
  }

  /** Pausing is idempotent and disarms reading, whatever the loop answers;
      resuming after a successful pause arms it again and restores every
      other field. After a failed resume the transport is unpaused with no
      reader, and a later resume does nothing, so it reads nothing until it
      is paused and resumed again. */
  lemma PauseResume(t: Transport, a: Option<PyError>, b: Option<PyError>)
    ensures PauseReading(PauseReading(t, a).0, b) == (PauseReading(t, a).0, Ok(()))
    ensures !t.state.readingPaused ==> !PauseReading(t, a).0.readerArmed
    ensures !t.state.readingPaused ==> ResumeReading(PauseReading(t, a).0, None) == (t.(readerArmed := true), Ok(()))
    ensures ResumeReading(ResumeReading(t, a).0, b) == (ResumeReading(t, a).0, Ok(()))
    ensures !t.state.readingPaused && b.Some? ==>
      var r := ResumeReading(PauseReading(t, a).0, b);
      r.1 == Err(b.value) && !r.0.state.readingPaused && !r.0.readerArmed
  {
    var p := PauseReading(t, a).0;
    assert p.state.readingPaused;
    if !t.state.readingPaused {
      assert p == t.(state := t.state.(readingPaused := true), readerArmed := false);
    }
  }
}

=== FILE: timers.dfy ===
/** The hierarchical timer wheel of `src/timers.rs`: four wheels of 256 slots
    at one-millisecond precision, a slab holding the live timer entries, an
    id → slab-key index and a cached minimum expiry.

    Two places in the source misbehave once a timer has been cancelled (see the
    README's findings). Every operation that differs is therefore written once,
    parameterised by a `Variant`: `AsWritten` follows the source line by line,
    `Corrected` is the evidently intended behaviour, and `Insert`,
    `PopExpired` and the invariants below are stated for `Corrected`. */
module Timers {
  import opened Wrappers

  const WHEEL_BITS: nat := 8
  const WHEELS: nat := 4
  const WHEEL_SIZE: nat := 256
  const WHEEL_MASK: nat := 255
  const PRECISION_NS: nat := 1_000_000

  /** `1 << (w * WHEEL_BITS)`: how many milliseconds one slot of wheel `w` spans. */
  function Span(w: nat): (r: nat)
    requires w <= WHEELS
    ensures r > 0
  {
    if w == 0 then 1
    else if w == 1 then 256
    else if w == 2 then 65536
    else if w == 3 then 16777216
    else 4294967296
  }

  /** `u64::saturating_sub`. */
  function SatSub(a: nat, b: nat): nat {
    if a >= b then a - b else 0
  }

  /** An absolute deadline in nanoseconds, as whole milliseconds after the loop's start. */
  function ExpiryMs(ns: nat, startNs: nat): nat {
    SatSub(ns, startNs) / PRECISION_NS
  }

  // ---------------------------------------------------------------------------
  // Slab storage
  // ---------------------------------------------------------------------------

  /** What a timer keeps that the model needs: its id and absolute deadline.
      The Python callback, its arguments and its context are not modelled. */
  datatype TimerEntry = TimerEntry(id: nat, expiresAt: nat)

  /** The `slab` crate's storage: occupied keys, and the vacant keys below
      `len` chained as a stack whose top is handed out next. */
  datatype Slab = Slab(entries: map<nat, TimerEntry>, free: seq<nat>, len: nat)

  ghost predicate SlabValid(s: Slab) {
    && (forall k :: k in s.entries ==> k < s.len)
    && (forall i :: 0 <= i < |s.free| ==> s.free[i] < s.len && s.free[i] !in s.entries)
    && (forall i, j :: 0 <= i < j < |s.free| ==> s.free[i] != s.free[j])
  }

  function EmptySlab(): (s: Slab)
    ensures SlabValid(s) && |s.entries| == 0
  {
    Slab(map[], [], 0)
  }

  /** `Slab::vacant_key`: the key the next insert will use. */
  function VacantKey(s: Slab): (k: nat)
    ensures SlabValid(s) ==> k !in s.entries
  {
    if |s.free| > 0 then s.free[|s.free| - 1] else s.len
  }

  /** `Slab::insert`: store `e` under `VacantKey(s)`. */
  function SlabInsert(s: Slab, e: TimerEntry): (r: Slab)
    ensures r.entries == s.entries[VacantKey(s) := e]
    ensures SlabValid(s) ==> SlabValid(r)
  {
    if |s.free| > 0 then
      Slab(s.entries[s.free[|s.free| - 1] := e], s.free[..|s.free| - 1], s.len)
    else
      Slab(s.entries[s.len := e], s.free, s.len + 1)
  }

  /** `Slab::try_remove` of an occupied key. The freed key becomes the next
      vacant key, which is how a cancelled timer's key gets reused. */
  function SlabRemove(s: Slab, k: nat): (r: Slab)
    requires k in s.entries
    ensures r.entries == s.entries - {k}
    ensures VacantKey(r) == k
    ensures SlabValid(s) ==> SlabValid(r)
  {
    Slab(s.entries - {k}, s.free + [k], s.len)
  }

  // ---------------------------------------------------------------------------
  // The wheel state
  // ---------------------------------------------------------------------------

  /** What a wheel slot holds: a timer id and the slab key it was stored under. */
  datatype SlotEntry = SlotEntry(id: nat, key: nat)

  /** `wheels` maps (wheel, slot) to that slot's entries; a missing key is an empty slot. */
  datatype Timers = Timers(
    wheels: map<(nat, nat), seq<SlotEntry>>,
    slab: Slab,
    idToKey: map<nat, nat>,
    currentMs: nat,
    nextId: nat,
    minExpiryCache: Option<nat>)


  function Slot(t: Timers, w: nat, s: nat): seq<SlotEntry> {
    if (w, s) in t.wheels then t.wheels[(w, s)] else []
  }

  /** `Timers::new`. */
  function New(): (t: Timers)
    ensures t.nextId == 1 && t.currentMs == 0 && |t.slab.entries| == 0
  {
    Timers(map[], EmptySlab(), map[], 0, 1, None)
  }

  /** The wheel a timer `diff` milliseconds ahead goes to: the lowest wheel
      whose range still covers `diff`, the last wheel taking everything beyond. */
  function WheelFor(diff: nat): (w: nat)
    ensures w < WHEELS
    ensures w == 0 || Span(w) <= diff
    ensures w == WHEELS - 1 || diff < Span(w + 1)
  {
    if diff < Span(1) then 0
    else if diff < Span(2) then 1
    else if diff < Span(3) then 2
    else 3
  }

  /** `(effective_ms >> (w * WHEEL_BITS)) & WHEEL_MASK`, on non-negative values. */
  function SlotIndex(eff: nat, w: nat): (s: nat)
    requires w < WHEELS
    ensures s < WHEEL_SIZE
  {
    (eff / Span(w)) % WHEEL_SIZE
  }

  /** The deadline a timer is scheduled for: a past expiry is clamped to the current tick. */
  function Effective(t: Timers, expiryMs: nat): nat {
    if expiryMs < t.currentMs then t.currentMs else expiryMs
  }

  /** `cascade_timer`: append the timer to the slot of the wheel chosen by how
      far ahead its effective deadline is. Only the wheels change. */
  function CascadeTimer(t: Timers, id: nat, key: nat, expiryMs: nat): (r: Timers)
    ensures r == t.(wheels := r.wheels)
  {
    var eff := Effective(t, expiryMs);
    var w := WheelFor(eff - t.currentMs);
    var s := SlotIndex(eff, w);
    t.(wheels := t.wheels[(w, s) := Slot(t, w, s) + [SlotEntry(id, key)]])
  }

  /** The cache update of `insert`. As written, an empty cache takes the new
      deadline even when earlier timers are live; corrected, it does so only
      when the new timer is the only one. */
  function UpdateCache(v: Variant, cache: Option<nat>, e: nat, wasEmpty: bool): Option<nat> {
    match cache
    case Some(m) => if e < m then Some(e) else cache
    case None => if v.AsWritten? || wasEmpty then Some(e) else None
  }

  /** The bookkeeping half of `insert`: take the next id, store the entry
      under the slab's vacant key, index it and update the cache. */
  function Store(v: Variant, t: Timers, expiresAtNs: nat): (r: Timers)
    ensures r.wheels == t.wheels && r.currentMs == t.currentMs
  {
    t.(
      nextId := t.nextId + 1,
      slab := SlabInsert(t.slab, TimerEntry(t.nextId, expiresAtNs)),
      idToKey := t.idToKey[t.nextId := VacantKey(t.slab)],
      minExpiryCache := UpdateCache(v, t.minExpiryCache, expiresAtNs, |t.slab.entries| == 0))
  }

  /** `insert`: returns the new state and the id handed out. */
  function InsertWith(v: Variant, t: Timers, expiresAtNs: nat, startNs: nat): (r: (Timers, nat))
    ensures r.1 == t.nextId && r.0.nextId == t.nextId + 1
    ensures r.0.currentMs == t.currentMs
  {
    (CascadeTimer(Store(v, t, expiresAtNs), t.nextId, VacantKey(t.slab), ExpiryMs(expiresAtNs, startNs)), t.nextId)
  }

  function Insert(t: Timers, expiresAtNs: nat, startNs: nat): (r: (Timers, nat))
    ensures r.1 == t.nextId && r.0.nextId == t.nextId + 1
  {
    InsertWith(Corrected, t, expiresAtNs, startNs)
  }

  /** `cancel`: the id leaves the index whether or not its slab entry exists;
      the answer is whether a live entry was removed. */
  function Cancel(t: Timers, id: nat): (r: (Timers, bool))
    ensures id !in r.0.idToKey
    ensures r.1 ==> r.0.minExpiryCache.None?
  {
    if id in t.idToKey then
      var key := t.idToKey[id];
      var t1 := t.(idToKey := t.idToKey - {id});
      if key in t.slab.entries then
        (t1.(slab := SlabRemove(t.slab, key), minExpiryCache := None), true)
      else
        (t1, false)
    else
      (t, false)
  }

  ghost predicate IsMinExpiry(m: map<nat, TimerEntry>, x: nat) {
    && (exists k :: k in m && m[k].expiresAt == x)
    && (forall k :: k in m ==> x <= m[k].expiresAt)
  }

  /** `next_expiry`: the cached minimum if there is one, otherwise the
      smallest deadline among live entries. */
  method NextExpiry(t: Timers) returns (r: Option<nat>)
    ensures t.minExpiryCache.Some? ==> r == t.minExpiryCache
    ensures t.minExpiryCache.None? ==> (r.None? <==> |t.slab.entries| == 0)
    ensures t.minExpiryCache.None? && r.Some? ==> IsMinExpiry(t.slab.entries, r.value)
  {
    if t.minExpiryCache.Some? {
      return t.minExpiryCache;
    }
    var todo := t.slab.entries.Keys;
    r := None;
    while todo != {}
      invariant todo <= t.slab.entries.Keys
      invariant r.None? <==> todo == t.slab.entries.Keys
      invariant r.Some? ==> exists k :: k in t.slab.entries && t.slab.entries[k].expiresAt == r.value
      invariant r.Some? ==> forall k :: k in t.slab.entries && k !in todo ==> r.value <= t.slab.entries[k].expiresAt
      decreases todo
    {
      var k :| k in todo;
      var e := t.slab.entries[k].expiresAt;
      if r.None? || e < r.value {
        r := Some(e);
      }
      todo := todo - {k};
    }
    assert t.slab.entries.Keys == {} ==> |t.slab.entries| == 0 by {
      if t.slab.entries.Keys == {} {
        assert t.slab.entries == map[];
      }
    }
  }

  // ---------------------------------------------------------------------------
  // pop_expired
  // ---------------------------------------------------------------------------

  /** A slot entry still refers to the timer it was created for. */
  predicate Matches(t: Timers, e: SlotEntry) {
    e.key in t.slab.entries && t.slab.entries[e.key].id == e.id
  }

  /** Whether the slot entry's slab key is taken as its timer: as written, any
      occupied key is; corrected, only one that still holds the same id. */
  predicate Claims(v: Variant, t: Timers, e: SlotEntry) {
    e.key in t.slab.entries && (v.AsWritten? || t.slab.entries[e.key].id == e.id)
  }

  /** One iteration of the inner loop over a wheel-0 slot. */
  function FireOne(v: Variant, t: Timers, e: SlotEntry): (r: (Timers, seq<TimerEntry>))
    ensures r.0 == t.(slab := r.0.slab, idToKey := r.0.idToKey)
  {
    if Claims(v, t, e) then
      (t.(slab := SlabRemove(t.slab, e.key), idToKey := t.idToKey - {e.id}), [t.slab.entries[e.key]])
    else
      (t, [])
  }

  /** The inner loop over the entries taken out of a wheel-0 slot, in order. */
  function FireAll(v: Variant, t: Timers, es: seq<SlotEntry>): (r: (Timers, seq<TimerEntry>))
    ensures r.0 == t.(slab := r.0.slab, idToKey := r.0.idToKey)
    decreases |es|
  {
    if |es| == 0 then (t, [])
    else
      var first := FireOne(v, t, es[0]);
      var rest := FireAll(v, first.0, es[1..]);
      (rest.0, first.1 + rest.1)
  }

  /** `re_cascade` over the entries taken out of an upper-wheel slot. */
  function Recascade(v: Variant, t: Timers, es: seq<SlotEntry>, startNs: nat): (r: Timers)
    ensures r == t.(wheels := r.wheels)
    decreases |es|
  {
    if |es| == 0 then t
    else
      var e := es[0];
      var t1 := if Claims(v, t, e) then
          CascadeTimer(t, e.id, e.key, ExpiryMs(t.slab.entries[e.key].expiresAt, startNs))
        else t;
      Recascade(v, t1, es[1..], startNs)
  }

  /** The boundary check after a tick: wheel `i` is emptied into the lower
      wheels when the tick is a multiple of its span, and the check stops at
      the first wheel whose boundary was not crossed. */
  function CascadeUpper(v: Variant, t: Timers, i: nat, startNs: nat): (r: Timers)
    requires 1 <= i <= WHEELS
    ensures r == t.(wheels := r.wheels)
    decreases WHEELS - i
  {
    if i == WHEELS then t
    else if t.currentMs % Span(i) == 0 then
      var s := (t.currentMs / Span(i)) % WHEEL_SIZE;
      var es := Slot(t, i, s);
      var t1 := t.(wheels := t.wheels - {(i, s)});
      CascadeUpper(v, Recascade(v, t1, es, startNs), i + 1, startNs)
    else t
  }

  /** One iteration of the outer loop: fire wheel-0 slot `currentMs & 255`,
      advance one millisecond, cascade. */
  function Tick(v: Variant, t: Timers, startNs: nat): (r: (Timers, seq<TimerEntry>))
    ensures r.0.currentMs == t.currentMs + 1
    ensures r.0.nextId == t.nextId && r.0.minExpiryCache == t.minExpiryCache
  {
    var s := t.currentMs % WHEEL_SIZE;
    var fired := FireAll(v, t.(wheels := t.wheels - {(0, s)}), Slot(t, 0, s));
    (CascadeUpper(v, fired.0.(currentMs := t.currentMs + 1), 1, startNs), fired.1)
  }

  /** The outer loop: tick while `currentMs <= target`, so that a target
      behind the clock does nothing and otherwise the clock ends one past it. */
  function Advance(v: Variant, t: Timers, target: nat, startNs: nat): (r: (Timers, seq<TimerEntry>))
    ensures r.0.currentMs == if t.currentMs > target then t.currentMs else target + 1
    ensures r.0.nextId == t.nextId && r.0.minExpiryCache == t.minExpiryCache
    decreases target + 1 - t.currentMs
  {
    if t.currentMs > target then (t, [])
    else
      var first := Tick(v, t, startNs);
      var rest := Advance(v, first.0, target, startNs);
      (rest.0, first.1 + rest.1)
  }

  /** `pop_expired`: every timer due by `now`, and the cache cleared if any fired. */
  function PopExpiredWith(v: Variant, t: Timers, nowNs: nat, startNs: nat): (r: (Timers, seq<TimerEntry>))
    ensures ExpiryMs(nowNs, startNs) < t.currentMs ==> r == (t, [])
    ensures ExpiryMs(nowNs, startNs) >= t.currentMs ==> r.0.currentMs == ExpiryMs(nowNs, startNs) + 1
    ensures |r.1| > 0 ==> r.0.minExpiryCache.None?
  {
    var adv := Advance(v, t, ExpiryMs(nowNs, startNs), startNs);
    if |adv.1| > 0 then (adv.0.(minExpiryCache := None), adv.1) else adv
  }

  function PopExpired(t: Timers, nowNs: nat, startNs: nat): (r: (Timers, seq<TimerEntry>))
    ensures ExpiryMs(nowNs, startNs) < t.currentMs ==> r == (t, [])
  {
    PopExpiredWith(Corrected, t, nowNs, startNs)
  }

  // ---------------------------------------------------------------------------
  // Invariants of the corrected wheel
  // ---------------------------------------------------------------------------

  /** The tick at which wheel-0 slot `s` is next processed. */
  function NextHit(s: nat, cur: nat): nat {
    cur + (s - cur) % WHEEL_SIZE
  }

  /** The id index and the slab agree in both directions. */
  ghost predicate IdMapSound(t: Timers) {
    && (forall id :: id in t.idToKey ==>
          t.idToKey[id] in t.slab.entries && t.slab.entries[t.idToKey[id]].id == id)
    && (forall k :: k in t.slab.entries ==>
          t.slab.entries[k].id in t.idToKey && t.idToKey[t.slab.entries[k].id] == k)
  }

  /** Every id in use, live or stale, is below the counter. */
  ghost predicate IdsFresh(t: Timers) {
    && t.nextId >= 1
    && (forall k :: k in t.slab.entries ==> t.slab.entries[k].id < t.nextId)
    && (forall w, s, j :: 0 <= j < |Slot(t, w, s)| ==> Slot(t, w, s)[j].id < t.nextId)
  }

  /** A live timer in wheel 0 is due no later than the tick that processes its slot. */
  ghost predicate Wheel0Sound(t: Timers, startNs: nat) {
    forall s, j :: 0 <= s < WHEEL_SIZE && 0 <= j < |Slot(t, 0, s)| && Matches(t, Slot(t, 0, s)[j]) ==>
      ExpiryMs(t.slab.entries[Slot(t, 0, s)[j].key].expiresAt, startNs) <= NextHit(s, t.currentMs)
  }

  /** A cached minimum is the minimum deadline of the live timers. */
  ghost predicate CacheSound(t: Timers) {
    t.minExpiryCache.Some? ==> IsMinExpiry(t.slab.entries, t.minExpiryCache.value)
  }

  /** Everything but the cache, which `pop_expired` only repairs after its loop. */
  ghost predicate WheelValid(t: Timers, startNs: nat) {
    SlabValid(t.slab) && IdMapSound(t) && IdsFresh(t) && Wheel0Sound(t, startNs)
  }

  /** The wheel invariants, every live timer findable in time, and a sound cache. */
  ghost predicate Valid(t: Timers, startNs: nat) {
    WheelValid(t, startNs) && Reachable(t, startNs) && CacheSound(t)
  }

  ghost predicate SubMap<K, V>(a: map<K, V>, b: map<K, V>) {
    forall k :: k in a ==> k in b && a[k] == b[k]
  }

  function FiredIds(fired: seq<TimerEntry>): set<nat> {
    set f | f in fired :: f.id
  }

  lemma NewValid(startNs: nat)
    ensures Valid(New(), startNs)
  {
  }

  // --- arithmetic of slot positions ------------------------------------------

  /** A timer placed `d < 256` ticks ahead in wheel 0 is reached exactly at its effective tick. */
  lemma NextHitOfPlacement(eff: nat, cur: nat)
    requires cur <= eff < cur + WHEEL_SIZE
    ensures NextHit(eff % WHEEL_SIZE, cur) == eff
  {
    var q := eff / WHEEL_SIZE;
    assert eff % WHEEL_SIZE - cur == (eff - cur) - WHEEL_SIZE * q;
  }

  /** The slot being processed is reached now. */
  lemma NextHitOfCurrent(cur: nat)
    ensures NextHit(cur % WHEEL_SIZE, cur) == cur
  {
    var q := cur / WHEEL_SIZE;
    assert cur % WHEEL_SIZE - cur == -(WHEEL_SIZE as int) * q;
  }

  /** Any other slot is reached at the same tick after the clock advances. */
  lemma NextHitStep(s: nat, cur: nat)
    requires s < WHEEL_SIZE && s != cur % WHEEL_SIZE
    ensures NextHit(s, cur + 1) == NextHit(s, cur)
  {
    var q := cur / WHEEL_SIZE;
    var c := cur % WHEEL_SIZE;
    assert cur == WHEEL_SIZE * q + c;
    if s > c {
      assert s - cur == (s - c) - WHEEL_SIZE * q;
      assert (s - cur) % WHEEL_SIZE == s - c;
      assert s - (cur + 1) == (s - c - 1) - WHEEL_SIZE * q;
      assert (s - (cur + 1)) % WHEEL_SIZE == s - c - 1;
    } else {
      assert s - cur == (s - c + WHEEL_SIZE) - WHEEL_SIZE * (q + 1);
      assert (s - cur) % WHEEL_SIZE == s - c + WHEEL_SIZE;
      assert s - (cur + 1) == (s - c + WHEEL_SIZE - 1) - WHEEL_SIZE * (q + 1);
      assert (s - (cur + 1)) % WHEEL_SIZE == s - c + WHEEL_SIZE - 1;
    }
  }

  // --- cascade_timer ----------------------------------------------------------

  /** A timer at or behind the clock lands in wheel 0 at the current tick's slot. */
  lemma CascadeClampsToCurrent(t: Timers, id: nat, key: nat, expiryMs: nat)
    requires expiryMs <= t.currentMs
    ensures var r := CascadeTimer(t, id, key, expiryMs);
      Slot(r, 0, t.currentMs % WHEEL_SIZE) == Slot(t, 0, t.currentMs % WHEEL_SIZE) + [SlotEntry(id, key)]
  {
  }

  /** Placing a timer keeps every live wheel-0 timer due by its slot's next tick. */
  lemma CascadeKeepsWheel0Sound(t: Timers, id: nat, key: nat, expiryMs: nat, startNs: nat)
    requires Wheel0Sound(t, startNs)
    requires Matches(t, SlotEntry(id, key)) ==>
      ExpiryMs(t.slab.entries[key].expiresAt, startNs) <= expiryMs
    ensures Wheel0Sound(CascadeTimer(t, id, key, expiryMs), startNs)
  {
    var r := CascadeTimer(t, id, key, expiryMs);
    var eff := Effective(t, expiryMs);
    var w := WheelFor(eff - t.currentMs);
    var s0 := SlotIndex(eff, w);
    forall s, j | 0 <= s < WHEEL_SIZE && 0 <= j < |Slot(r, 0, s)| && Matches(r, Slot(r, 0, s)[j])
      ensures ExpiryMs(r.slab.entries[Slot(r, 0, s)[j].key].expiresAt, startNs) <= NextHit(s, r.currentMs)
    {
      if w == 0 && s == s0 && j == |Slot(t, 0, s)| {
        assert Slot(r, 0, s)[j] == SlotEntry(id, key);
        NextHitOfPlacement(eff, t.currentMs);
      } else {
        assert Slot(r, 0, s)[j] == Slot(t, 0, s)[j];
      }
    }
  }

  lemma CascadeKeepsIdsFresh(t: Timers, id: nat, key: nat, expiryMs: nat)
    requires IdsFresh(t) && id < t.nextId
    ensures IdsFresh(CascadeTimer(t, id, key, expiryMs))
  {
    var r := CascadeTimer(t, id, key, expiryMs);
    forall w, s, j | 0 <= j < |Slot(r, w, s)|
      ensures Slot(r, w, s)[j].id < r.nextId
    {
      if j < |Slot(t, w, s)| {
        assert Slot(r, w, s)[j] == Slot(t, w, s)[j];
      }
    }
  }

  // --- insert -----------------------------------------------------------------

  /** After `insert(e)` the new timer is live under the returned id and a
      cached minimum is at most `e`; with `NextExpiry`'s contract this gives
      a next expiry of at most `e`. */
  lemma InsertNextExpiry(t: Timers, e: nat, startNs: nat)
    requires Valid(t, startNs)
    ensures var r := Insert(t, e, startNs);
      && r.1 in r.0.idToKey
      && r.0.idToKey[r.1] in r.0.slab.entries
      && r.0.slab.entries[r.0.idToKey[r.1]] == TimerEntry(r.1, e)
      && (r.0.minExpiryCache.Some? ==> r.0.minExpiryCache.value <= e)
      && |r.0.slab.entries| > 0
  {
    var r := Insert(t, e, startNs);
    var k := VacantKey(t.slab);
    assert k in r.0.slab.entries;
  }

  lemma StoreKeepsIndex(t: Timers, e: nat)
    requires SlabValid(t.slab) && IdMapSound(t) && IdsFresh(t)
    ensures var t1 := Store(Corrected, t, e);
      SlabValid(t1.slab) && IdMapSound(t1)
  {
    assert t.nextId !in t.idToKey;
  }

  lemma StoreKeepsIdsFresh(t: Timers, e: nat)
    requires IdsFresh(t)
    ensures IdsFresh(Store(Corrected, t, e))
  {
    var t1 := Store(Corrected, t, e);
    forall w, s, j | 0 <= j < |Slot(t1, w, s)|
      ensures Slot(t1, w, s)[j].id < t1.nextId
    {
      assert Slot(t1, w, s) == Slot(t, w, s);
    }
  }

  /** Stale slot entries on the reused key carry older ids, so the new timer
      does not make any of them live. */
  lemma StoreKeepsWheel0Sound(t: Timers, e: nat, startNs: nat)
    requires SlabValid(t.slab) && IdsFresh(t) && Wheel0Sound(t, startNs)
    ensures Wheel0Sound(Store(Corrected, t, e), startNs)
  {
    var t1 := Store(Corrected, t, e);
    var key := VacantKey(t.slab);
    forall s, j | 0 <= s < WHEEL_SIZE && 0 <= j < |Slot(t1, 0, s)| && Matches(t1, Slot(t1, 0, s)[j])
      ensures ExpiryMs(t1.slab.entries[Slot(t1, 0, s)[j].key].expiresAt, startNs) <= NextHit(s, t1.currentMs)
    {
      var se := Slot(t1, 0, s)[j];
      assert se == Slot(t, 0, s)[j];
      assert se.id < t.nextId;
      assert se.key != key;
    }
  }

  lemma StoreKeepsCacheSound(t: Timers, e: nat)
    requires SlabValid(t.slab) && CacheSound(t)
    ensures CacheSound(Store(Corrected, t, e))
  {
    var t1 := Store(Corrected, t, e);
    var key := VacantKey(t.slab);
    assert t1.slab.entries[key] == TimerEntry(t.nextId, e);
    match t.minExpiryCache
    case None =>
      if |t.slab.entries| == 0 {
        assert t.slab.entries == map[];
        assert t1.slab.entries == map[key := TimerEntry(t.nextId, e)];
      }
    case Some(m) =>
      var k0 :| k0 in t.slab.entries && t.slab.entries[k0].expiresAt == m;
      assert k0 != key && k0 in t1.slab.entries;
  }

  lemma InsertValid(t: Timers, e: nat, startNs: nat)
    requires Valid(t, startNs)
    ensures Valid(Insert(t, e, startNs).0, startNs)
  {
    var t1 := Store(Corrected, t, e);
    StoreKeepsIndex(t, e);
    StoreKeepsIdsFresh(t, e);
    StoreKeepsWheel0Sound(t, e, startNs);
    StoreKeepsCacheSound(t, e);
    CascadeKeepsWheel0Sound(t1, t.nextId, VacantKey(t.slab), ExpiryMs(e, startNs), startNs);
    CascadeKeepsIdsFresh(t1, t.nextId, VacantKey(t.slab), ExpiryMs(e, startNs));
    var r := InsertReach(t, e, startNs);
  }

  // --- cancel -----------------------------------------------------------------

  /** `cancel` keeps the wheel invariants: the stale slot entry it leaves
      behind no longer matches the slab. */
  lemma CancelKeepsWheelValid(t: Timers, id: nat, startNs: nat)
    requires WheelValid(t, startNs)
    ensures WheelValid(Cancel(t, id).0, startNs)
  {
    var r := Cancel(t, id);
    if id in t.idToKey {
      var key := t.idToKey[id];
      assert IdMapSound(r.0) by {
        forall k | k in r.0.slab.entries
          ensures r.0.slab.entries[k].id in r.0.idToKey && r.0.idToKey[r.0.slab.entries[k].id] == k
        {
          assert k != key;
          assert t.slab.entries[k].id != id;
        }
      }
      assert Wheel0Sound(r.0, startNs) by {
        forall s, j | 0 <= s < WHEEL_SIZE && 0 <= j < |Slot(r.0, 0, s)| && Matches(r.0, Slot(r.0, 0, s)[j])
          ensures ExpiryMs(r.0.slab.entries[Slot(r.0, 0, s)[j].key].expiresAt, startNs) <= NextHit(s, r.0.currentMs)
        {
          assert Slot(r.0, 0, s) == Slot(t, 0, s);
        }
      }
      assert IdsFresh(r.0) by {
        forall w, s, j | 0 <= j < |Slot(r.0, w, s)|
          ensures Slot(r.0, w, s)[j].id < r.0.nextId
        {
          assert Slot(r.0, w, s) == Slot(t, w, s);
        }
      }
    }
  }

  /** `cancel` answers true exactly for a live id, leaves the wheel valid, and
      a second cancel of the same id answers false. */
  lemma CancelSpec(t: Timers, id: nat, startNs: nat)
    requires Valid(t, startNs)
    ensures var r := Cancel(t, id);
      && (r.1 <==> id in t.idToKey)
      && (r.1 ==> r.0.slab.entries == t.slab.entries - {t.idToKey[id]})
      && (!r.1 ==> r.0 == t)
      && Valid(r.0, startNs)
      && !Cancel(r.0, id).1
  {
    CancelKeepsWheelValid(t, id, startNs);
    var reach := CancelReach(t, id, startNs);
  }

  // --- pop_expired --------------------------------------------------------------

  lemma Wheel0SoundShrink(t: Timers, t': Timers, startNs: nat)
    requires Wheel0Sound(t, startNs)
    requires t'.wheels == t.wheels && t'.currentMs == t.currentMs
    requires SubMap(t'.slab.entries, t.slab.entries)
    ensures Wheel0Sound(t', startNs)
  {
    forall s, j | 0 <= s < WHEEL_SIZE && 0 <= j < |Slot(t', 0, s)| && Matches(t', Slot(t', 0, s)[j])
      ensures ExpiryMs(t'.slab.entries[Slot(t', 0, s)[j].key].expiresAt, startNs) <= NextHit(s, t'.currentMs)
    {
      assert Slot(t', 0, s) == Slot(t, 0, s);
    }
  }

  /** One corrected claim keeps the slab and index in agreement, only shrinks
      them, and fires the live timer of the slot entry if there is one. */
  lemma FireOneSpec(t: Timers, e: SlotEntry)
    requires SlabValid(t.slab) && IdMapSound(t)
    ensures var r := FireOne(Corrected, t, e);
      && SlabValid(r.0.slab) && IdMapSound(r.0)
      && SubMap(r.0.slab.entries, t.slab.entries) && SubMap(r.0.idToKey, t.idToKey)
      && r.0.idToKey.Keys == t.idToKey.Keys - FiredIds(r.1)
      && (forall f :: f in r.1 ==> f.id in t.idToKey && t.slab.entries[t.idToKey[f.id]] == f)
      && (|r.1| == 0 ==> r.0 == t)
      && (Matches(t, e) ==> r.1 == [t.slab.entries[e.key]])
      && (!Matches(t, e) ==> r.1 == [])
  {
    var r := FireOne(Corrected, t, e);
    if Matches(t, e) {
      assert t.idToKey[e.id] == e.key;
      assert FiredIds(r.1) == {e.id};
      assert IdMapSound(r.0) by {
        forall k | k in r.0.slab.entries
          ensures r.0.slab.entries[k].id in r.0.idToKey && r.0.idToKey[r.0.slab.entries[k].id] == k
        {
          assert k != e.key;
        }
      }
    } else {
      assert FiredIds(r.1) == {};
    }
  }

  lemma {:induction false} FireAllSpec(t: Timers, es: seq<SlotEntry>)
    requires SlabValid(t.slab) && IdMapSound(t)
    ensures var r := FireAll(Corrected, t, es);
      && SlabValid(r.0.slab) && IdMapSound(r.0)
      && SubMap(r.0.slab.entries, t.slab.entries) && SubMap(r.0.idToKey, t.idToKey)
      && r.0.idToKey.Keys == t.idToKey.Keys - FiredIds(r.1)
      && (forall f :: f in r.1 ==> f.id in t.idToKey && t.slab.entries[t.idToKey[f.id]] == f)
      && (|r.1| == 0 ==> r.0 == t)
    decreases |es|
  {
    if |es| > 0 {
      var first := FireOne(Corrected, t, es[0]);
      FireOneSpec(t, es[0]);
      FireAllSpec(first.0, es[1..]);
      var rest := FireAll(Corrected, first.0, es[1..]);
      assert FireAll(Corrected, t, es) == (rest.0, first.1 + rest.1);
      FiringCompose(t, first.0, first.1, rest.0, rest.1);
    }
  }

  /** Two rounds of firing, each removing only live timers from the slab and
      the index, compose into one. */
  lemma FiringCompose(t: Timers, t1: Timers, f1: seq<TimerEntry>, t2: Timers, f2: seq<TimerEntry>)
    requires IdMapSound(t) && IdMapSound(t1)
    requires SubMap(t1.slab.entries, t.slab.entries) && SubMap(t1.idToKey, t.idToKey)
    requires t1.idToKey.Keys == t.idToKey.Keys - FiredIds(f1)
    requires forall f :: f in f1 ==> f.id in t.idToKey && t.slab.entries[t.idToKey[f.id]] == f
    requires SubMap(t2.slab.entries, t1.slab.entries) && SubMap(t2.idToKey, t1.idToKey)
    requires t2.idToKey.Keys == t1.idToKey.Keys - FiredIds(f2)
    requires forall f :: f in f2 ==> f.id in t1.idToKey && t1.slab.entries[t1.idToKey[f.id]] == f
    ensures SubMap(t2.slab.entries, t.slab.entries) && SubMap(t2.idToKey, t.idToKey)
    ensures t2.idToKey.Keys == t.idToKey.Keys - FiredIds(f1 + f2)
    ensures forall f :: f in f1 + f2 ==> f.id in t.idToKey && t.slab.entries[t.idToKey[f.id]] == f
  {
    assert FiredIds(f1 + f2) == FiredIds(f1) + FiredIds(f2);
  }

  /** Nothing fired from a batch is due after `bound` when no live entry of it is. */
  lemma {:induction false} FireAllBound(t: Timers, es: seq<SlotEntry>, startNs: nat, bound: nat)
    requires SlabValid(t.slab) && IdMapSound(t)
    requires forall j :: 0 <= j < |es| && Matches(t, es[j]) ==>
      ExpiryMs(t.slab.entries[es[j].key].expiresAt, startNs) <= bound
    ensures forall f :: f in FireAll(Corrected, t, es).1 ==> ExpiryMs(f.expiresAt, startNs) <= bound
    decreases |es|
  {
    if |es| > 0 {
      var first := FireOne(Corrected, t, es[0]);
      FireOneSpec(t, es[0]);
      forall j | 0 <= j < |es[1..]| && Matches(first.0, es[1..][j])
        ensures ExpiryMs(first.0.slab.entries[es[1..][j].key].expiresAt, startNs) <= bound
      {
        assert es[1..][j] == es[j + 1];
      }
      FireAllBound(first.0, es[1..], startNs, bound);
    }
  }

  lemma {:induction false} RecascadeKeeps(t: Timers, es: seq<SlotEntry>, startNs: nat)
    requires Wheel0Sound(t, startNs) && IdsFresh(t)
    requires forall j :: 0 <= j < |es| ==> es[j].id < t.nextId
    ensures Wheel0Sound(Recascade(Corrected, t, es, startNs), startNs)
    ensures IdsFresh(Recascade(Corrected, t, es, startNs))
    decreases |es|
  {
    if |es| > 0 {
      var e := es[0];
      var t1 := if Claims(Corrected, t, e) then
          CascadeTimer(t, e.id, e.key, ExpiryMs(t.slab.entries[e.key].expiresAt, startNs))
        else t;
      if Claims(Corrected, t, e) {
        CascadeKeepsWheel0Sound(t, e.id, e.key, ExpiryMs(t.slab.entries[e.key].expiresAt, startNs), startNs);
        CascadeKeepsIdsFresh(t, e.id, e.key, ExpiryMs(t.slab.entries[e.key].expiresAt, startNs));
      }
      forall j | 0 <= j < |es[1..]|
        ensures es[1..][j].id < t1.nextId
      {
        assert es[1..][j] == es[j + 1];
      }
      RecascadeKeeps(t1, es[1..], startNs);
    }
  }

  lemma RemoveSlotKeeps(t: Timers, w: nat, s: nat, startNs: nat)
    requires Wheel0Sound(t, startNs) && IdsFresh(t)
    ensures var t1 := t.(wheels := t.wheels - {(w, s)});
      Wheel0Sound(t1, startNs) && IdsFresh(t1)
      && (forall j :: 0 <= j < |Slot(t, w, s)| ==> Slot(t, w, s)[j].id < t1.nextId)
  {
    var t1 := t.(wheels := t.wheels - {(w, s)});
    forall w': nat, s': nat ensures Slot(t1, w', s') == if (w', s') == (w, s) then [] else Slot(t, w', s') {
    }
  }

  lemma {:induction false} CascadeUpperKeeps(t: Timers, i: nat, startNs: nat)
    requires 1 <= i <= WHEELS
    requires Wheel0Sound(t, startNs) && IdsFresh(t)
    ensures Wheel0Sound(CascadeUpper(Corrected, t, i, startNs), startNs)
    ensures IdsFresh(CascadeUpper(Corrected, t, i, startNs))
    decreases WHEELS - i
  {
    if i < WHEELS && t.currentMs % Span(i) == 0 {
      var s := (t.currentMs / Span(i)) % WHEEL_SIZE;
      var es := Slot(t, i, s);
      var t1 := t.(wheels := t.wheels - {(i, s)});
      RemoveSlotKeeps(t, i, s, startNs);
      RecascadeKeeps(t1, es, startNs);
      CascadeUpperKeeps(Recascade(Corrected, t1, es, startNs), i + 1, startNs);
    }
  }

  /** Once the processed slot is empty, advancing the clock keeps every live
      wheel-0 timer due by its slot's next tick. */
  lemma ClockStepKeeps(t: Timers, startNs: nat)
    requires Wheel0Sound(t, startNs) && IdsFresh(t)
    requires Slot(t, 0, t.currentMs % WHEEL_SIZE) == []
    ensures var t2 := t.(currentMs := t.currentMs + 1);
      Wheel0Sound(t2, startNs) && IdsFresh(t2)
  {
    var t2 := t.(currentMs := t.currentMs + 1);
    forall s, j | 0 <= s < WHEEL_SIZE && 0 <= j < |Slot(t2, 0, s)| && Matches(t2, Slot(t2, 0, s)[j])
      ensures ExpiryMs(t2.slab.entries[Slot(t2, 0, s)[j].key].expiresAt, startNs) <= NextHit(s, t2.currentMs)
    {
      assert Slot(t2, 0, s) == Slot(t, 0, s);
      NextHitStep(s, t.currentMs);
    }
    forall w, s, j | 0 <= j < |Slot(t2, w, s)|
      ensures Slot(t2, w, s)[j].id < t2.nextId
    {
      assert Slot(t2, w, s) == Slot(t, w, s);
    }
  }

  /** The firing half of a tick: the processed slot's live timers leave the
      slab and the index, none of them is due after the current tick, and the
      processed slot is left empty. */
  lemma TickFireSpec(t: Timers, startNs: nat)
    requires WheelValid(t, startNs)
    ensures var s := t.currentMs % WHEEL_SIZE;
      var fired := FireAll(Corrected, t.(wheels := t.wheels - {(0, s)}), Slot(t, 0, s));
      && WheelValid(fired.0, startNs)
      && Slot(fired.0, 0, s) == []
      && fired.0.currentMs == t.currentMs && fired.0.nextId == t.nextId
      && (forall f :: f in fired.1 ==> ExpiryMs(f.expiresAt, startNs) <= t.currentMs)
      && fired.0.idToKey.Keys == t.idToKey.Keys - FiredIds(fired.1)
      && (forall f :: f in fired.1 ==> f.id in t.idToKey && t.slab.entries[t.idToKey[f.id]] == f)
      && SubMap(fired.0.slab.entries, t.slab.entries) && SubMap(fired.0.idToKey, t.idToKey)
      && (|fired.1| == 0 ==> fired.0.slab == t.slab)
  {
    var s := t.currentMs % WHEEL_SIZE;
    var t1 := t.(wheels := t.wheels - {(0, s)});
    var es := Slot(t, 0, s);
    RemoveSlotKeeps(t, 0, s, startNs);
    FireAllSpec(t1, es);
    NextHitOfCurrent(t.currentMs);
    forall j | 0 <= j < |es| && Matches(t1, es[j])
      ensures ExpiryMs(t1.slab.entries[es[j].key].expiresAt, startNs) <= t.currentMs
    {
      assert Matches(t, Slot(t, 0, s)[j]);
    }
    FireAllBound(t1, es, startNs, t.currentMs);
    var fired := FireAll(Corrected, t1, es);
    Wheel0SoundShrink(t1, fired.0, startNs);
    assert Slot(fired.0, 0, s) == [];
    assert IdsFresh(fired.0) by {
      forall w, s', j | 0 <= j < |Slot(fired.0, w, s')|
        ensures Slot(fired.0, w, s')[j].id < fired.0.nextId
      {
        assert Slot(fired.0, w, s') == Slot(t1, w, s');
      }
    }
  }

  /** One corrected tick keeps the wheel valid, fires only timers due by the
      tick it processes, and fires exactly the live timers it removes. */
  lemma TickSpec(t: Timers, startNs: nat)
    requires WheelValid(t, startNs)
    ensures var r := Tick(Corrected, t, startNs);
      && WheelValid(r.0, startNs)
      && (forall f :: f in r.1 ==> ExpiryMs(f.expiresAt, startNs) <= t.currentMs)
      && r.0.idToKey.Keys == t.idToKey.Keys - FiredIds(r.1)
      && (forall f :: f in r.1 ==> f.id in t.idToKey && t.slab.entries[t.idToKey[f.id]] == f)
      && SubMap(r.0.slab.entries, t.slab.entries) && SubMap(r.0.idToKey, t.idToKey)
      && (|r.1| == 0 ==> r.0.slab == t.slab)
  {
    TickKeepsValid(t, startNs);
    TickFires(t, startNs);
  }

  /** A corrected tick keeps the wheel valid. */
  lemma TickKeepsValid(t: Timers, startNs: nat)
    requires WheelValid(t, startNs)
    ensures WheelValid(Tick(Corrected, t, startNs).0, startNs)
  {
    var f := TickFiredState(t, startNs);
    ClockStepKeeps(f, startNs);
    var t2 := f.(currentMs := t.currentMs + 1);
    CascadeUpperKeeps(t2, 1, startNs);
    SameIndexValid(f, Tick(Corrected, t, startNs).0, startNs);
  }

  /** The state between the firing half and the cascading half of a tick. */
  lemma TickFiredState(t: Timers, startNs: nat) returns (f: Timers)
    requires WheelValid(t, startNs)
    ensures WheelValid(f, startNs) && Slot(f, 0, f.currentMs % WHEEL_SIZE) == [] && f.currentMs == t.currentMs
    ensures Tick(Corrected, t, startNs).0 == CascadeUpper(Corrected, f.(currentMs := t.currentMs + 1), 1, startNs)
  {
    var s := t.currentMs % WHEEL_SIZE;
    f := FireAll(Corrected, t.(wheels := t.wheels - {(0, s)}), Slot(t, 0, s)).0;
    TickFireSpec(t, startNs);
  }

  /** What a corrected tick fires: only timers due by the tick it
      processes, each live before and gone from the index after. */
  lemma TickFires(t: Timers, startNs: nat)
    requires WheelValid(t, startNs)
    ensures var r := Tick(Corrected, t, startNs);
      && (forall f :: f in r.1 ==> ExpiryMs(f.expiresAt, startNs) <= t.currentMs)
      && r.0.idToKey.Keys == t.idToKey.Keys - FiredIds(r.1)
      && (forall f :: f in r.1 ==> f.id in t.idToKey && t.slab.entries[t.idToKey[f.id]] == f)
      && SubMap(r.0.slab.entries, t.slab.entries) && SubMap(r.0.idToKey, t.idToKey)
      && (|r.1| == 0 ==> r.0.slab == t.slab)
  {
    var s := t.currentMs % WHEEL_SIZE;
    var fired := FireAll(Corrected, t.(wheels := t.wheels - {(0, s)}), Slot(t, 0, s));
    TickFireSpec(t, startNs);
    var r := CascadeUpper(Corrected, fired.0.(currentMs := t.currentMs + 1), 1, startNs);
    assert Tick(Corrected, t, startNs) == (r, fired.1);
    assert r.slab == fired.0.slab && r.idToKey == fired.0.idToKey;
  }

  /** Wheels and clock moves that keep the slot invariants leave a valid
      slab and index valid. */
  lemma SameIndexValid(t: Timers, t': Timers, startNs: nat)
    requires SlabValid(t.slab) && IdMapSound(t)
    requires t'.slab == t.slab && t'.idToKey == t.idToKey
    requires IdsFresh(t') && Wheel0Sound(t', startNs)
    ensures WheelValid(t', startNs)
  {
  }

  lemma {:induction false} AdvanceSpec(t: Timers, target: nat, startNs: nat)
    requires WheelValid(t, startNs)
    ensures var r := Advance(Corrected, t, target, startNs);
      && WheelValid(r.0, startNs)
      && (forall f :: f in r.1 ==> ExpiryMs(f.expiresAt, startNs) <= target)
      && r.0.idToKey.Keys == t.idToKey.Keys - FiredIds(r.1)
      && (forall f :: f in r.1 ==> f.id in t.idToKey && t.slab.entries[t.idToKey[f.id]] == f)
      && SubMap(r.0.slab.entries, t.slab.entries) && SubMap(r.0.idToKey, t.idToKey)
      && (|r.1| == 0 ==> r.0.slab == t.slab)
    decreases target + 1 - t.currentMs
  {
    if t.currentMs <= target {
      var first := Tick(Corrected, t, startNs);
      TickSpec(t, startNs);
      AdvanceSpec(first.0, target, startNs);
      var rest := Advance(Corrected, first.0, target, startNs);
      assert Advance(Corrected, t, target, startNs) == (rest.0, first.1 + rest.1);
      FiringCompose(t, first.0, first.1, rest.0, rest.1);
    }
  }

  /** `pop_expired` on a valid wheel never fires a timer before its
      millisecond, returns only timers that were live and are now gone from
      the id index, clears the cache when anything fired, and keeps the
      wheel valid. Once `now` has caught up with the clock it also returns
      every live timer due by `now` and leaves none due behind. */
  lemma PopExpiredSpec(t: Timers, nowNs: nat, startNs: nat)
    requires Valid(t, startNs)
    ensures var r := PopExpired(t, nowNs, startNs);
      && Valid(r.0, startNs)
      && (forall f :: f in r.1 ==> ExpiryMs(f.expiresAt, startNs) <= ExpiryMs(nowNs, startNs))
      && (forall f :: f in r.1 ==> f.id in t.idToKey && f.id !in r.0.idToKey)
      && (forall f :: f in r.1 ==> t.slab.entries[t.idToKey[f.id]] == f)
      && r.0.idToKey.Keys == t.idToKey.Keys - FiredIds(r.1)
      && (|r.1| > 0 ==> r.0.minExpiryCache.None?)
      && (t.currentMs <= ExpiryMs(nowNs, startNs) ==>
            forall id :: DueBy(t, id, startNs, ExpiryMs(nowNs, startNs)) ==> id in FiredIds(r.1))
      && (t.currentMs <= ExpiryMs(nowNs, startNs) ==>
            forall id :: !DueBy(r.0, id, startNs, ExpiryMs(nowNs, startNs)))
  {
    var adv := Advance(Corrected, t, ExpiryMs(nowNs, startNs), startNs);
    AdvanceSpec(t, ExpiryMs(nowNs, startNs), startNs);
    PopExpiredComplete(t, nowNs, startNs);
    if |adv.1| == 0 {
      assert PopExpired(t, nowNs, startNs) == adv;
      assert adv.0.slab == t.slab && adv.0.minExpiryCache == t.minExpiryCache;
    } else {
      assert PopExpired(t, nowNs, startNs) == (adv.0.(minExpiryCache := None), adv.1);
      WheelValidIgnoresCache(adv.0, None, startNs);
    }
  }

  lemma WheelValidIgnoresCache(t: Timers, c: Option<nat>, startNs: nat)
    requires WheelValid(t, startNs)
    ensures WheelValid(t.(minExpiryCache := c), startNs)
  {
    var t1 := t.(minExpiryCache := c);
    forall w, s ensures Slot(t1, w, s) == Slot(t, w, s) {
    }
  }

  // ---------------------------------------------------------------------------
  // Completeness: every live timer is where the clock will find it in time
  // ---------------------------------------------------------------------------

  function Max(a: nat, b: nat): nat {
    if a < b then b else a
  }

  /** The first millisecond of the `Span(w)`-long block that contains `e`. */
  function BlockStart(e: nat, w: nat): nat
    requires w <= WHEELS
  {
    (e / Span(w)) * Span(w)
  }

  /** Where a timer due at `e` may sit while the clock reads `cur`: in a
      wheel-0 slot the clock reaches by `max(e, cur)`, or in the upper-wheel
      slot that is emptied at the start of `e`'s block, which is still ahead
      of the clock. While the boundary at `cur` is being cascaded, wheels
      from `i` up may also hold timers whose block starts at `cur` itself. */
  predicate Placed(w: nat, s: nat, e: nat, cur: nat, i: nat) {
    if w == 0 then s < WHEEL_SIZE && NextHit(s, cur) <= Max(e, cur)
    else
      && w < WHEELS && s == (e / Span(w)) % WHEEL_SIZE
      && (BlockStart(e, w) > cur || (i <= w && BlockStart(e, w) == cur))
  }

  /** Slot entry `x` of a timer due at `e` sits in some slot placed for it. */
  ghost predicate Findable(t: Timers, x: SlotEntry, e: nat, i: nat) {
    exists w: nat, s: nat :: x in Slot(t, w, s) && Placed(w, s, e, t.currentMs, i)
  }

  ghost predicate ReachFrom(t: Timers, startNs: nat, i: nat) {
    forall id :: id in t.idToKey && t.idToKey[id] in t.slab.entries ==>
      Findable(t, SlotEntry(id, t.idToKey[id]), ExpiryMs(t.slab.entries[t.idToKey[id]].expiresAt, startNs), i)
  }

  /** Every live timer has a slot entry the clock reaches by its deadline. */
  ghost predicate Reachable(t: Timers, startNs: nat) {
    ReachFrom(t, startNs, WHEELS)
  }

  /** Every slot keeps the entries it had (the wheels only gain entries). */
  ghost predicate Grows(t: Timers, r: Timers) {
    forall w, s, x :: x in Slot(t, w, s) ==> x in Slot(r, w, s)
  }

  // --- arithmetic of blocks ---------------------------------------------------

  lemma BlockStartBounds(e: nat, w: nat)
    requires w <= WHEELS
    ensures BlockStart(e, w) <= e < BlockStart(e, w) + Span(w)
    ensures BlockStart(e, w) / Span(w) == e / Span(w)
  {
    if w == 0 {
    } else if w == 1 {
    } else if w == 2 {
    } else if w == 3 {
    } else {
    }
  }

  /** A block of an upper wheel starts on a boundary of every lower upper wheel. */
  lemma BlockStartAligned(e: nat, w: nat, i: nat)
    requires 1 <= i <= w < WHEELS
    ensures BlockStart(e, w) % Span(i) == 0
  {
    var q := e / Span(w);
    if w == 1 {
    } else if w == 2 {
      if i == 1 { assert BlockStart(e, w) == 256 * (256 * q); }
    } else {
      if i == 1 { assert BlockStart(e, w) == 256 * (65536 * q); }
      if i == 2 { assert BlockStart(e, w) == 65536 * (256 * q); }
    }
  }

  /** The only wheel-0 slot the clock reaches now is the current tick's. */
  lemma NextHitNow(s: nat, cur: nat)
    requires s < WHEEL_SIZE && NextHit(s, cur) <= cur
    ensures s == cur % WHEEL_SIZE
  {
  }

  /** A placement good from `j` on is good from any earlier wheel on. */
  lemma PlacedWeaken(w: nat, s: nat, e: nat, cur: nat, i: nat, j: nat)
    requires i <= j && Placed(w, s, e, cur, j)
    ensures Placed(w, s, e, cur, i)
  {
  }

  /** A timer in an upper wheel is not due before its block starts. */
  lemma PlacedUpperNotDue(w: nat, s: nat, e: nat, cur: nat, i: nat)
    requires w > 0 && Placed(w, s, e, cur, i)
    ensures e >= cur
    ensures i == WHEELS ==> e > cur
  {
    BlockStartBounds(e, w);
  }

  /** Once the processed wheel-0 slot is empty, advancing the clock keeps
      every placement, with the new boundary pending for the upper wheels. */
  lemma ClockStepPlaced(w: nat, s: nat, e: nat, cur: nat)
    requires Placed(w, s, e, cur, WHEELS) && !(w == 0 && s == cur % WHEEL_SIZE)
    ensures Placed(w, s, e, cur + 1, 1)
  {
    if w == 0 {
      NextHitStep(s, cur);
    }
  }

  /** The cascade check stops at wheel `i`: nothing can be pending from `i` up. */
  lemma StopPlaced(w: nat, s: nat, e: nat, cur: nat, i: nat)
    requires 1 <= i < WHEELS && cur % Span(i) != 0 && Placed(w, s, e, cur, i)
    ensures Placed(w, s, e, cur, WHEELS)
  {
    if w > 0 && BlockStart(e, w) == cur && i <= w {
      BlockStartAligned(e, w, i);
    }
  }

  /** Cascading slot `(cur >> 8i) & 255` of wheel `i` settles every other
      placement pending at wheel `i`. */
  lemma KeptPlaced(w: nat, s: nat, e: nat, cur: nat, i: nat)
    requires 1 <= i < WHEELS && Placed(w, s, e, cur, i)
    requires !(w == i && s == (cur / Span(i)) % WHEEL_SIZE)
    ensures Placed(w, s, e, cur, i + 1)
  {
    if w == i && BlockStart(e, w) == cur {
      BlockStartBounds(e, w);
    }
  }

  // --- cascade_timer places a timer where the clock finds it in time -----------

  lemma CascadePlaced(t: Timers, id: nat, key: nat, e: nat) returns (w: nat, s: nat)
    ensures SlotEntry(id, key) in Slot(CascadeTimer(t, id, key, e), w, s)
    ensures Placed(w, s, e, t.currentMs, WHEELS)
    ensures Grows(t, CascadeTimer(t, id, key, e))
  {
    var cur := t.currentMs;
    var eff := Effective(t, e);
    w := WheelFor(eff - cur);
    s := SlotIndex(eff, w);
    var r := CascadeTimer(t, id, key, e);
    assert Slot(r, w, s) == Slot(t, w, s) + [SlotEntry(id, key)];
    if w == 0 {
      if e < cur {
        NextHitOfCurrent(cur);
      } else {
        NextHitOfPlacement(e, cur);
      }
    } else {
      BlockStartBounds(e, w);
    }
    forall w': nat, s': nat, x | x in Slot(t, w', s')
      ensures x in Slot(r, w', s')
    {
      if (w', s') == (w, s) {
        assert Slot(r, w', s') == Slot(t, w', s') + [SlotEntry(id, key)];
      } else {
        assert Slot(r, w', s') == Slot(t, w', s');
      }
    }
  }

  // --- firing and cascading keep every live timer findable ---------------------

  /** Draining a slot only takes ids out of the index. */
  lemma {:induction false} FireAllShrinks(t: Timers, es: seq<SlotEntry>)
    ensures forall id :: id in FireAll(Corrected, t, es).0.idToKey ==> id in t.idToKey
    decreases |es|
  {
    if |es| > 0 {
      FireAllShrinks(FireOne(Corrected, t, es[0]).0, es[1..]);
    }
  }

  /** Draining a slot fires every entry in it that still refers to a live
      timer: each such timer leaves the index. */
  lemma {:induction false} FireAllComplete(t: Timers, es: seq<SlotEntry>)
    ensures forall j :: 0 <= j < |es| && Matches(t, es[j]) ==>
      es[j].id !in FireAll(Corrected, t, es).0.idToKey
    decreases |es|
  {
    if |es| > 0 {
      var first := FireOne(Corrected, t, es[0]);
      FireAllShrinks(first.0, es[1..]);
      FireAllComplete(first.0, es[1..]);
      var r := FireAll(Corrected, t, es);
      assert r.0 == FireAll(Corrected, first.0, es[1..]).0;
      forall j | 0 <= j < |es| && Matches(t, es[j])
        ensures es[j].id !in r.0.idToKey
      {
        if j > 0 && es[j].id in first.0.idToKey {
          assert es[1..][j - 1] == es[j];
          assert Matches(first.0, es[j]);
        }
      }
    }
  }

  /** `re_cascade` over a slot's entries places each live one where the clock
      finds it in time, and keeps every other entry where it was. */
  lemma {:induction false} RecascadeReach(t: Timers, es: seq<SlotEntry>, startNs: nat)
    ensures Grows(t, Recascade(Corrected, t, es, startNs))
    ensures forall j :: 0 <= j < |es| && Matches(t, es[j]) ==>
      Findable(Recascade(Corrected, t, es, startNs), es[j],
        ExpiryMs(t.slab.entries[es[j].key].expiresAt, startNs), WHEELS)
    decreases |es|
  {
    if |es| > 0 {
      var e := es[0];
      var r := Recascade(Corrected, t, es, startNs);
      var t1 := if Claims(Corrected, t, e) then
          CascadeTimer(t, e.id, e.key, ExpiryMs(t.slab.entries[e.key].expiresAt, startNs))
        else t;
      assert r == Recascade(Corrected, t1, es[1..], startNs);
      RecascadeReach(t1, es[1..], startNs);
      if Claims(Corrected, t, e) {
        var w, s := CascadePlaced(t, e.id, e.key, ExpiryMs(t.slab.entries[e.key].expiresAt, startNs));
        assert e in Slot(r, w, s);
      }
      forall j | 0 < j < |es| && Matches(t, es[j])
        ensures Findable(r, es[j], ExpiryMs(t.slab.entries[es[j].key].expiresAt, startNs), WHEELS)
      {
        assert es[1..][j - 1] == es[j];
      }
    }
  }

  /** The boundary cascade after a tick settles every pending placement: a
      state findable from wheel `i` on becomes fully reachable. */
  lemma {:induction false} CascadeUpperReach(t: Timers, i: nat, startNs: nat) returns (r: Timers)
    requires 1 <= i <= WHEELS && IdMapSound(t) && ReachFrom(t, startNs, i)
    ensures r == CascadeUpper(Corrected, t, i, startNs) && Reachable(r, startNs)
    decreases WHEELS - i, 1
  {
    if i == WHEELS || t.currentMs % Span(i) != 0 {
      CascadeStopReach(t, i, startNs);
      r := t;
    } else {
      r := CascadeCrossReach(t, i, startNs);
    }
  }

  /** The boundary of wheel `i` was crossed: its slot is re-cascaded and the
      check goes on with the next wheel. */
  lemma {:induction false} CascadeCrossReach(t: Timers, i: nat, startNs: nat) returns (r: Timers)
    requires 1 <= i < WHEELS && t.currentMs % Span(i) == 0
    requires IdMapSound(t) && ReachFrom(t, startNs, i)
    ensures r == CascadeUpper(Corrected, t, i, startNs) && Reachable(r, startNs)
    decreases WHEELS - i, 0
  {
    var t2 := CascadeStepReach(t, i, startNs);
    r := CascadeUpperReach(t2, i + 1, startNs);
  }

  /** The cascade check stops at a wheel whose boundary was not crossed:
      then nothing is pending from that wheel up. */
  lemma CascadeStopReach(t: Timers, i: nat, startNs: nat)
    requires 1 <= i <= WHEELS && (i == WHEELS || t.currentMs % Span(i) != 0) && ReachFrom(t, startNs, i)
    ensures CascadeUpper(Corrected, t, i, startNs) == t
    ensures Reachable(t, startNs)
  {
    forall id | id in t.idToKey && t.idToKey[id] in t.slab.entries
      ensures Findable(t, SlotEntry(id, t.idToKey[id]), ExpiryMs(t.slab.entries[t.idToKey[id]].expiresAt, startNs), WHEELS)
    {
      var e := ExpiryMs(t.slab.entries[t.idToKey[id]].expiresAt, startNs);
      var w: nat, s: nat :| SlotEntry(id, t.idToKey[id]) in Slot(t, w, s) && Placed(w, s, e, t.currentMs, i);
      if i < WHEELS {
        StopPlaced(w, s, e, t.currentMs, i);
      }
    }
  }

  /** Emptying the boundary slot of wheel `i` and re-cascading its entries
      leaves nothing pending at wheel `i`. */
  lemma CascadeStepReach(t: Timers, i: nat, startNs: nat) returns (t2: Timers)
    requires 1 <= i < WHEELS && t.currentMs % Span(i) == 0
    requires IdMapSound(t) && ReachFrom(t, startNs, i)
    ensures IdMapSound(t2) && ReachFrom(t2, startNs, i + 1)
    ensures CascadeUpper(Corrected, t, i, startNs) == CascadeUpper(Corrected, t2, i + 1, startNs)
  {
    var si := (t.currentMs / Span(i)) % WHEEL_SIZE;
    var es := Slot(t, i, si);
    var t1 := t.(wheels := t.wheels - {(i, si)});
    t2 := Recascade(Corrected, t1, es, startNs);
    RecascadeReach(t1, es, startNs);
    forall id | id in t2.idToKey && t2.idToKey[id] in t2.slab.entries
      ensures Findable(t2, SlotEntry(id, t2.idToKey[id]), ExpiryMs(t2.slab.entries[t2.idToKey[id]].expiresAt, startNs), i + 1)
    {
      var x := SlotEntry(id, t.idToKey[id]);
      var e := ExpiryMs(t.slab.entries[t.idToKey[id]].expiresAt, startNs);
      var w: nat, s: nat :| x in Slot(t, w, s) && Placed(w, s, e, t.currentMs, i);
      if (w, s) == (i, si) {
        var j :| 0 <= j < |es| && es[j] == x;
        assert Matches(t1, es[j]);
        var w2: nat, s2: nat :| x in Slot(t2, w2, s2) && Placed(w2, s2, e, t.currentMs, WHEELS);
        PlacedWeaken(w2, s2, e, t.currentMs, i + 1, WHEELS);
      } else {
        assert Slot(t1, w, s) == Slot(t, w, s);
        KeptPlaced(w, s, e, t.currentMs, i);
      }
    }
  }

  /** The firing half of a tick, then the clock step: every timer still live
      is findable again once the boundary at the new tick is cascaded. */
  lemma FiredReach(t: Timers, startNs: nat) returns (t2: Timers)
    requires WheelValid(t, startNs) && Reachable(t, startNs)
    ensures IdMapSound(t2) && ReachFrom(t2, startNs, 1)
    ensures Tick(Corrected, t, startNs).0 == CascadeUpper(Corrected, t2, 1, startNs)
  {
    var f := FiredState(t);
    t2 := f.(currentMs := t.currentMs + 1);
    assert IdMapSound(t2) by {
      assert t2.idToKey == f.idToKey && t2.slab == f.slab;
    }
    AllStillFindable(t, f, startNs);
  }

  /** After the firing half, every timer still live is findable one tick
      later, pending the cascade. */
  lemma AllStillFindable(t: Timers, f: Timers, startNs: nat)
    requires IdMapSound(t) && Reachable(t, startNs)
    requires f.wheels == t.wheels - {(0, t.currentMs % WHEEL_SIZE)} && f.currentMs == t.currentMs
    requires SubMap(f.idToKey, t.idToKey) && SubMap(f.slab.entries, t.slab.entries)
    requires forall x :: x in Slot(t, 0, t.currentMs % WHEEL_SIZE) && Matches(t, x) ==> x.id !in f.idToKey
    ensures ReachFrom(f.(currentMs := t.currentMs + 1), startNs, 1)
  {
    var t2 := f.(currentMs := t.currentMs + 1);
    forall id | id in t2.idToKey && t2.idToKey[id] in t2.slab.entries
      ensures Findable(t2, SlotEntry(id, t2.idToKey[id]), ExpiryMs(t2.slab.entries[t2.idToKey[id]].expiresAt, startNs), 1)
    {
      StillFindable(t, f, id, startNs);
    }
  }

  /** The state after a tick's firing half: the processed slot is gone, the
      slab and the index only shrank, and every live timer the slot named was
      fired. */
  lemma FiredState(t: Timers) returns (f: Timers)
    requires SlabValid(t.slab) && IdMapSound(t)
    ensures var s0 := t.currentMs % WHEEL_SIZE;
      && f == FireAll(Corrected, t.(wheels := t.wheels - {(0, s0)}), Slot(t, 0, s0)).0
      && IdMapSound(f)
      && f.wheels == t.wheels - {(0, s0)} && f.currentMs == t.currentMs
      && SubMap(f.idToKey, t.idToKey) && SubMap(f.slab.entries, t.slab.entries)
      && forall x :: x in Slot(t, 0, s0) && Matches(t, x) ==> x.id !in f.idToKey
  {
    var s0 := t.currentMs % WHEEL_SIZE;
    var t1 := t.(wheels := t.wheels - {(0, s0)});
    var es := Slot(t, 0, s0);
    f := FireAll(Corrected, t1, es).0;
    FireAllSpec(t1, es);
    FireAllComplete(t1, es);
    forall x | x in es && Matches(t, x)
      ensures x.id !in f.idToKey
    {
      var j :| 0 <= j < |es| && es[j] == x;
      assert Matches(t1, es[j]);
    }
  }

  /** A timer that survived the firing half was not in the processed slot,
      so its placement carries over to the next tick. */
  lemma StillFindable(t: Timers, f: Timers, id: nat, startNs: nat)
    requires IdMapSound(t) && Reachable(t, startNs)
    requires f.wheels == t.wheels - {(0, t.currentMs % WHEEL_SIZE)} && f.currentMs == t.currentMs
    requires SubMap(f.idToKey, t.idToKey) && SubMap(f.slab.entries, t.slab.entries)
    requires forall x :: x in Slot(t, 0, t.currentMs % WHEEL_SIZE) && Matches(t, x) ==> x.id !in f.idToKey
    requires id in f.idToKey && f.idToKey[id] in f.slab.entries
    ensures Findable(f.(currentMs := t.currentMs + 1), SlotEntry(id, f.idToKey[id]),
      ExpiryMs(f.slab.entries[f.idToKey[id]].expiresAt, startNs), 1)
  {
    var k := f.idToKey[id];
    var x := SlotEntry(id, k);
    var e := ExpiryMs(t.slab.entries[k].expiresAt, startNs);
    assert t.idToKey[id] == k && t.slab.entries[k] == f.slab.entries[k];
    var w: nat, s: nat :| x in Slot(t, w, s) && Placed(w, s, e, t.currentMs, WHEELS);
    assert Matches(t, x);
    CarryPlacement(t, f.(currentMs := t.currentMs + 1), x, w, s, e);
  }

  lemma CarryPlacement(t: Timers, t2: Timers, x: SlotEntry, w: nat, s: nat, e: nat)
    requires x in Slot(t, w, s) && Placed(w, s, e, t.currentMs, WHEELS)
    requires (w, s) != (0, t.currentMs % WHEEL_SIZE)
    requires t2.wheels == t.wheels - {(0, t.currentMs % WHEEL_SIZE)} && t2.currentMs == t.currentMs + 1
    ensures Findable(t2, x, e, 1)
  {
    assert Slot(t2, w, s) == Slot(t, w, s);
    ClockStepPlaced(w, s, e, t.currentMs);
  }

  /** A corrected tick keeps every live timer findable. */
  lemma TickReach(t: Timers, startNs: nat) returns (r: Timers)
    requires WheelValid(t, startNs) && Reachable(t, startNs)
    ensures r == Tick(Corrected, t, startNs).0 && Reachable(r, startNs)
  {
    var t2 := FiredReach(t, startNs);
    r := CascadeUpperReach(t2, 1, startNs);
  }

  /** A live timer due by `target` milliseconds. */
  ghost predicate DueBy(t: Timers, id: nat, startNs: nat, target: nat) {
    && id in t.idToKey && t.idToKey[id] in t.slab.entries
    && ExpiryMs(t.slab.entries[t.idToKey[id]].expiresAt, startNs) <= target
  }

  /** A timer already due when the clock reads `cur` sits in the slot
      processed at `cur`. */
  lemma DuePlacedNow(w: nat, s: nat, e: nat, cur: nat)
    requires Placed(w, s, e, cur, WHEELS) && e <= cur
    ensures w == 0 && s == cur % WHEEL_SIZE
  {
    if w > 0 {
      PlacedUpperNotDue(w, s, e, cur, WHEELS);
    } else {
      NextHitNow(s, cur);
    }
  }

  /** A corrected tick fires every live timer that is due by the tick it
      processes. */
  lemma TickFiresDue(t: Timers, id: nat, startNs: nat)
    requires WheelValid(t, startNs) && Reachable(t, startNs)
    requires DueBy(t, id, startNs, t.currentMs)
    ensures id !in Tick(Corrected, t, startNs).0.idToKey
  {
    var f := FiredState(t);
    var k := t.idToKey[id];
    var x := SlotEntry(id, k);
    var e := ExpiryMs(t.slab.entries[k].expiresAt, startNs);
    var w: nat, s: nat :| x in Slot(t, w, s) && Placed(w, s, e, t.currentMs, WHEELS);
    DuePlacedNow(w, s, e, t.currentMs);
    assert Matches(t, x);
    var r := CascadeUpper(Corrected, f.(currentMs := t.currentMs + 1), 1, startNs);
    assert Tick(Corrected, t, startNs).0 == r;
  }

  /** Ticking only takes ids out of the index. */
  lemma {:induction false} AdvanceShrinks(t: Timers, target: nat, startNs: nat)
    ensures forall id :: id in Advance(Corrected, t, target, startNs).0.idToKey ==> id in t.idToKey
    decreases target + 1 - t.currentMs
  {
    if t.currentMs <= target {
      var s0 := t.currentMs % WHEEL_SIZE;
      FireAllShrinks(t.(wheels := t.wheels - {(0, s0)}), Slot(t, 0, s0));
      AdvanceShrinks(Tick(Corrected, t, startNs).0, target, startNs);
    }
  }

  /** Advancing the clock keeps every live timer findable. */
  lemma {:induction false} AdvanceReach(t: Timers, target: nat, startNs: nat) returns (r: Timers)
    requires WheelValid(t, startNs) && Reachable(t, startNs)
    ensures r == Advance(Corrected, t, target, startNs).0 && Reachable(r, startNs)
    decreases target + 1 - t.currentMs
  {
    if t.currentMs > target {
      r := t;
    } else {
      var t1 := TickReach(t, startNs);
      TickKeepsValid(t, startNs);
      r := AdvanceReach(t1, target, startNs);
    }
  }

  /** Advancing the clock to `target` fires every live timer due by then. */
  lemma {:induction false} AdvanceComplete(t: Timers, target: nat, startNs: nat)
    requires WheelValid(t, startNs) && Reachable(t, startNs)
    ensures t.currentMs <= target ==> forall id :: DueBy(t, id, startNs, target) ==>
      id !in Advance(Corrected, t, target, startNs).0.idToKey
    decreases target + 1 - t.currentMs
  {
    if t.currentMs <= target {
      var t1 := TickReach(t, startNs);
      TickKeepsValid(t, startNs);
      TickFires(t, startNs);
      AdvanceComplete(t1, target, startNs);
      AdvanceShrinks(t1, target, startNs);
      var r := Advance(Corrected, t1, target, startNs).0;
      assert Advance(Corrected, t, target, startNs).0 == r;
      forall id | DueBy(t, id, startNs, target)
        ensures id !in r.idToKey
      {
        if DueBy(t, id, startNs, t.currentMs) {
          TickFiresDue(t, id, startNs);
        } else if id in t1.idToKey {
          assert DueBy(t1, id, startNs, target);
        }
      }
    }
  }

  /** A timer whose slab key and entry are unchanged keeps its placement
      when the wheels only gained entries and the clock did not move. */
  lemma FrameFindable(t: Timers, r: Timers, id: nat, startNs: nat)
    requires Reachable(t, startNs) && Grows(t, r) && r.currentMs == t.currentMs
    requires id in r.idToKey && r.idToKey[id] in r.slab.entries
    requires id in t.idToKey && t.idToKey[id] == r.idToKey[id] && t.idToKey[id] in t.slab.entries
    requires t.slab.entries[t.idToKey[id]] == r.slab.entries[r.idToKey[id]]
    ensures Findable(r, SlotEntry(id, r.idToKey[id]), ExpiryMs(r.slab.entries[r.idToKey[id]].expiresAt, startNs), WHEELS)
  {
    var x := SlotEntry(id, r.idToKey[id]);
    var e := ExpiryMs(r.slab.entries[r.idToKey[id]].expiresAt, startNs);
    var w: nat, s: nat :| x in Slot(t, w, s) && Placed(w, s, e, t.currentMs, WHEELS);
    assert x in Slot(r, w, s);
  }

  /** The corrected insert places the new timer where the clock finds it and
      leaves every other timer findable. */
  lemma InsertReach(t: Timers, e: nat, startNs: nat) returns (r: Timers)
    requires SlabValid(t.slab) && IdMapSound(t) && Reachable(t, startNs)
    ensures r == Insert(t, e, startNs).0 && Reachable(r, startNs)
  {
    var t1 := Store(Corrected, t, e);
    var key := VacantKey(t.slab);
    r := CascadeTimer(t1, t.nextId, key, ExpiryMs(e, startNs));
    var w, s := CascadePlaced(t1, t.nextId, key, ExpiryMs(e, startNs));
    assert Grows(t, r) by {
      forall w': nat, s': nat, x | x in Slot(t, w', s')
        ensures x in Slot(r, w', s')
      {
        assert Slot(t1, w', s') == Slot(t, w', s');
      }
    }
    forall id | id in r.idToKey && r.idToKey[id] in r.slab.entries
      ensures Findable(r, SlotEntry(id, r.idToKey[id]), ExpiryMs(r.slab.entries[r.idToKey[id]].expiresAt, startNs), WHEELS)
    {
      if id == t.nextId {
        assert r.slab.entries[key] == TimerEntry(t.nextId, e);
        assert SlotEntry(id, key) in Slot(r, w, s);
      } else {
        FrameFindable(t, r, id, startNs);
      }
    }
  }

  /** `cancel` leaves every other timer findable. */
  lemma CancelReach(t: Timers, id: nat, startNs: nat) returns (r: Timers)
    requires IdMapSound(t) && Reachable(t, startNs)
    ensures r == Cancel(t, id).0 && Reachable(r, startNs)
  {
    r := Cancel(t, id).0;
    forall id' | id' in r.idToKey && r.idToKey[id'] in r.slab.entries
      ensures Findable(r, SlotEntry(id', r.idToKey[id']), ExpiryMs(r.slab.entries[r.idToKey[id']].expiresAt, startNs), WHEELS)
    {
      FrameFindable(t, r, id', startNs);
    }
  }

  lemma ReachIgnoresCache(t: Timers, c: Option<nat>, startNs: nat)
    requires Reachable(t, startNs)
    ensures Reachable(t.(minExpiryCache := c), startNs)
  {
    var t1 := t.(minExpiryCache := c);
    forall w, s ensures Slot(t1, w, s) == Slot(t, w, s) {
    }
  }

  /** Advancing the clock to `target` returns every live timer due by then. */
  lemma AdvanceFiresDue(t: Timers, target: nat, startNs: nat)
    requires WheelValid(t, startNs) && Reachable(t, startNs) && t.currentMs <= target
    ensures var r := Advance(Corrected, t, target, startNs);
      forall id :: DueBy(t, id, startNs, target) ==> id in FiredIds(r.1)
  {
    AdvanceSpec(t, target, startNs);
    AdvanceComplete(t, target, startNs);
  }

  /** After advancing the clock to `target`, no live timer is due by then. */
  lemma AdvanceLeavesNoneDue(t: Timers, target: nat, startNs: nat)
    requires WheelValid(t, startNs) && Reachable(t, startNs) && t.currentMs <= target
    ensures var r := Advance(Corrected, t, target, startNs).0;
      forall id :: id in r.idToKey && r.idToKey[id] in r.slab.entries ==>
        ExpiryMs(r.slab.entries[r.idToKey[id]].expiresAt, startNs) > target
  {
    AdvanceSpec(t, target, startNs);
    AdvanceComplete(t, target, startNs);
  }

  /** Once `now` has caught up with the clock, `pop_expired` returns every
      live timer due by `now` and leaves none behind; every timer stays
      findable. */
  lemma PopExpiredComplete(t: Timers, nowNs: nat, startNs: nat)
    requires WheelValid(t, startNs) && Reachable(t, startNs)
    ensures var r := PopExpired(t, nowNs, startNs);
      var target := ExpiryMs(nowNs, startNs);
      && Reachable(r.0, startNs)
      && (t.currentMs <= target ==> forall id :: DueBy(t, id, startNs, target) ==> id in FiredIds(r.1))
      && (t.currentMs <= target ==> forall id :: id in r.0.idToKey && r.0.idToKey[id] in r.0.slab.entries ==>
            ExpiryMs(r.0.slab.entries[r.0.idToKey[id]].expiresAt, startNs) > target)
  {
    var target := ExpiryMs(nowNs, startNs);
    var adv := AdvanceReach(t, target, startNs);
    var fired := Advance(Corrected, t, target, startNs).1;
    if t.currentMs <= target {
      AdvanceFiresDue(t, target, startNs);
      AdvanceLeavesNoneDue(t, target, startNs);
    }
    if |fired| == 0 {
      assert PopExpired(t, nowNs, startNs) == (adv, fired);
    } else {
      assert PopExpired(t, nowNs, startNs) == (adv.(minExpiryCache := None), fired);
      ReachIgnoresCache(adv, None, startNs);
    }
  }

  // ---------------------------------------------------------------------------
  // The source as written
  // ---------------------------------------------------------------------------

  /** Insert 10 ns and 20 ns timers, cancel the second and insert a 30 ns
      timer: as written the cache now holds 30 while the 10 ns timer is still
      live, so `next_expiry` reports a deadline 20 ns too late. */
  lemma StaleCacheAsWritten()
    ensures var a := InsertWith(AsWritten, New(), 10, 0);
      var b := InsertWith(AsWritten, a.0, 20, 0);
      var c := Cancel(b.0, b.1);
      var d := InsertWith(AsWritten, c.0, 30, 0);
      && d.0.minExpiryCache == Some(30)
      && a.1 in d.0.idToKey
      && d.0.idToKey[a.1] in d.0.slab.entries
      && d.0.slab.entries[d.0.idToKey[a.1]].expiresAt == 10
      && !CacheSound(d.0)
  {
    var a := InsertWith(AsWritten, New(), 10, 0);
    StaleCacheFirstTwo();
    var b := InsertWith(AsWritten, a.0, 20, 0);
    assert a.1 == 1 && b.1 == 2;
    StaleCacheLastTwo(b.0);
    var c := Cancel(b.0, b.1);
    var d := InsertWith(AsWritten, c.0, 30, 0);
    assert d.0.minExpiryCache == Some(30);
    assert !CacheSound(d.0);
  }

  lemma StaleCacheFirstTwo()
    ensures var a := InsertWith(AsWritten, New(), 10, 0);
      var b := InsertWith(AsWritten, a.0, 20, 0);
      && a.1 == 1 && b.1 == 2 && b.0.nextId == 3
      && b.0.slab == Slab(map[0 := TimerEntry(1, 10), 1 := TimerEntry(2, 20)], [], 2)
      && b.0.idToKey == map[1 := 0, 2 := 1]
  {
    var a := InsertWith(AsWritten, New(), 10, 0);
    assert a.0.slab == Slab(map[0 := TimerEntry(1, 10)], [], 1);
    assert a.0.idToKey == map[1 := 0];
  }

  lemma StaleCacheLastTwo(b: Timers)
    requires b.nextId == 3 && b.idToKey == map[1 := 0, 2 := 1]
    requires b.slab == Slab(map[0 := TimerEntry(1, 10), 1 := TimerEntry(2, 20)], [], 2)
    ensures var c := Cancel(b, 2);
      var d := InsertWith(AsWritten, c.0, 30, 0);
      && d.0.minExpiryCache == Some(30)
      && 1 in d.0.idToKey
      && d.0.idToKey[1] in d.0.slab.entries
      && d.0.slab.entries[d.0.idToKey[1]].expiresAt == 10
      && !CacheSound(d.0)
  {
    StaleCacheCancel(b);
    var c := Cancel(b, 2);
    var st := Store(AsWritten, c.0, 30);
    StaleCacheStore(c.0);
    var d := InsertWith(AsWritten, c.0, 30, 0);
    assert d.0 == st.(wheels := d.0.wheels);
    assert !CacheSound(d.0) by {
      assert d.0.slab.entries[0].expiresAt == 10;
    }
  }

  lemma StaleCacheCancel(b: Timers)
    requires b.idToKey == map[1 := 0, 2 := 1]
    requires b.slab == Slab(map[0 := TimerEntry(1, 10), 1 := TimerEntry(2, 20)], [], 2)
    ensures Cancel(b, 2).0 == b.(slab := Slab(map[0 := TimerEntry(1, 10)], [1], 2), idToKey := map[1 := 0], minExpiryCache := None)
  {
    assert b.idToKey[2] == 1;
    assert b.idToKey - {2} == map[1 := 0];
    assert b.slab.entries - {1} == map[0 := TimerEntry(1, 10)];
  }

  lemma StaleCacheStore(c: Timers)
    requires c.nextId == 3 && c.idToKey == map[1 := 0] && c.minExpiryCache == None
    requires c.slab == Slab(map[0 := TimerEntry(1, 10)], [1], 2)
    ensures var st := Store(AsWritten, c, 30);
      && st.slab.entries == map[0 := TimerEntry(1, 10), 1 := TimerEntry(3, 30)]
      && st.idToKey == map[1 := 0, 3 := 1] && st.minExpiryCache == Some(30)
  {
    assert VacantKey(c.slab) == 1;
  }

  /** Insert a timer due at 0 ms, cancel it and insert one due at 5 ms: the
      second reuses the first's slab key, and as written popping at 0 ms finds
      the first timer's stale slot entry and fires the 5 ms timer, whose id
      stays in the index afterwards. */
  lemma EarlyFireAsWritten()
    ensures var a := InsertWith(AsWritten, New(), 0, 0);
      var c := Cancel(a.0, a.1);
      var b := InsertWith(AsWritten, c.0, 5 * PRECISION_NS, 0);
      var p := PopExpiredWith(AsWritten, b.0, 0, 0);
      && p.1 == [TimerEntry(b.1, 5 * PRECISION_NS)]
      && ExpiryMs(p.1[0].expiresAt, 0) > ExpiryMs(0, 0)
      && b.1 in p.0.idToKey
  {
    var a := InsertWith(AsWritten, New(), 0, 0);
    EarlyFirstInsert(AsWritten);
    EarlyCancelAndReuse(AsWritten, a.0);
    var c := Cancel(a.0, a.1);
    var b := InsertWith(AsWritten, c.0, 5 * PRECISION_NS, 0);
    EarlyPopAsWritten(b.0);
    assert ExpiryMs(5 * PRECISION_NS, 0) == 5;
  }

  lemma EarlyFirstInsert(v: Variant)
    ensures var a := InsertWith(v, New(), 0, 0);
      && a.1 == 1 && a.0.nextId == 2 && a.0.currentMs == 0
      && a.0.slab == Slab(map[0 := TimerEntry(1, 0)], [], 1)
      && a.0.idToKey == map[1 := 0]
      && Slot(a.0, 0, 0) == [SlotEntry(1, 0)]
  {
    var st := Store(v, New(), 0);
    assert st.slab == Slab(map[0 := TimerEntry(1, 0)], [], 1) && st.idToKey == map[1 := 0];
    assert ExpiryMs(0, 0) == 0 && WheelFor(0) == 0 && SlotIndex(0, 0) == 0;
    assert InsertWith(v, New(), 0, 0).0 == CascadeTimer(st, 1, 0, 0);
  }

  lemma EarlyCancelAndReuse(v: Variant, a: Timers)
    requires a.nextId == 2 && a.currentMs == 0
    requires a.slab == Slab(map[0 := TimerEntry(1, 0)], [], 1) && a.idToKey == map[1 := 0]
    requires Slot(a, 0, 0) == [SlotEntry(1, 0)]
    ensures var c := Cancel(a, 1);
      var b := InsertWith(v, c.0, 5 * PRECISION_NS, 0);
      && b.1 == 2 && b.0.currentMs == 0
      && b.0.slab.entries == map[0 := TimerEntry(2, 5 * PRECISION_NS)]
      && b.0.idToKey == map[2 := 0]
      && Slot(b.0, 0, 0) == [SlotEntry(1, 0)]
  {
    var c := Cancel(a, 1);
    assert c.0 == a.(idToKey := map[], slab := Slab(map[], [0], 1), minExpiryCache := None);
    EarlyReuse(v, c.0);
  }

  /** Five milliseconds ahead of a clock at 0 is slot 5 of wheel 0. */
  lemma FiveMsSlot()
    ensures ExpiryMs(5 * PRECISION_NS, 0) == 5 && WheelFor(5) == 0 && SlotIndex(5, 0) == 5
  {
  }

  lemma EarlyReuse(v: Variant, c: Timers)
    requires c.nextId == 2 && c.currentMs == 0
    requires c.slab == Slab(map[], [0], 1) && c.idToKey == map[]
    requires Slot(c, 0, 0) == [SlotEntry(1, 0)]
    ensures var b := InsertWith(v, c, 5 * PRECISION_NS, 0);
      && b.1 == 2 && b.0.currentMs == 0
      && b.0.slab.entries == map[0 := TimerEntry(2, 5 * PRECISION_NS)]
      && b.0.idToKey == map[2 := 0]
      && Slot(b.0, 0, 0) == [SlotEntry(1, 0)]
  {
    var st := Store(v, c, 5 * PRECISION_NS);
    assert VacantKey(c.slab) == 0;
    assert st.slab.entries == map[0 := TimerEntry(2, 5 * PRECISION_NS)];
    FiveMsSlot();
    var b := InsertWith(v, c, 5 * PRECISION_NS, 0);
    assert b.0 == CascadeTimer(st, 2, 0, 5);
    assert b.0.wheels == st.wheels[(0, 5) := Slot(st, 0, 5) + [SlotEntry(2, 0)]];
  }

  lemma EarlyPopAsWritten(b: Timers)
    requires b.currentMs == 0 && b.idToKey == map[2 := 0]
    requires b.slab.entries == map[0 := TimerEntry(2, 5 * PRECISION_NS)]
    requires Slot(b, 0, 0) == [SlotEntry(1, 0)]
    ensures var p := PopExpiredWith(AsWritten, b, 0, 0);
      p.1 == [TimerEntry(2, 5 * PRECISION_NS)] && 2 in p.0.idToKey
  {
    var t1 := b.(wheels := b.wheels - {(0, 0)});
    var f := FireAll(AsWritten, t1, [SlotEntry(1, 0)]);
    assert f.1 == [TimerEntry(2, 5 * PRECISION_NS)];
    assert f.0.idToKey == map[2 := 0];
    var tk := Tick(AsWritten, b, 0);
    assert tk.1 == f.1;
    assert Advance(AsWritten, tk.0, 0, 0) == (tk.0, []);
  }

  /** The same sequence on the corrected wheel fires nothing at 0 ms. */
  lemma EarlyFireCorrected()
    ensures var a := Insert(New(), 0, 0);
      var c := Cancel(a.0, a.1);
      var b := Insert(c.0, 5 * PRECISION_NS, 0);
      forall f :: f !in PopExpired(b.0, 0, 0).1
  {
    var a := Insert(New(), 0, 0);
    EarlyFirstInsert(Corrected);
    EarlyCancelAndReuse(Corrected, a.0);
    EarlyCorrectedValid();
    var c := Cancel(a.0, a.1);
    var b := Insert(c.0, 5 * PRECISION_NS, 0);
    assert ExpiryMs(5 * PRECISION_NS, 0) == 5;
    NothingDueNothingFires(b.0, 0, 0);
  }

  /** When every live timer is due after `now`, `pop_expired` returns nothing. */
  lemma NothingDueNothingFires(t: Timers, nowNs: nat, startNs: nat)
    requires Valid(t, startNs)
    requires forall k :: k in t.slab.entries ==> ExpiryMs(t.slab.entries[k].expiresAt, startNs) > ExpiryMs(nowNs, startNs)
    ensures forall f :: f !in PopExpired(t, nowNs, startNs).1
  {
    PopExpiredSpec(t, nowNs, startNs);
  }

  lemma EarlyCorrectedValid()
    ensures var a := Insert(New(), 0, 0);
      var c := Cancel(a.0, a.1);
      Valid(Insert(c.0, 5 * PRECISION_NS, 0).0, 0)
  {
    var a := Insert(New(), 0, 0);
    NewValid(0);
    InsertValid(New(), 0, 0);
    CancelSpec(a.0, a.1, 0);
    var c := Cancel(a.0, a.1);
    InsertValid(c.0, 5 * PRECISION_NS, 0);
  }
}

=== FILE: udp.dfy ===
/** `src/transports/udp.rs`: the datagram transport. The socket is reduced
    to whether it is still held and the datagrams it has sent; the parse of
    an `ip:port` text and the kernel's answers are inputs. */
module Udp {
  import opened Wrappers

  datatype SockAddr = SockAddr(ip: string, port: nat)

  /** Parsing the text `ip:port` into a socket address, or the parser's
      error text. */
  type Parser = (string, nat) -> Result<SockAddr, string>

  datatype Datagram = Datagram(data: Bytes, to: SockAddr)

  datatype UdpTransport = UdpTransport(
    socket: bool,           // the socket is still held
    closing: bool,
    local: Option<SockAddr>,
    remote: Option<SockAddr>,
    allowBroadcast: bool,
    readerArmed: bool,      // the loop will run the reader: handle stored and poller armed for it
    lost: nat,              // `connection_lost` calls so far
    sent: seq<Datagram>)    // datagrams the kernel accepted, in order

  /** What `send_to` answers. */
  datatype SendAnswer = SendOk | SendWouldBlock | SendFailed(errno: int)

  /** `UdpTransport::new`: open, holding its socket, broadcast off. */
  function New(local: Option<SockAddr>, remote: Option<SockAddr>): (u: UdpTransport)
    ensures u.socket && !u.closing && !u.allowBroadcast && u.sent == []
    ensures u.local == local && u.remote == remote
  {
    UdpTransport(true, false, local, remote, false, false, 0, [])
  }

  function IsClosing(u: UdpTransport): bool {
    u.closing
  }

  // ---------------------------------------------------------------------------
  // Sending
  // ---------------------------------------------------------------------------

  /** Where a datagram goes: the explicit address if one is given (and
      parses), else the connected peer, else nowhere. */
  function Destination(u: UdpTransport, addr: Option<(string, nat)>, parse: Parser): (r: Result<SockAddr, PyError>)
  {
    if addr.Some? then
      match parse(addr.value.0, addr.value.1)
      case Ok(a) => Ok(a)
      case Err(e) => Err(ValueError("Invalid address: " + e))
    else if u.remote.Some? then Ok(u.remote.value)
    else Err(ValueError("No address specified and socket is not connected"))
  }

  /** `sendto`: refused while closing or without a socket; otherwise send to
      the chosen destination. A would-block is raised as `BlockingIOError`:
      datagrams are never buffered. */
  function SendTo(u: UdpTransport, data: Bytes, addr: Option<(string, nat)>, parse: Parser, answer: SendAnswer): (r: Result<UdpTransport, PyError>)
  {
    if u.closing then Err(RuntimeError("Cannot send on closing transport"))
    else if !u.socket then Err(RuntimeError("Socket is closed"))
    else
      var to :- Destination(u, addr, parse);
      match answer
      case SendOk => Ok(u.(sent := u.sent + [Datagram(data, to)]))
      case SendWouldBlock => Err(BlockingIOError("Socket buffer full"))
      case SendFailed(e) => Err(OSError(e))
  }

  /** The destination is the explicit address when one is given, the peer
      otherwise, and an error names the missing address when there is
      neither; a success sends exactly one datagram to it and changes
      nothing else, and every failure changes nothing. */
  lemma SendToSpec(u: UdpTransport, data: Bytes, addr: Option<(string, nat)>, parse: Parser, answer: SendAnswer)
    ensures var r := SendTo(u, data, addr, parse, answer);
      && (u.closing ==> r == Err(RuntimeError("Cannot send on closing transport")))
      && (!u.closing && !u.socket ==> r == Err(RuntimeError("Socket is closed")))
      && (!u.closing && u.socket && addr.None? && u.remote.None? ==>
            r == Err(ValueError("No address specified and socket is not connected")))
      && (r.Ok? ==> answer.SendOk? && exists to :: (
            && r.value == u.(sent := u.sent + [Datagram(data, to)])
            && (addr.Some? ==> parse(addr.value.0, addr.value.1) == Ok(to))
            && (addr.None? ==> u.remote == Some(to))))
      && (!u.closing && u.socket && (addr.Some? ==> parse(addr.value.0, addr.value.1).Ok?)
            && (addr.Some? || u.remote.Some?) && answer.SendWouldBlock? ==>
            r == Err(BlockingIOError("Socket buffer full")))
  {
    var r := SendTo(u, data, addr, parse, answer);
    if r.Ok? {
      var to := Destination(u, addr, parse).value;
      assert r.value == u.(sent := u.sent + [Datagram(data, to)]);
    }
  }

  // ---------------------------------------------------------------------------
  // Closing
  // ---------------------------------------------------------------------------

  /** `_force_close`: remove the loop's reader, drop the socket, notify the
      protocol (always with `None`). `removeReader` is what the loop's
      `remove_reader` raises, if anything. That call drops the registry
      entry before the poller call that can fail, so on an error the
      reader is gone, but the socket is still held and the protocol is not
      told. */
  function ForceClose(u: UdpTransport, removeReader: Option<PyError>): (r: (UdpTransport, Result<(), PyError>))
    ensures !r.0.readerArmed && r.0.closing == u.closing && r.0.sent == u.sent
    ensures removeReader.None? ==> r.1.Ok? && !r.0.socket && r.0.lost == u.lost + 1
    ensures removeReader.Some? ==> r.1 == Err(removeReader.value) && r.0.socket == u.socket && r.0.lost == u.lost
  {
    if removeReader.Some? then (u.(readerArmed := false), Err(removeReader.value))
    else (u.(readerArmed := false, socket := false, lost := u.lost + 1), Ok(()))
  }

  /** `close` (and `abort`, which is `close`): once only, mark closing and
      force-close. */
  function Close(u: UdpTransport, removeReader: Option<PyError>): (r: (UdpTransport, Result<(), PyError>))
  {
    if u.closing then (u, Ok(())) else ForceClose(u.(closing := true), removeReader)
  }

  /** `close` is idempotent: a second call changes nothing and succeeds.
      The first call drops the socket and notifies the protocol exactly
      once, unless `remove_reader` raises; then that error is raised with
      the transport closing, its socket still held and the protocol not
      told, and since every later `close` returns at once the socket stays
      held. Nothing can be sent afterwards either way. */
  lemma CloseSpec(u: UdpTransport, removeReader: Option<PyError>, again: Option<PyError>,
                  data: Bytes, addr: Option<(string, nat)>, parse: Parser, answer: SendAnswer)
    ensures var r := Close(u, removeReader);
      && Close(r.0, again) == (r.0, Ok(()))
      && IsClosing(r.0)
      && (u.closing ==> r == (u, Ok(())))
      && (!u.closing && removeReader.None? ==> r.1.Ok? && !r.0.socket && r.0.lost == u.lost + 1 && !r.0.readerArmed)
      && (!u.closing && removeReader.Some? ==>
            r.1 == Err(removeReader.value) && r.0.socket == u.socket && r.0.lost == u.lost)
      && SendTo(r.0, data, addr, parse, answer) == Err(RuntimeError("Cannot send on closing transport"))
  {
    var r := Close(u, removeReader);
    assert r.0.closing;
  }

  // ---------------------------------------------------------------------------
  // Extra info and options
  // ---------------------------------------------------------------------------

  /** What `get_extra_info` answers: an address tuple, a socket wrapper over
      the local address, or the caller's default. */
  datatype Info = AddrInfo(addr: SockAddr) | SocketInfo(local: SockAddr) | DefaultInfo

  function GetExtraInfo(u: UdpTransport, name: string): (r: Info)
  {
    if name == "socket" then (if u.local.Some? then SocketInfo(u.local.value) else DefaultInfo)
    else if name == "sockname" then (if u.local.Some? then AddrInfo(u.local.value) else DefaultInfo)
    else if name == "peername" then (if u.remote.Some? then AddrInfo(u.remote.value) else DefaultInfo)
    else DefaultInfo
  }

  /** `sockname` reads the local address, `peername` the peer's, and a
      missing address or an unknown name yields the default. */
  lemma ExtraInfoSpec(u: UdpTransport, name: string)
    ensures GetExtraInfo(u, "sockname") == (if u.local.Some? then AddrInfo(u.local.value) else DefaultInfo)
    ensures GetExtraInfo(u, "peername") == (if u.remote.Some? then AddrInfo(u.remote.value) else DefaultInfo)
    ensures name != "socket" && name != "sockname" && name != "peername" ==> GetExtraInfo(u, name) == DefaultInfo
    ensures GetExtraInfo(u, name).DefaultInfo? <==>
      (name == "socket" || name == "sockname" ==> u.local.None?) && (name == "peername" ==> u.remote.None?)
  {
  }

  /** `set_broadcast`: with the socket held, set the option (whose failure
      is raised) and record the flag; without it, raise. */
  function SetBroadcast(u: UdpTransport, enable: bool, failure: Option<int>): (r: Result<UdpTransport, PyError>)
    ensures !u.socket ==> r == Err(RuntimeError("Socket is closed"))
    ensures r.Ok? <==> u.socket && failure.None?
    ensures r.Ok? ==> r.value == u.(allowBroadcast := enable)
  {
    if !u.socket then Err(RuntimeError("Socket is closed"))
    else if failure.Some? then Err(OSError(failure.value))
    else Ok(u.(allowBroadcast := enable))
  }
}

=== FILE: uring.dfy ===
/** `src/io_backend/uring.rs`: the completion backend over io_uring. Each
    submitted operation is recorded under a fresh token until its
    completion queue entry arrives, when its kernel result is decoded into
    an operation result and buffered for `get_completions`. The ring is
    reduced to the number of submission entries not yet handed to the
    kernel; the kernel's completions and the errno a submit fails with are
    inputs. */
module Uring {
  import opened Wrappers
  import B = IoBackend
  import O = Ops
  import P = Poller

  const SQ_SIZE: nat := 256
  const CQ_SIZE: nat := 512
  /** `EISCONN` and `ETIME` on Linux. */
  const EISCONN: int := 106
  const ETIME: int := 62
  /** The pool keeps at most this many buffers, each of at most this
      capacity; a new backend starts with 32 empty ones of full capacity. */
  const POOL_MAX: nat := 64
  const POOL_BUFFER_CAPACITY: nat := 65536
  const POOL_INITIAL: nat := 32
  const NS_PER_MS: nat := 1_000_000
  const U32_LIMIT: nat := 0x1_0000_0000

  datatype OpType =
    Read | Write | Recv | Send | Accept | Connect | Close | Poll | RecvFrom | SendTo | Sendfile | Timeout | Cancel

  /** A `Vec<u8>`: its capacity and its contents. */
  datatype PooledBuffer = PooledBuffer(capacity: nat, data: Bytes)

  datatype PendingOp = PendingOp(fd: int, opType: OpType, buffer: Option<PooledBuffer>)

  /** A submission queue with no free entry, or a failed `io_uring_enter`. */
  datatype UringError = SqFull | Os(errno: int)

  /** One completion queue entry: the token it was submitted under (0 for
      the poll timeout) and the kernel's `i32` result. */
  datatype Cqe = Cqe(userData: nat, result: int)

  datatype Backend = Backend(
    nextToken: nat,
    pending: map<nat, PendingOp>,
    interests: map<int, B.Interest>,
    completions: seq<O.OpCompletion>,
    pool: seq<PooledBuffer>,
    queued: nat)        // entries pushed but not yet submitted

  /** Tokens are handed out from 1 upwards, so every pending token is below
      the counter and token 0 is never pending. */
  ghost predicate TokensValid(u: Backend) {
    && u.nextToken >= 1
    && forall t :: t in u.pending ==> 1 <= t < u.nextToken
  }

  /** The pool is bounded and holds no oversized buffer. */
  ghost predicate PoolValid(pool: seq<PooledBuffer>) {
    && |pool| <= POOL_MAX
    && forall k :: 0 <= k < |pool| ==> pool[k].capacity <= POOL_BUFFER_CAPACITY
  }

  function New(): (u: Backend)
    ensures TokensValid(u) && PoolValid(u.pool) && |u.pool| == POOL_INITIAL
    ensures u.pending == map[] && u.completions == [] && u.queued == 0
  {
    Backend(1, map[], map[], [], seq(POOL_INITIAL, _ => PooledBuffer(POOL_BUFFER_CAPACITY, [])), 0)
  }

  function BackendType(): (t: B.BackendType)
    ensures B.IsCompletionBased(t)
  {
    B.IoUring
  }

  function PendingOps(u: Backend): nat {
    |u.pending|
  }

  // ---------------------------------------------------------------------------
  // Readiness registrations (kept for the trait only)
  // ---------------------------------------------------------------------------

  function Register(u: Backend, fd: int, i: B.Interest): (r: Backend) {
    u.(interests := u.interests[fd := i])
  }

  /** `modify` is `register`: no system call either way. */
  function Modify(u: Backend, fd: int, i: B.Interest): (r: Backend) {
    Register(u, fd, i)
  }

  function Unregister(u: Backend, fd: int): (r: Backend) {
    u.(interests := u.interests - {fd})
  }

  function IsRegistered(u: Backend, fd: int): bool {
    fd in u.interests
  }

  /** The registrations only record interests: a registered descriptor
      reads back, an unregistered one is gone, others and every operation
      are untouched. */
  lemma RegistrationSpec(u: Backend, fd: int, other: int, i: B.Interest)
    requires other != fd
    ensures IsRegistered(Register(u, fd, i), fd) && Register(u, fd, i).interests[fd] == i
    ensures !IsRegistered(Unregister(Modify(u, fd, i), fd), fd)
    ensures IsRegistered(Register(u, fd, i), other) == IsRegistered(u, other)
    ensures IsRegistered(Unregister(u, fd), other) == IsRegistered(u, other)
    ensures Unregister(Register(u, fd, i), fd).(interests := u.interests) == u
  {
  }

  // ---------------------------------------------------------------------------
  // Buffer pool
  // ---------------------------------------------------------------------------

  function Zeros(n: nat): (z: Bytes)
    ensures |z| == n && forall k :: 0 <= k < n ==> z[k] == 0
  {
    seq(n, _ => 0)
  }

  /** `acquire_buffer`: the most recently pooled buffer, cleared and
      zero-filled to `size` (growing it if needed), or a fresh one. */
  function AcquireBuffer(u: Backend, size: nat): (r: (Backend, PooledBuffer))
  {
    if |u.pool| > 0 then
      var buf := u.pool[|u.pool| - 1];
      (u.(pool := u.pool[..|u.pool| - 1]), PooledBuffer(if buf.capacity < size then size else buf.capacity, Zeros(size)))
    else (u, PooledBuffer(size, Zeros(size)))
  }

  /** `return_buffer`: keep the buffer only while the pool has room and the
      buffer is not oversized. */
  function ReturnBuffer(u: Backend, buf: PooledBuffer): (r: Backend) {
    if |u.pool| < POOL_MAX && buf.capacity <= POOL_BUFFER_CAPACITY then u.(pool := u.pool + [buf])
    else u
  }

  /** An acquired buffer holds exactly `size` zero bytes within its
      capacity; returning keeps the pool bounded and accepts exactly the
      buffers that fit; and a buffer taken from the pool for a size the
      pool allows goes back into it. */
  lemma BufferPoolSpec(u: Backend, size: nat, buf: PooledBuffer)
    requires PoolValid(u.pool)
    ensures var a := AcquireBuffer(u, size);
      && |a.1.data| == size && (forall k :: 0 <= k < size ==> a.1.data[k] == 0) && a.1.capacity >= size
      && PoolValid(a.0.pool) && a.0.(pool := u.pool) == u
      && (|u.pool| > 0 ==> |a.0.pool| == |u.pool| - 1)
      && (|u.pool| == 0 ==> a.0 == u)
    ensures PoolValid(ReturnBuffer(u, buf).pool)
    ensures ReturnBuffer(u, buf).pool == u.pool + [buf] <==> |u.pool| < POOL_MAX && buf.capacity <= POOL_BUFFER_CAPACITY
    ensures ReturnBuffer(u, buf).pool == u.pool || ReturnBuffer(u, buf).pool == u.pool + [buf]
    ensures |u.pool| > 0 && size <= POOL_BUFFER_CAPACITY ==>
      |ReturnBuffer(AcquireBuffer(u, size).0, AcquireBuffer(u, size).1).pool| == |u.pool|
  {
    var r := ReturnBuffer(u, buf);
    if !(|u.pool| < POOL_MAX && buf.capacity <= POOL_BUFFER_CAPACITY) {
      assert |r.pool| != |u.pool + [buf]|;
    }
    var a := AcquireBuffer(u, size);
    assert forall k :: 0 <= k < |a.0.pool| ==> a.0.pool[k] == u.pool[k];
  }

  // ---------------------------------------------------------------------------
  // Submissions
  // ---------------------------------------------------------------------------

  /** `submit`: hand the queued entries to the kernel. */
  function SubmitQueued(u: Backend, failure: Option<int>): (r: Result<Backend, UringError>)
    ensures r.Ok? <==> failure.None?
    ensures r.Ok? ==> r.value == u.(queued := 0)
  {
    if failure.Some? then Err(Os(failure.value)) else Ok(u.(queued := 0))
  }

  /** Every `submit_*` method: take the next token, push one entry (a full
      queue fails with the token spent), record the operation as pending
      under the token, and submit. A failed submit leaves the operation
      recorded and queued. */
  function SubmitOp(u: Backend, fd: int, ty: OpType, failure: Option<int>): (r: (Backend, Result<O.OpToken, UringError>))
  {
    var t := u.nextToken;
    var u1 := u.(nextToken := t + 1);
    if u1.queued >= SQ_SIZE then (u1, Err(SqFull))
    else
      var u2 := u1.(queued := u1.queued + 1, pending := u1.pending[t := PendingOp(fd, ty, None)]);
      match SubmitQueued(u2, failure)
      case Ok(u3) => (u3, Ok(O.NewToken(t)))
      case Err(e) => (u2, Err(e))
  }

  /** `cancel`: an `AsyncCancel` entry for the target, itself pending under
      a token of its own with no descriptor. */
  function CancelOp(u: Backend, target: O.OpToken, failure: Option<int>): (r: (Backend, Result<(), UringError>))
  {
    var (u1, res) := SubmitOp(u, -1, Cancel, failure);
    (u1, if res.Ok? then Ok(()) else Err(res.error))
  }

  /** A submission spends the next token whatever happens. It fails with a
      full queue exactly when no entry is free, and then records nothing;
      otherwise the operation is pending under that token, which no other
      operation held, so the pending count grows by one. Completions,
      registrations and the pool are untouched. */
  lemma SubmitOpSpec(u: Backend, fd: int, ty: OpType, failure: Option<int>)
    requires TokensValid(u)
    ensures var r := SubmitOp(u, fd, ty, failure);
      && r.0.nextToken == u.nextToken + 1 && TokensValid(r.0)
      && (r.1 == Err(SqFull) <==> u.queued >= SQ_SIZE)
      && (r.1 == Err(SqFull) ==> r.0.pending == u.pending)
      && (u.queued < SQ_SIZE ==>
            && u.nextToken !in u.pending
            && r.0.pending == u.pending[u.nextToken := PendingOp(fd, ty, None)]
            && PendingOps(r.0) == PendingOps(u) + 1)
      && (r.1.Ok? <==> u.queued < SQ_SIZE && failure.None?)
      && (r.1.Ok? ==> r.1.value.id == u.nextToken && r.0.queued == 0)
      && r.0.completions == u.completions && r.0.interests == u.interests && r.0.pool == u.pool
    ensures var c := CancelOp(u, O.NewToken(0), failure);
      u.queued < SQ_SIZE ==> c.0.pending == u.pending[u.nextToken := PendingOp(-1, Cancel, None)]
  {
  }

  // ---------------------------------------------------------------------------
  // Completions
  // ---------------------------------------------------------------------------

  function Errno(result: int): O.OpResult {
    O.Error(-result)
  }

  /** The byte count of a transfer, or its error. */
  function Transfer(result: int): O.OpResult {
    if result >= 0 then O.Bytes(result) else Errno(result)
  }

  /** What a kernel result means for an operation of type `ty`. */
  function Decode(ty: OpType, result: int): (r: O.OpResult)
  {
    match ty
    case Read | Recv | Write | Send => Transfer(result)
    case Accept => if result >= 0 then O.Accept(result, None) else Errno(result)
    case Connect => if result >= 0 || result == -EISCONN then O.Connect else Errno(result)
    case Close => if result >= 0 then O.Close else Errno(result)
    case Poll => if result >= 0 then O.Poll(P.HasBit(result, P.POLLIN), P.HasBit(result, P.POLLOUT)) else Errno(result)
    case Timeout => if result == -ETIME then O.Timeout else if result >= 0 then O.Timeout else Errno(result)
    case Cancel => O.Cancelled
    case RecvFrom | SendTo | Sendfile => Transfer(result)
  }

  /** A result is an error exactly when it is negative, except that an
      already-connected socket counts as connected, an expired timer as a
      timeout, and a cancellation never fails; the errno is the negated
      result. Exactly the transfers carry a byte count, which is the
      result; every other success decodes to its own operation's result. */
  lemma DecodeSpec(ty: OpType, result: int)
    ensures O.IsError(Decode(ty, result)) <==>
      && result < 0 && !ty.Cancel?
      && !(ty.Connect? && result == -EISCONN)
      && !(ty.Timeout? && result == -ETIME)
    ensures O.IsError(Decode(ty, result)) ==> Decode(ty, result).errno == -result
    ensures O.BytesOf(Decode(ty, result)).Some? <==>
      result >= 0 && (ty.Read? || ty.Recv? || ty.Write? || ty.Send? || ty.RecvFrom? || ty.SendTo? || ty.Sendfile?)
    ensures O.BytesOf(Decode(ty, result)).Some? ==> O.BytesOf(Decode(ty, result)).value == result
    ensures ty.Accept? && result >= 0 ==> Decode(ty, result) == O.Accept(result, None)
    ensures ty.Poll? && result >= 0 ==>
      Decode(ty, result) == O.Poll(P.HasBit(result, P.POLLIN), P.HasBit(result, P.POLLOUT))
    ensures ty.Connect? && (result >= 0 || result == -EISCONN) ==> Decode(ty, result) == O.Connect
    ensures ty.Close? && result >= 0 ==> Decode(ty, result) == O.Close
    ensures ty.Timeout? && (result >= 0 || result == -ETIME) ==> Decode(ty, result) == O.Timeout
    ensures ty.Cancel? ==> Decode(ty, result) == O.Cancelled
  {
  }

  /** Handle one completion queue entry: an unknown token is dropped; a
      pending operation leaves the map, returns its buffer to the pool and
      appends its decoded completion. */
  function CompleteOne(u: Backend, c: Cqe): (r: Backend)
    ensures c.userData !in u.pending ==> r == u
    ensures c.userData in u.pending ==>
      && r.pending == u.pending - {c.userData}
      && r.completions == u.completions + [O.OpCompletion(O.NewToken(c.userData), Decode(u.pending[c.userData].opType, c.result))]
    ensures r.nextToken == u.nextToken && r.interests == u.interests && r.queued == u.queued
    ensures PoolValid(u.pool) ==> PoolValid(r.pool)
  {
    if c.userData !in u.pending then u
    else
      var op := u.pending[c.userData];
      var u1 := u.(pending := u.pending - {c.userData});
      var u2 := if op.buffer.Some? then ReturnBuffer(u1, op.buffer.value) else u1;
      assert PoolValid(u.pool) ==> PoolValid(u2.pool) by {
        if PoolValid(u.pool) && op.buffer.Some? {
          BufferPoolSpec(u1, 0, op.buffer.value);
        }
      }
      u2.(completions := u2.completions + [O.OpCompletion(O.NewToken(c.userData), Decode(op.opType, c.result))])
  }

  /** `process_completions`: the entries in queue order. */
  function ProcessCompletions(u: Backend, cqes: seq<Cqe>): (r: Backend)
    decreases |cqes|
  {
    if |cqes| == 0 then u
    else ProcessCompletions(CompleteOne(u, cqes[0]), cqes[1..])
  }

  function UserData(cqes: seq<Cqe>): set<nat> {
    set k | 0 <= k < |cqes| :: cqes[k].userData
  }

  lemma UserDataCons(cqes: seq<Cqe>)
    requires |cqes| > 0
    ensures UserData(cqes) == {cqes[0].userData} + UserData(cqes[1..])
  {
    var rest := cqes[1..];
    forall t | t in UserData(cqes) ensures t in {cqes[0].userData} + UserData(rest) {
      var k :| 0 <= k < |cqes| && cqes[k].userData == t;
      if k > 0 { assert rest[k - 1] == cqes[k]; }
    }
    forall t | t in UserData(rest) ensures t in UserData(cqes) {
      var k :| 0 <= k < |rest| && rest[k].userData == t;
      assert cqes[k + 1] == rest[k];
    }
  }

  function TokenIds(cs: seq<O.OpCompletion>): (r: seq<nat>)
    ensures |r| == |cs| && forall k :: 0 <= k < |cs| ==> r[k] == cs[k].token.id
  {
    seq(|cs|, k requires 0 <= k < |cs| => cs[k].token.id)
  }

  /** The tokens in `keys` in the order the queue first mentions them: the
      order completions must be reported in. */
  function FirstSeen(keys: set<nat>, cqes: seq<Cqe>): seq<nat>
    decreases |cqes|
  {
    if |cqes| == 0 then []
    else if cqes[0].userData in keys then [cqes[0].userData] + FirstSeen(keys - {cqes[0].userData}, cqes[1..])
    else FirstSeen(keys, cqes[1..])
  }

  /** A completion reports a pending operation with the decoded result of
      one of the entries carrying its token. */
  ghost predicate Reports(u: Backend, cqes: seq<Cqe>, c: O.OpCompletion) {
    && c.token.id in u.pending
    && exists j :: 0 <= j < |cqes| && cqes[j].userData == c.token.id
                   && c.result == Decode(u.pending[c.token.id].opType, cqes[j].result)
  }

  /** Every operation whose token the queue mentions leaves the pending map,
      and nothing else does. */
  lemma {:induction false} ProcessPending(u: Backend, cqes: seq<Cqe>)
    ensures ProcessCompletions(u, cqes).pending == u.pending - UserData(cqes)
    decreases |cqes|
  {
    if |cqes| > 0 {
      var u1 := CompleteOne(u, cqes[0]);
      ProcessPending(u1, cqes[1..]);
      UserDataCons(cqes);
      assert ProcessCompletions(u, cqes) == ProcessCompletions(u1, cqes[1..]);
    }
  }

  /** Each operation leaving the map adds one completion after the earlier
      ones; the counter, registrations and queue are untouched and the pool
      stays bounded. */
  lemma {:induction false} ProcessSpec(u: Backend, cqes: seq<Cqe>)
    ensures var r := ProcessCompletions(u, cqes);
      && r.pending == u.pending - UserData(cqes)
      && |r.pending| <= |u.pending|
      && |r.completions| == |u.completions| + (|u.pending| - |r.pending|)
      && r.completions[..|u.completions|] == u.completions
      && r.nextToken == u.nextToken && r.interests == u.interests && r.queued == u.queued
      && (PoolValid(u.pool) ==> PoolValid(r.pool))
    decreases |cqes|
  {
    ProcessPending(u, cqes);
    ProcessCounts(u, cqes);
  }

  lemma {:induction false} ProcessCounts(u: Backend, cqes: seq<Cqe>)
    ensures var r := ProcessCompletions(u, cqes);
      && |r.pending| <= |u.pending|
      && |r.completions| == |u.completions| + (|u.pending| - |r.pending|)
      && r.completions[..|u.completions|] == u.completions
      && r.nextToken == u.nextToken && r.interests == u.interests && r.queued == u.queued
      && (PoolValid(u.pool) ==> PoolValid(r.pool))
    decreases |cqes|
  {
    if |cqes| > 0 {
      var u1 := CompleteOne(u, cqes[0]);
      ProcessCounts(u1, cqes[1..]);
      var r := ProcessCompletions(u, cqes);
      assert r == ProcessCompletions(u1, cqes[1..]);
      if cqes[0].userData in u.pending {
        MapRemoveCard(u.pending, cqes[0].userData);
        assert r.completions[..|u.completions|] == r.completions[..|u1.completions|][..|u.completions|];
      }
    }
  }

  /** Completions are reported in the order the queue first mentions their
      pending tokens. */
  lemma {:induction false} ProcessOrder(u: Backend, cqes: seq<Cqe>)
    ensures var r := ProcessCompletions(u, cqes);
      |u.completions| <= |r.completions| && TokenIds(r.completions[|u.completions|..]) == FirstSeen(u.pending.Keys, cqes)
    decreases |cqes|
  {
    if |cqes| > 0 {
      var u1 := CompleteOne(u, cqes[0]);
      ProcessOrder(u1, cqes[1..]);
      ProcessCounts(u1, cqes[1..]);
      var r := ProcessCompletions(u, cqes);
      assert r == ProcessCompletions(u1, cqes[1..]);
      if cqes[0].userData in u.pending {
        assert u1.pending.Keys == u.pending.Keys - {cqes[0].userData};
        assert r.completions[|u.completions|..] == [u1.completions[|u.completions|]] + r.completions[|u1.completions|..];
        assert TokenIds(r.completions[|u.completions|..]) == [cqes[0].userData] + TokenIds(r.completions[|u1.completions|..]);
      }
    }
  }

  /** Every new completion reports a pending operation with the decoded
      result of an entry carrying its token. */
  lemma {:induction false} ProcessReports(u: Backend, cqes: seq<Cqe>)
    ensures var r := ProcessCompletions(u, cqes);
      forall i :: |u.completions| <= i < |r.completions| ==> Reports(u, cqes, r.completions[i])
    decreases |cqes|
  {
    if |cqes| > 0 {
      var u1 := CompleteOne(u, cqes[0]);
      ProcessReports(u1, cqes[1..]);
      ProcessCounts(u1, cqes[1..]);
      var r := ProcessCompletions(u, cqes);
      assert r == ProcessCompletions(u1, cqes[1..]);
      forall i | |u.completions| <= i < |r.completions|
        ensures Reports(u, cqes, r.completions[i])
      {
        if i < |u1.completions| {
          assert r.completions[i] == u1.completions[i];
          assert cqes[0].userData == r.completions[i].token.id;
        } else {
          ReportsWiden(u, u1, cqes[1..], cqes, r.completions[i]);
        }
      }
    }
  }

  /** A report against fewer pending operations and a shorter queue is a
      report against the whole. */
  lemma ReportsWiden(u: Backend, u1: Backend, rest: seq<Cqe>, cqes: seq<Cqe>, c: O.OpCompletion)
    requires |cqes| > 0 && rest == cqes[1..]
    requires forall t :: t in u1.pending ==> t in u.pending && u1.pending[t] == u.pending[t]
    requires Reports(u1, rest, c)
    ensures Reports(u, cqes, c)
  {
    var j :| 0 <= j < |rest| && rest[j].userData == c.token.id
              && c.result == Decode(u1.pending[c.token.id].opType, rest[j].result);
    assert cqes[j + 1] == rest[j];
  }

  lemma MapRemoveCard(m: map<nat, PendingOp>, t: nat)
    requires t in m
    ensures |m - {t}| == |m| - 1
  {
    assert (m - {t}).Keys == m.Keys - {t};
    assert |m.Keys - {t}| == |m.Keys| - 1;
  }

  /** `get_completions`: everything buffered, in order, leaving nothing. */
  function GetCompletions(u: Backend): (r: (Backend, seq<O.OpCompletion>))
    ensures r.0.completions == [] && r.0.(completions := u.completions) == u
  {
    (u.(completions := []), u.completions)
  }

  /** An operation submitted and then completed is reported once with its
      decoded result and leaves the pending map as it was; a second drain
      finds nothing. */
  lemma SubmitThenComplete(u: Backend, fd: int, ty: OpType, result: int)
    requires TokensValid(u) && u.queued < SQ_SIZE && u.completions == []
    ensures var s := SubmitOp(u, fd, ty, None);
      && s.1.Ok?
      && var d := GetCompletions(ProcessCompletions(s.0, [Cqe(s.1.value.id, result)]));
      && d.1 == [O.OpCompletion(s.1.value, Decode(ty, result))]
      && d.0.pending == u.pending
      && GetCompletions(d.0).1 == []
  {
    SubmitOpSpec(u, fd, ty, None);
    var s := SubmitOp(u, fd, ty, None);
    var t := u.nextToken;
    var cq := [Cqe(t, result)];
    assert cq[1..] == [];
    var p := ProcessCompletions(s.0, cq);
    assert p == ProcessCompletions(CompleteOne(s.0, cq[0]), cq[1..]);
    assert s.0.pending - {t} == u.pending;
  }

  // ---------------------------------------------------------------------------
  // Batches
  // ---------------------------------------------------------------------------

  /** The descriptors of the accept operations, in order: the only kind a
      batch submits. */
  function AcceptFds(ops: seq<O.IoOp>): seq<int>
    decreases |ops|
  {
    if |ops| == 0 then []
    else (if ops[0].AcceptOp? then [ops[0].fd] else []) + AcceptFds(ops[1..])
  }

  /** Push a batch's accepts, one token and one entry each, skipping every
      other operation; a full queue stops the batch. */
  function PushBatch(u: Backend, ops: seq<O.IoOp>): (r: (Backend, seq<O.OpToken>, Result<(), UringError>))
    decreases |ops|
  {
    if |ops| == 0 then (u, [], Ok(()))
    else if !ops[0].AcceptOp? then PushBatch(u, ops[1..])
    else
      var t := u.nextToken;
      var u1 := u.(nextToken := t + 1);
      if u1.queued >= SQ_SIZE then (u1, [], Err(SqFull))
      else
        var u2 := u1.(queued := u1.queued + 1, pending := u1.pending[t := PendingOp(ops[0].fd, Accept, None)]);
        var rest := PushBatch(u2, ops[1..]);
        (rest.0, [O.NewToken(t)] + rest.1, rest.2)
  }

  /** `submit_batch`: push the accepts, then submit once; tokens are
      returned only if both succeed. */
  function SubmitBatch(u: Backend, ops: seq<O.IoOp>, failure: Option<int>): (r: (Backend, Result<seq<O.OpToken>, UringError>))
  {
    var pushed := PushBatch(u, ops);
    if pushed.2.Err? then (pushed.0, Err(pushed.2.error))
    else match SubmitQueued(pushed.0, failure)
      case Ok(u1) => (u1, Ok(pushed.1))
      case Err(e) => (pushed.0, Err(e))
  }

  /** After a successful push of the accepts on `fds`: one token per
      accept, consecutive from the counter, each pending as an accept on its
      descriptor, and no other new pending token. */
  ghost predicate BatchPushed(u: Backend, fds: seq<int>, u': Backend, tokens: seq<O.OpToken>) {
    && |tokens| == |fds|
    && u'.nextToken == u.nextToken + |tokens| && u'.queued == u.queued + |tokens|
    && (forall i :: 0 <= i < |tokens| ==> tokens[i].id == u.nextToken + i)
    && (forall i :: 0 <= i < |tokens| ==>
          tokens[i].id in u'.pending && u'.pending[tokens[i].id] == PendingOp(fds[i], Accept, None))
    && (forall t :: t in u'.pending ==> t in u.pending || u.nextToken <= t < u'.nextToken)
  }

  /** What a push of a batch promises: it fits exactly when the queue has
      room for its accepts, and then pushes exactly them; older pending
      operations stay as they were either way. */
  ghost predicate PushBatchPost(u: Backend, ops: seq<O.IoOp>) {
    var r := PushBatch(u, ops);
    && (r.2.Ok? <==> u.queued + |AcceptFds(ops)| <= SQ_SIZE)
    && TokensValid(r.0) && r.0.nextToken >= u.nextToken
    && (forall t :: t in u.pending ==> t in r.0.pending && r.0.pending[t] == u.pending[t])
    && (r.2.Ok? ==> BatchPushed(u, AcceptFds(ops), r.0, r.1))
  }

  lemma {:induction false} PushBatchSpec(u: Backend, ops: seq<O.IoOp>)
    requires TokensValid(u) && u.queued <= SQ_SIZE
    ensures PushBatchPost(u, ops)
    decreases |ops|
  {
    if |ops| == 0 {
      assert PushBatch(u, ops) == (u, [], Ok(()));
    } else if !ops[0].AcceptOp? {
      PushBatchSpec(u, ops[1..]);
      assert AcceptFds(ops) == AcceptFds(ops[1..]);
      assert PushBatch(u, ops) == PushBatch(u, ops[1..]);
    } else if u.queued >= SQ_SIZE {
      assert AcceptFds(ops) == [ops[0].fd] + AcceptFds(ops[1..]);
      assert PushBatch(u, ops) == (u.(nextToken := u.nextToken + 1), [], Err(SqFull));
    } else {
      var t := u.nextToken;
      var u2 := u.(nextToken := t + 1, queued := u.queued + 1, pending := u.pending[t := PendingOp(ops[0].fd, Accept, None)]);
      PushBatchSpec(u2, ops[1..]);
      PushBatchStep(u, ops, u2);
    }
  }

  /** One accept pushed, the rest of the batch as promised: the batch as
      promised. */
  lemma PushBatchStep(u: Backend, ops: seq<O.IoOp>, u2: Backend)
    requires TokensValid(u) && |ops| > 0 && ops[0].AcceptOp? && u.queued < SQ_SIZE
    requires u2 == u.(nextToken := u.nextToken + 1, queued := u.queued + 1,
                      pending := u.pending[u.nextToken := PendingOp(ops[0].fd, Accept, None)])
    requires PushBatchPost(u2, ops[1..])
    ensures PushBatchPost(u, ops)
  {
    var t := u.nextToken;
    var fds := AcceptFds(ops);
    assert fds == [ops[0].fd] + AcceptFds(ops[1..]);
    var rest := PushBatch(u2, ops[1..]);
    var r := PushBatch(u, ops);
    assert r == (rest.0, [O.NewToken(t)] + rest.1, rest.2);
    if r.2.Ok? {
      assert BatchPushed(u2, AcceptFds(ops[1..]), rest.0, rest.1);
      forall i | 0 <= i < |r.1|
        ensures r.1[i].id == u.nextToken + i
      {
        if i > 0 {
          assert r.1[i] == rest.1[i - 1];
        }
      }
      forall i | 0 <= i < |r.1|
        ensures r.1[i].id in r.0.pending && r.0.pending[r.1[i].id] == PendingOp(fds[i], Accept, None)
      {
        if i > 0 {
          assert r.1[i] == rest.1[i - 1];
          assert fds[i] == AcceptFds(ops[1..])[i - 1];
        }
      }
      assert BatchPushed(u, fds, r.0, r.1);
    }
  }

  // ---------------------------------------------------------------------------
  // Waiting
  // ---------------------------------------------------------------------------

  /** What `poll` does before collecting completions: whether it pushes a
      timeout entry, and whether it then waits for a completion. */
  datatype PollPlan = PollPlan(timeoutEntry: bool, wait: bool)

  /** As written the timeout becomes a millisecond count cast to `u32`: a
      timeout under 1 ms, or one whose count wraps to 0, pushes no timeout
      entry, yet every call with a timeout waits for a completion. With
      nothing pending that wait has nothing to end it. Corrected, a
      non-zero timeout always pushes its entry and a zero one never
      waits. */
  function PollPlanWith(v: Variant, pendingEmpty: bool, timeoutNs: Option<nat>): (p: PollPlan)
  {
    match v
    case AsWritten =>
      var ms := if timeoutNs.Some? then (timeoutNs.value / NS_PER_MS) % U32_LIMIT else 0;
      PollPlan(ms > 0, !(pendingEmpty && timeoutNs.None?))
    case Corrected =>
      var entry := timeoutNs.Some? && timeoutNs.value > 0;
      PollPlan(entry, if timeoutNs.Some? then entry else !pendingEmpty)
  }

  function PollPlanOf(pendingEmpty: bool, timeoutNs: Option<nat>): PollPlan {
    PollPlanWith(Corrected, pendingEmpty, timeoutNs)
  }

  /** Corrected, a wait always has something to end it, a wait under a
      timeout is bounded by a timeout entry, and without a timeout the
      backend waits exactly when operations are pending; wherever the
      millisecond count is between 1 and the `u32` limit, and without a
      timeout, the plan is the one the source makes. */
  lemma PollPlanSpec(pendingEmpty: bool, timeoutNs: Option<nat>)
    ensures var p := PollPlanOf(pendingEmpty, timeoutNs);
      && (p.wait ==> !pendingEmpty || p.timeoutEntry)
      && (timeoutNs.Some? && p.wait ==> p.timeoutEntry)
      && (timeoutNs.None? ==> !p.timeoutEntry && (p.wait <==> !pendingEmpty))
      && (timeoutNs.Some? && timeoutNs.value > 0 ==> p.timeoutEntry && p.wait)
    ensures timeoutNs.None? || (NS_PER_MS <= timeoutNs.value && timeoutNs.value / NS_PER_MS < U32_LIMIT) ==>
      PollPlanOf(pendingEmpty, timeoutNs) == PollPlanWith(AsWritten, pendingEmpty, timeoutNs)
  {
    if timeoutNs.Some? && NS_PER_MS <= timeoutNs.value && timeoutNs.value / NS_PER_MS < U32_LIMIT {
      assert timeoutNs.value / NS_PER_MS >= 1;
    }
  }

  /** As written: with nothing pending, a zero timeout, a half-millisecond
      one and one of 2^32 ms all wait with no timeout entry, so nothing is
      in flight that could complete. */
  lemma PollWaitsForeverAsWritten()
    ensures PollPlanWith(AsWritten, true, Some(0)) == PollPlan(false, true)
    ensures PollPlanWith(AsWritten, true, Some(NS_PER_MS / 2)) == PollPlan(false, true)
    ensures PollPlanWith(AsWritten, true, Some(U32_LIMIT * NS_PER_MS)) == PollPlan(false, true)
    ensures !PollPlanOf(true, Some(0)).wait && PollPlanOf(true, Some(U32_LIMIT * NS_PER_MS)).timeoutEntry
  {
    assert (U32_LIMIT * NS_PER_MS) / NS_PER_MS == U32_LIMIT;
  }
}

=== FILE: wrappers.dfy ===
/** Failure-carrying datatypes shared by every module of the model, and the
    Python exception kinds the Rust code raises through PyO3. */
module Wrappers {

  /** Rust's `Option<T>`. */
  datatype Option<+T> = None | Some(value: T) {
    predicate IsFailure() { None? }

    function PropagateFailure<U>(): Option<U>
      requires None?
    {
      None
    }

    function Extract(): T
      requires Some?
    {
      value
    }
  }

  /** Rust's `Result<T, E>`. */
  datatype Result<+T, +E> = Ok(value: T) | Err(error: E) {
    predicate IsFailure() { Err? }

    function PropagateFailure<U>(): Result<U, E>
      requires Err?
    {
      Err(error)
    }

    function Extract(): T
      requires Ok?
    {
      value
    }
  }

  /** The Python exception a `PyResult` carries, with its message. An OS error
      keeps the errno only. */
  datatype PyError =
    | RuntimeError(msg: string)
    | ValueError(msg: string)
    | ConnectionError(msg: string)
    | BlockingIOError(msg: string)
    | OSError(errno: int)

  /** Which reading of a function that carries a source defect: `AsWritten`
      follows the source line by line, `Corrected` repairs the defect. */
  datatype Variant = AsWritten | Corrected

  /** Raw bytes, as `Vec<u8>` / `BytesMut` hold them. */
  type Bytes = seq<bv8>

  // --- decimal formatting, as Rust's `{}` prints a `usize` ---------------------

  predicate IsDigit(c: char) {
    '0' as int <= c as int <= '9' as int
  }

  function DigitValue(c: char): (d: nat)
    requires IsDigit(c)
    ensures d < 10
  {
    (c as int) - ('0' as int)
  }

  function DigitChar(d: nat): (c: char)
    requires d < 10
    ensures IsDigit(c) && DigitValue(c) == d
  {
    ('0' as int + d) as char
  }

  /** The shortest decimal rendering of `n`: digits only, no leading zero. */
  function DecimalString(n: nat): (s: string)
    ensures |s| >= 1 && forall i :: 0 <= i < |s| ==> IsDigit(s[i])
    ensures s[0] == '0' <==> n == 0
  {
    if n < 10 then [DigitChar(n)] else DecimalString(n / 10) + [DigitChar(n % 10)]
  }

  /** Reads a string of digits back as a number. */
  function ParseDecimal(s: string): nat
    requires forall i :: 0 <= i < |s| ==> IsDigit(s[i])
  {
    if |s| == 0 then 0
    else ParseDecimal(s[..|s| - 1]) * 10 + DigitValue(s[|s| - 1])
  }

  /** The rendering loses nothing: parsing it gives the number back. */
  lemma {:induction false} DecimalRoundTrip(n: nat)
    ensures ParseDecimal(DecimalString(n)) == n
  {
    if n >= 10 {
      var s := DecimalString(n);
      assert s[..|s| - 1] == DecimalString(n / 10);
      DecimalRoundTrip(n / 10);
    }
  }

  /** Distinct numbers print differently. */
  lemma DecimalInjective(a: nat, b: nat)
    requires DecimalString(a) == DecimalString(b)
    ensures a == b
  {
    DecimalRoundTrip(a);
    DecimalRoundTrip(b);
  }
}
